=== FILE: README.md ===
# A verified model of the voxeltools grid core

This project models the integer core of the voxeltools library for
Grasshopper/Rhino. That core covers:

- the `short` coordinates `Point3i` and `Point2i`;
- the three-dimensional grids `Grid3D`, `BitGrid3D`, `VoxelGrid3D` and
  `ScalarGrid3D`, and the two-dimensional `Grid2D` and `PixelGrid2D`;
- the index arithmetic of `MatrixHelper`;
- the byte and hex serialisation of `ByteHelper`;
- the components that compute on voxel grids: statistics, accessible roofs,
  the obsolete count limiter, union, intersection, difference and
  exclusive-or, writing from a list, and the integer line traversal of
  geometry voxelation.

Everything is written as pure functions over immutable datatypes:

- A grid is a value `Grid3(box, voxelSize, size, storage)`. Its storage is
  either null or the sequence of its cells in index order.
- A .NET exception becomes `Err(kind)` of a `Result`. The `Error` datatype
  has one kind per exception the code raises.
- C# `int` and `short` arithmetic is written out explicitly. Unchecked
  products wrap (`Wrap32`, `Wrap16`), `Convert.ToInt16` is checked, and `/`
  and `%` truncate toward zero (`TDiv`, `TRem`).
- A `double` is carried as its IEEE-754 bit pattern. That pattern is what
  `BitConverter` reads and writes.
- The one floating-point computation the grids depend on is the extent
  `Math.Floor(length / cellSize)`. It enters the model as a parameter `fd`
  (a `FloorDivide` function), so each extent lemma holds for whatever the
  floating-point division yields.

The modules follow the source files:

| module | source file |
|---|---|
| `Point3i`, `Point2i` | the point structs |
| `Grid3D` | the shared grid logic: extent, the size setter as written and corrected, cell access, clones, `PointsInBox` |
| `BitGrid3D`, `VoxelGrid3D`, `ScalarGrid3D`, `Grid2D`, `PixelGrid2D` | the grid classes |
| `Aliasing` | a small heap model, so the shared versus copied bit arrays of the clones can be stated |
| `MatrixHelper`, `MatrixMap3` | index arithmetic and the callback enumerations |
| `LittleEndian`, `ByteHelper`, `Geometry` | serialisation |
| `Occupancy` | cell occupancy stated on coordinates, used by the component specifications |
| `Statistics`, `AccessibleRoof`, `Limiter`, `ScanOrder`, `SetAlgebra`, `FromList`, `VoxelateGeometry` | the components |
| `Numerics`, `Wrappers` | C# integer semantics and the result types |

## Model

| member | source | states |
|---|---|---|
| Numerics.Wrap16 | VoxelGeometry/Point3i.cs:141-150 | the unchecked `(short)` cast agrees with its argument modulo 2^16 and is the identity on `short` values |
| Numerics.Wrap32 | VoxelGeometry/Point3i.cs:181-184 | unchecked 32-bit arithmetic agrees with the exact value modulo 2^32 and is exact when that value fits an `int` |
| Numerics.ToInt16Checked | VoxelGeometry/Point3i.cs:169-175 | `Convert.ToInt16` succeeds exactly on `short` values, returns them unchanged, and otherwise throws an overflow |
| Numerics.TDiv | VoxelGeometry/Helper/MatrixHelper.cs:34 | C# `/` on `int` truncates toward zero: for every sign of the operands, what the quotient leaves is smaller than the divisor in magnitude and zero or of the dividend's sign |
| Numerics.TRem | VoxelGeometry/Helper/MatrixHelper.cs:34-36 | C# `%` on `int`: for every sign, the remainder is smaller than the divisor in magnitude and zero or of the dividend's sign |
| Numerics.TruncatedDivisionUnique | VoxelGeometry/Helper/MatrixHelper.cs:34-36 | any decomposition `a == b * q + r` with such a remainder is the one `TDiv` and `TRem` give, so they are C#'s `/` and `%` |
| Numerics.TruncationDiffersOnNegatives | VoxelGeometry/Helper/MatrixHelper.cs:32-37 | an illustration: C# `/` and `%` differ from Euclidean division on a negative dividend (`-7 / 2`, `-7 % 2`) |
| Point3i.Get | VoxelGeometry/Point3i.cs:39-51 | the indexer reads component `dim` of `ToArray` for `dim` in 0..2 and throws `IndexOutOfRange` otherwise |
| Point3i.GetAfterSet | VoxelGeometry/Point3i.cs:53-69 | setting a component and reading it back gives the value narrowed to `short`; the other components keep theirs |
| Point3i.FromInts | VoxelGeometry/Point3i.cs:169-175 | the object constructor succeeds exactly when every coordinate fits a `short`, and keeps the coordinates |
| Point3i.FromArray | VoxelGeometry/Point3i.cs:141-150 | the array constructor needs exactly three elements and narrows each one unchecked |
| Point3i.FromArrayToArray | VoxelGeometry/Point3i.cs:141-150 | building a point from its own array gives the point back |
| Point3i.AddSubInverse | VoxelGeometry/Point3i.cs:82-96 | `+` throws exactly when a component sum leaves `short`, `-` undoes it, and `+` is commutative |
| Point3i.ScaleByUnit | VoxelGeometry/Point3i.cs:262-265 | scaling by 1 is the identity; scaling by -1 overflows exactly on a component -32768 |
| Point3i.Equals | VoxelGeometry/Point3i.cs:103-106 | `Equals` is componentwise equality |
| Point3i.SelfProduct | VoxelGeometry/Point3i.cs:181-184 | the product of the components, exact whenever it fits an `int` |
| Point3i.ComparisonDuality | VoxelGeometry/Point3i.cs:323-359 | `>` and `<`, and `>=` and `<=`, mirror each other, and `>=` is the negation of "every component below" |
| Point3i.ComparisonsAreNotAnOrder | VoxelGeometry/Point3i.cs:323-359 | any two points where one is smaller on x and larger on y are each less than and each greater than the other, so the comparisons are no order |
| Point3i.InGrid | VoxelGeometry/VoxelGrid3D.cs:94-97 | `!(p < Origin \|\| p >= size)` holds exactly when every component lies in `[0, size)` |
| Point3i.CellCount | VoxelGeometry/Point3i.cs:181-184 | a size that fits has a positive cell count equal to its `SelfProduct` |
| Point3i.IndexIsExact | VoxelGeometry/Point3i.cs:280-297 | inside a grid that fits, the 32-bit index of a cell does not wrap and is its mixed-radix number, below the cell count |
| Point3i.IndexToPointUvwIsUvw | VoxelGeometry/Point3i.cs:307-315 | for a size that fits, `IndexToPointUvw` maps each non-negative `int` index to its mixed-radix cell |
| Point3i.IndexOfCell | VoxelGeometry/Point3i.cs:280-315 | every index below the cell count is the index of its own cell |
| Point3i.CellOfIndex | VoxelGeometry/Point3i.cs:280-315 | PointUvwToIndex and IndexToPointUvw are inverse bijections between the cells and `[0, CellCount)` |
| Point2i.Get | VoxelGeometry/Point2i.cs:33-44 | the indexer reads component 0 or 1 and throws `IndexOutOfRange` otherwise |
| Point2i.GetAfterSet | VoxelGeometry/Point2i.cs:45-58 | setting a component and reading it back gives the narrowed value; the other component is unchanged |
| Point2i.FromInts | VoxelGeometry/Point2i.cs:154-158 | the object constructor succeeds exactly when both coordinates fit a `short` |
| Point2i.FromArray | VoxelGeometry/Point2i.cs:129-137 | the array constructor needs exactly two elements and narrows each one unchecked |
| Point2i.AddSubInverse | VoxelGeometry/Point2i.cs:71-85 | `+` throws exactly on `short` overflow, `-` undoes it, and `+` is commutative |
| Point2i.Equals | VoxelGeometry/Point2i.cs:92-95 | `Equals` is componentwise equality |
| Point2i.SelfProduct | VoxelGeometry/Point2i.cs:164-167 | two `short`s multiply without wrapping |
| Point2i.ComparisonDuality | VoxelGeometry/Point2i.cs:286-322 | the comparison operators mirror each other and negate the all-components comparisons |
| Point2i.Caret | VoxelGeometry/Point2i.cs:262-266 | `^` never overflows an `int` |
| Point2i.ModIsUv | VoxelGeometry/Point2i.cs:275-278 | `%` maps each non-negative `int` index to its pixel |
| Point2i.PixelIndexRoundTrip | VoxelGeometry/Point2i.cs:262-278 | `uv ^ size` and `size % i` are inverse bijections between the pixels and `[0, size.X * size.Y)` |
| Grid3D.SetSizeAsWritten | VoxelGeometry/Grid3D.cs:67-82 | the size setter as written accepts a size exactly when its wrapped product is at least one and every component is positive |
| Grid3D.SetSizeAsWrittenAdmitsWrappedCount | VoxelGeometry/Grid3D.cs:67-82 | that guard accepts 5 x 32767 x 32767, whose count wraps to 1073414149 and whose cell (4, 0, 0) gets index -262140 |
| Grid3D.SetSize | VoxelGeometry/Grid3D.cs:67-82 | the corrected setter accepts a size exactly when every component is positive and the exact count fits an `int` |
| Grid3D.SetSizeAdmitsOnlyIndexableSizes | VoxelGeometry/Grid3D.cs:67-82 | the corrected setter accepts exactly the sizes the original accepts with an unwrapped count, and then every cell's index lies in `[0, Count)` |
| Grid3D.FitsIsValid | VoxelGeometry/Grid3D.cs:54-59 | a size that fits makes `IsValid` hold with an exact count |
| Grid3D.FloorToInt16 | VoxelGeometry/Grid3D.cs:327-331 | `Convert.ToInt16` of a floored quotient throws an overflow on an infinity, a NaN or a value outside `short` |
| Grid3D.Extent | VoxelGeometry/Grid3D.cs:327-331 | the extent succeeds exactly when all three floored quotients fit a `short`, and it is those quotients |
| Grid3D.Initialize | VoxelGeometry/Grid3D.cs:322-333 | `Initialize` succeeds exactly when the extent exists and passes the corrected setter (positive components, exact count within `int`); it sets the box, cell size and extent and keeps the storage |
| Grid3D.InitializeIsReproducible | VoxelGeometry/Grid3D.cs:322-333 | initialising from the same box and cell size always gives the same extent, so a grid's own box rebuilds it |
| Grid3D.Allocate | VoxelGeometry/VoxelGrid3D.cs:34 | `new BitArray(SizeUVW.SelfProduct(), false)`, and `new float[SizeUVW.SelfProduct()]` at ScalarGrid3D.cs line 20: new storage holds `Count` default values and nothing else of the grid changes |
| Grid3D.ReadCell | VoxelGeometry/Grid3D.cs:89-93 | a read succeeds exactly on an index inside non-null storage; null storage throws a null reference and a bad index throws the storage's own exception |
| Grid3D.WriteCell | VoxelGeometry/BitGrid3D.cs:167-174 | a write replaces exactly one cell; a bad index is ignored by a bit array and throws for a `float[]` |
| Grid3D.ReadAfterWrite | VoxelGeometry/Grid3D.cs:89-93 | reading a written index gives the written value and every other index is unchanged |
| Grid3D.SetAtInGrid | VoxelGeometry/Grid3D.cs:274-277 | through this coordinate setter, read back with the coordinate getter (lines 174-177): in a well-formed grid, writing an in-grid coordinate changes that coordinate's value and no other in-grid coordinate's |
| Grid3D.CoordinatesAlias | VoxelGeometry/Grid3D.cs:274-277 | the coordinate setter checks no bounds: in a 2 x 2 x 2 grid, writing (0, 0, 2) writes cell (0, 1, 0) |
| Grid3D.CopyCellsCopies | VoxelGeometry/Grid3D.cs:114-117 | the clone's copy loop copies every cell and nothing else |
| Grid3D.CloneAsWrittenAlwaysFails | VoxelGeometry/Grid3D.cs:110-119 | the base clone as written fails on every grid with a cell, and on a well-formed one with a null reference |
| Grid3D.CloneCopiesEveryCell | VoxelGeometry/Grid3D.cs:110-119 | the corrected clone of a well-formed grid equals it: box, cell size, extent and every cell |
| Grid3D.PointsInBox | VoxelGeometry/Grid3D.cs:184-200 | the listed points are exactly those between the clamped corners, inclusive on both ends, in x-major order |
| Grid3D.PointsInBoxReachesExtent | VoxelGeometry/Grid3D.cs:184-200 | the inclusive upper bound lists a point one past the grid |
| BitGrid3D.GetValue | VoxelGeometry/BitGrid3D.cs:112-115 | a read succeeds exactly on an index inside the bit array and returns that bit |
| BitGrid3D.SetValue | VoxelGeometry/BitGrid3D.cs:167-174 | a write sets exactly one bit; an index outside is ignored and null storage throws |
| BitGrid3D.CountNonZero | VoxelGeometry/BitGrid3D.cs:25-43 | the count is the number of true cells, or 0 for null storage |
| BitGrid3D.CountTrueUpdate | VoxelGeometry/BitGrid3D.cs:25-43 | changing one cell changes the count by at most one, in the direction of the change |
| BitGrid3D.CombineIsCellwise | VoxelGeometry/BitGrid3D.cs:55-66 | And, Or, Xor and Subtract throw exactly when the counts differ; otherwise every cell becomes `a[i] op b[i]` and nothing else changes |
| BitGrid3D.SubtractAndShrink | VoxelGeometry/BitGrid3D.cs:180-195 | Subtract never turns a cell on, and And (lines 55-66) is the cellwise conjunction |
| BitGrid3D.CombineIgnoresShape | VoxelGeometry/BitGrid3D.cs:132-143 | only total counts are compared: any two grids with equal counts combine, whatever their shapes, and the result has the first grid's shape |
| BitGrid3D.UnreadArgumentIsIrrelevant | VoxelGeometry/BitGrid3D.cs:132-143 | a short-circuit operator that does not read the other cell leaves the cell unchanged |
| BitGrid3D.NotIsAnInvolution | VoxelGeometry/BitGrid3D.cs:120-126 | Not flips exactly the cells below `Count`, and applying it twice restores the grid |
| BitGrid3D.GetRelativePointValue | VoxelGeometry/BitGrid3D.cs:97-105 | a relative read returns -1, 0 or 1 |
| BitGrid3D.GetRelativePointValueReadsNeighbour | VoxelGeometry/BitGrid3D.cs:97-105 | a relative read gives -1 exactly when the neighbour lies outside the grid, else whether its cell is set |
| BitGrid3D.SetRelativePointValueWritesNeighbour | VoxelGeometry/BitGrid3D.cs:151-160 | a relative write changes exactly the neighbour's cell, or nothing when the neighbour lies outside |
| Occupancy.ReadIsOccupancy | VoxelGeometry/BitGrid3D.cs:97-105 | a relative read of a unit offset reads the occupancy of the neighbour's coordinates |
| Occupancy.WriteIsAt | VoxelGeometry/BitGrid3D.cs:151-160 | a relative write of a unit offset changes exactly the cell at the neighbour's coordinates |
| Aliasing.ShallowCloneSharesBits | VoxelGeometry/BitGrid3D.cs:72-75 | the `MemberwiseClone` clone shares its bit array, so a write through the clone shows through the original |
| Aliasing.DeepCloneIsolates | VoxelGeometry/VoxelGrid3D.cs:44-58 | the copy constructor's copy denotes the same grid, and afterwards a write through either object leaves the other unchanged |
| Aliasing.DeepCloneIsCopy | VoxelGeometry/VoxelGrid3D.cs:44-58 | the copy constructor's new array denotes the grid the functional copy computes |
| Aliasing.Inject | VoxelGeometry/VoxelGrid3D.cs:20-24 | the bits constructor succeeds as the functional constructor does and refers to the caller's array |
| Aliasing.InjectedBitsAreShared | VoxelGeometry/VoxelGrid3D.cs:20-24 | after injection, the caller's later changes show in the grid and the grid's writes show in the caller's array |
| VoxelGrid3D.New | VoxelGeometry/VoxelGrid3D.cs:31-37 | the (box, size) constructor succeeds exactly when `Initialize` (corrected setter) does and gives a well-formed grid with no set cell |
| VoxelGrid3D.WithBits | VoxelGeometry/VoxelGrid3D.cs:20-24 | the bits constructor succeeds exactly when `Initialize` (corrected setter) does and keeps the given bit array whatever its length, a null one as null storage |
| VoxelGrid3D.WithBitsSkipsLengthCheck | VoxelGeometry/VoxelGrid3D.cs:20-24 | injected bits need not match the extent: the result can be ill-formed |
| VoxelGrid3D.WithNullBitsFailsLater | VoxelGeometry/VoxelGrid3D.cs:20-24 | a null bit array is accepted, and every later read or write of the grid throws a null reference |
| VoxelGrid3D.Copy | VoxelGeometry/VoxelGrid3D.cs:44-58 | the copy constructor succeeds exactly on a size that passes the corrected setter and non-null bits, and then equals its argument |
| VoxelGrid3D.CloneIsEqualCopy | VoxelGeometry/VoxelGrid3D.cs:70-81 | the clone of a well-formed grid equals it |
| VoxelGrid3D.CloneEmpty | VoxelGeometry/VoxelGrid3D.cs:87-90 | the empty clone has the same box, cell size and extent and no set cell |
| VoxelGrid3D.PointInGrid | VoxelGeometry/VoxelGrid3D.cs:94-97 | a point is in the grid exactly when every component lies in `[0, size)` |
| ScalarGrid3D.New | VoxelGeometry/ScalarGrid3D.cs:17-21 | the constructor, through `Initialize` with the corrected setter, gives a well-formed grid whose every value is zero |
| ScalarGrid3D.SetValueWritesOneCell | VoxelGeometry/ScalarGrid3D.cs:89-103 | a write changes exactly one value; an index outside the array throws |
| ScalarGrid3D.VoxelCount | VoxelGeometry/ScalarGrid3D.cs:33-48 | an invalid grid reports -1 |
| ScalarGrid3D.VoxelCountCountsPositiveCells | VoxelGeometry/ScalarGrid3D.cs:33-48 | a valid grid reports the number of strictly positive values; NaN does not count |
| ScalarGrid3D.PositiveIsAboveZero | VoxelGeometry/ScalarGrid3D.cs:42 | the test `value > 0` holds on a pattern exactly when its sign bit is clear and it is neither zero nor a NaN; the NaN read outside the grid is a NaN |
| ScalarGrid3D.GetRelativePointValueReadsNeighbour | VoxelGeometry/ScalarGrid3D.cs:56-64 | a relative read gives the neighbour's value, or NaN exactly when the neighbour is outside |
| ScalarGrid3D.CloneIsEqualCopy | VoxelGeometry/ScalarGrid3D.cs:74-82 | the clone of a well-formed grid equals it |
| Grid2D.Extent | VoxelGeometry/Grid2D.cs:39-42 | the extent succeeds exactly when both floored quotients fit a `short` |
| Grid2D.New | VoxelGeometry/Grid2D.cs:33-45 | the constructor keeps the rectangle, pixel size and injected storage |
| Grid2D.IsValidIsPositive | VoxelGeometry/Grid2D.cs:179 | a product of two `short`s cannot wrap, so validity is positivity |
| Grid2D.NewAcceptsEmptyExtent | VoxelGeometry/Grid2D.cs:118-120 | the unguarded extent setter lets the constructor build an invalid grid |
| Grid2D.InPixelGrid | VoxelGeometry/Grid2D.cs:60-69 | the bounds test holds exactly when both components lie in range |
| Grid2D.PixelIndexBijection | VoxelGeometry/Grid2D.cs:93-106 | on a valid grid UVIndex and IndexUV are inverse bijections, and UVIndex is `uv.X * SizeUV.Y + uv.Y` |
| Grid2D.GetRelativeUVThrowsOutside | VoxelGeometry/Grid2D.cs:60-69 | the neighbour is the pixel's position plus the offset, and the method throws exactly when that lies outside |
| PixelGrid2D.WithBits | VoxelGeometry/PixelGrid2D.cs:21-26 | the bits constructor is the Grid2D constructor with the given bit array, a null one as null storage |
| PixelGrid2D.WithNullBitsFailsLater | VoxelGeometry/PixelGrid2D.cs:21-26 | a null bit array is accepted, and `Count` and every later read throw a null reference |
| PixelGrid2D.New | VoxelGeometry/PixelGrid2D.cs:45-52 | the constructor allocates one false bit per pixel and throws for a negative pixel count |
| PixelGrid2D.Count | VoxelGeometry/PixelGrid2D.cs:126 | `Count` is the length of the bit array and throws on null storage |
| PixelGrid2D.CountIsStorageLength | VoxelGeometry/PixelGrid2D.cs:126 | the count of a grid built on injected bits is their length whatever the extent; it equals the pixel count exactly when the lengths agree |
| PixelGrid2D.ValueAt | VoxelGeometry/PixelGrid2D.cs:111-114 | a read succeeds exactly on an index inside the bit array |
| PixelGrid2D.SetValueWritesOneBit | VoxelGeometry/PixelGrid2D.cs:116-119 | a write changes exactly one bit and throws on a bad index |
| PixelGrid2D.SetValueAtPointWritesOnePixel | VoxelGeometry/Grid2D.cs:141-171 | on a valid grid, writing a pixel changes that pixel and no other |
| PixelGrid2D.Copy | VoxelGeometry/PixelGrid2D.cs:59-73 | the copy constructor succeeds exactly on non-null storage and equals its argument |
| PixelGrid2D.CopyBitsOverruns | VoxelGeometry/PixelGrid2D.cs:59-73 | copying more bits than the destination holds throws before the loop ends |
| PixelGrid2D.CloneCopiesEveryBit | VoxelGeometry/PixelGrid2D.cs:85-93 | a grid with one bit per pixel clones to itself, and a grid with more bits than pixels cannot be cloned |
| PixelGrid2D.CloneEmpty | VoxelGeometry/PixelGrid2D.cs:99-102 | the empty clone keeps the rectangle and pixel size and clears every bit |
| MatrixHelper.HornerStep | VoxelGeometry/Helper/MatrixHelper.cs:6-12 | appending a digit below radix `t` keeps the value in range, and `/` and `%` recover both parts |
| MatrixHelper.ComposeDecompose | VoxelGeometry/Helper/MatrixHelper.cs:6-12 | composing the digits of an index below the product gives the index back |
| MatrixHelper.DecomposeCompose | VoxelGeometry/Helper/MatrixHelper.cs:6-12 | a position inside the sizes composes to an index below the product, and its digits are the position |
| MatrixHelper.MatrixVectorLoopDigits | VoxelGeometry/Helper/MatrixHelper.cs:32-37 | the 32-bit loop over the axes, last axis first, produces the mixed-radix digits |
| MatrixHelper.MatrixVectorIsDecompose | VoxelGeometry/Helper/MatrixHelper.cs:17-39 | for positive sizes with an `int` product, MatrixVector returns the mixed-radix digits of an index |
| MatrixHelper.MatrixVectorZeroSize | VoxelGeometry/Helper/MatrixHelper.cs:32-37 | a zero size makes the loop throw a division by zero when it reaches that axis |
| MatrixHelper.MatrixVectorMinValueOverflows | VoxelGeometry/Helper/MatrixHelper.cs:34 | the index `int.MinValue` with a last size of -1 throws an overflow at `int.MinValue % -1` |
| MatrixHelper.MatrixVectorExample | VoxelGeometry/Helper/MatrixHelper.cs:6-12 | item 55 of a [3, 4, 6] grid is at [2, 1, 1] |
| MatrixHelper.VectorMatrixIsCompose | VoxelGeometry/Helper/MatrixHelper.cs:49-69 | VectorMatrix is the mixed-radix value of its vector, reduced to 32 bits |
| MatrixHelper.VectorMatrixAfterMatrixVector | VoxelGeometry/Helper/MatrixHelper.cs:17-69 | VectorMatrix undoes MatrixVector on every index of a grid with an `int` product |
| MatrixHelper.MatrixVectorAfterVectorMatrix | VoxelGeometry/Helper/MatrixHelper.cs:17-69 | MatrixVector undoes VectorMatrix on every position inside the sizes |
| MatrixHelper.MapMatrix | VoxelGeometry/Helper/MatrixHelper.cs:107-119 | MapMatrix calls back once per index below the 32-bit product, with MatrixVector of that index |
| MatrixHelper.MapMatrixEnumerates | VoxelGeometry/Helper/MatrixHelper.cs:107-119 | for positive sizes with an `int` product, the callbacks enumerate every index in order with its digits |
| MatrixHelper.MapMatrixMT | VoxelGeometry/Helper/MatrixHelper.cs:180-188 | the `int[]` MapMatrixMT never calls its delegate |
| MatrixMap3.MapMatrixPointsEnumeratesCells | VoxelGeometry/Helper/MatrixHelper.cs:163-172 | the Point3i MapMatrix visits each cell once, in index order, with its index |
| MatrixMap3.MapMatrixXYZEnumeratesCells | VoxelGeometry/Helper/MatrixHelper.cs:137-140 | the XYZ overloads, including the "MT" one at lines 206-209, hand over every cell's coordinates in index order |
| MatrixMap3.MapMatrixMTPoints | VoxelGeometry/Helper/MatrixHelper.cs:147-156 | the Point3i and vector MapMatrixMT overloads reach the `int[]` one and never call back |
| LittleEndian.LeValueOfBytes | VoxelTools/Helper/ByteHelper.cs:82-90 | little-endian decoding undoes encoding for every value the width holds |
| LittleEndian.LeBytesOfValue | VoxelTools/Helper/ByteHelper.cs:61-75 | every byte string is the encoding of its value |
| LittleEndian.Int32RoundTrip | VoxelTools/Helper/ByteHelper.cs:61-90 | the four-byte layout of an `int` is a bijection |
| ByteHelper.ToDoubleArray | VoxelTools/Helper/ByteHelper.cs:22-36 | decoding succeeds exactly on a length divisible by eight, with one double per eight bytes |
| ByteHelper.DoubleArrayCodecIsBijective | VoxelTools/Helper/ByteHelper.cs:22-52 | decoding inverts encoding, and every decodable byte string is the encoding of its decoding |
| ByteHelper.ToIntArray | VoxelTools/Helper/ByteHelper.cs:61-75 | decoding succeeds exactly on a length divisible by four |
| ByteHelper.IntsRoundTrip | VoxelTools/Helper/ByteHelper.cs:61-90 | decoding inverts the `int[]` encoding |
| ByteHelper.IntBytesRoundTrip | VoxelTools/Helper/ByteHelper.cs:61-90 | encoding inverts decoding on every length divisible by four |
| ByteHelper.ToVec3 | VoxelTools/Helper/ByteHelper.cs:103-145 | the point and vector decoders need exactly 24 bytes |
| ByteHelper.Vec3RoundTrip | VoxelTools/Helper/ByteHelper.cs:103-155 | point and vector decoding inverts encoding |
| ByteHelper.ToBytePlane | VoxelTools/Helper/ByteHelper.cs:188-195 | a plane is its origin, X axis and Y axis at offsets 0, 24 and 48 |
| ByteHelper.PlaneRoundTrip | VoxelTools/Helper/ByteHelper.cs:168-195 | plane decoding inverts encoding |
| ByteHelper.IntervalRoundTrip | VoxelTools/Helper/ByteHelper.cs:207-227 | interval decoding inverts encoding |
| ByteHelper.ToByteBox | VoxelTools/Helper/ByteHelper.cs:259-267 | a box is its plane and three intervals at offsets 0, 72, 88 and 104 |
| ByteHelper.BoxRoundTrip | VoxelTools/Helper/ByteHelper.cs:239-267 | box decoding inverts encoding |
| ByteHelper.NibbleChar | VoxelTools/Helper/ByteHelper.cs:276-288 | the branch-free 32-bit character arithmetic yields the upper-case hex digit of the nibble |
| ByteHelper.HexChars | VoxelTools/Helper/ByteHelper.cs:276-288 | a byte prints as its high nibble's digit, then its low nibble's |
| ByteHelper.HexPair | VoxelTools/Helper/ByteHelper.cs:303-304 | `Convert.ToByte` of a pair in base 16 gives 16 times the first digit's value plus the second's; a leading minus sign throws an argument error, and any other non-digit throws a format error |
| ByteHelper.StringToByteArrayAcceptsHexPairs | VoxelTools/Helper/ByteHelper.cs:296-307 | parsing succeeds exactly when every character of the pairs read is a hex digit; otherwise a bad first pair gives that pair's error |
| ByteHelper.HexRoundTrip | VoxelTools/Helper/ByteHelper.cs:276-307 | parsing the hex text of bytes gives the bytes back |
| ByteHelper.HexParseThenPrint | VoxelTools/Helper/ByteHelper.cs:276-307 | printing parsed hex gives the input upper-cased, without a trailing odd character |
| ByteHelper.UnpackPack | VoxelTools/Helper/ByteHelper.cs:315-348 | unpacking packed bits gives them back, padded with false to a multiple of eight |
| ByteHelper.ToByteBits | VoxelTools/Helper/ByteHelper.cs:315-331 | the bit count comes first as a four-byte prefix, then the packed bits |
| ByteHelper.ToBitArray | VoxelTools/Helper/ByteHelper.cs:338-348 | decoding fails on fewer than four bytes or a negative prefix, and otherwise yields as many bits as the prefix says |
| ByteHelper.BitArrayRoundTrip | VoxelTools/Helper/ByteHelper.cs:315-348 | decoding encoded bits gives them back, whatever trails the encoding |
| ByteHelper.ToByteVoxelGrid | VoxelTools/Helper/ByteHelper.cs:356-373 | the layout is cell size at 0, box at 24 and bits at 144, followed by four zero bytes; null bits throw |
| ByteHelper.ToVoxelGrid | VoxelTools/Helper/ByteHelper.cs:380-386 | a short input fails, and a decoded grid holds as many bits as its prefix says |
| ByteHelper.VoxelGridRoundTrip | VoxelTools/Helper/ByteHelper.cs:356-386 | a well-formed grid survives encoding and decoding: cell size, box, extent and every bit |
| Statistics.CellTallyReadsNeighbours | VoxelTools/Components/VoxelGrid/VoxelGridStatistics.cs:81-117 | the six relative reads of a cell are the readings of its six neighbours |
| Statistics.OpenIsExposed | VoxelTools/Components/VoxelGrid/VoxelGridStatistics.cs:83-102 | a side counts as a facade exactly when the neighbour is empty or outside the grid |
| Statistics.ReadingBelow | VoxelTools/Components/VoxelGrid/VoxelGridStatistics.cs:108-117 | below a cell the reading is -1 exactly in the bottom layer and 0 exactly over an empty cell |
| Statistics.CellTallyIsExpected | VoxelTools/Components/VoxelGrid/VoxelGridStatistics.cs:81-117 | the loop body for a voxel adds its facades, terrace, overhang and footprint as defined on coordinates |
| Statistics.TallyLoopIsExpected | VoxelTools/Components/VoxelGrid/VoxelGridStatistics.cs:76-118 | the loop sums the reference contributions of all cells |
| Statistics.SolveStatistics | VoxelTools/Components/VoxelGrid/VoxelGridStatistics.cs:125-127 | the voxel and void counts add up to the cell count |
| Statistics.StatisticsAreSurfaceCounts | VoxelTools/Components/VoxelGrid/VoxelGridStatistics.cs:52-127 | the component reports the reference counts; surfaces are their sum, voxels the set cells and voids the empty ones |
| Statistics.SurfacesAreBoundedByVoxels | VoxelTools/Components/VoxelGrid/VoxelGridStatistics.cs:76-120 | at most four facades and one terrace per voxel, and at most one of overhang and footprint |
| AccessibleRoof.RoofCellReadsAbove | VoxelTools/Components/VoxelGrid/VoxelGridAccessibleRoof.cs:96-127 | a voxel that is covered, or lies in the top layer, leaves the output grids alone |
| AccessibleRoof.MarkAllMarks | VoxelTools/Components/VoxelGrid/VoxelGridAccessibleRoof.cs:98-117 | the four marking reads set the voxels beside the cell above, and report whether there is one |
| AccessibleRoof.MarkedFromIsGrants | VoxelTools/Components/VoxelGrid/VoxelGridAccessibleRoof.cs:98-117 | marking from an uncovered voxel sets exactly the cells it grants access to |
| AccessibleRoof.RoofLoopExamines | VoxelTools/Components/VoxelGrid/VoxelGridAccessibleRoof.cs:90-129 | the loop keeps its invariant up to the last cell |
| AccessibleRoof.StartExamined | VoxelTools/Components/VoxelGrid/VoxelGridAccessibleRoof.cs:81-83 | three new grids over the input's box are empty and have its extent |
| AccessibleRoof.SolveFindsRoofs | VoxelTools/Components/VoxelGrid/VoxelGridAccessibleRoof.cs:76-134 | the roofs are the uncovered voxels with a voxel beside the cell above, the stairs are the other uncovered voxels, and the accessible voxels are those granting access |
| AccessibleRoof.RoofsPartitionUncovered | VoxelTools/Components/VoxelGrid/VoxelGridAccessibleRoof.cs:76-134 | every output cell is a voxel; roof and stairs partition the uncovered voxels; the top layer is neither |
| ScanOrder.TopDown | VoxelTools/Components/Obsolete/VoxelGridLimiterObsolete.cs:163-185 | the top-down scan visits exactly the cells of the layers below `n`, never going up a layer |
| ScanOrder.BottomUp | VoxelTools/Components/Obsolete/VoxelGridLimiterObsolete.cs:139-161 | the bottom-up scan visits exactly the cells of the layers below `n`, never going down a layer |
| Limiter.PutChangesOneCell | VoxelTools/Components/Obsolete/VoxelGridLimiterObsolete.cs:163-185 | writing one cell changes that cell alone, and the count by at most one |
| Limiter.LimitGridLeavesLimit | VoxelTools/Components/Obsolete/VoxelGridLimiterObsolete.cs:163-185 | limiting clears only set cells, leaves exactly `max(limit, 0)` of them, and never clears a cell below one it keeps |
| Limiter.FillScanSets | VoxelTools/Components/Obsolete/VoxelGridLimiterObsolete.cs:139-161 | the fill sets only clear cells, in scan order, and stops exactly on reaching the target |
| Limiter.FromBottomFills | VoxelTools/Components/Obsolete/VoxelGridLimiterObsolete.cs:139-161 | the bottom-up fill reaches the target or fills the grid, and never sets a cell above one it leaves clear |
| Limiter.RoofLocationsAreHighest | VoxelTools/Components/Obsolete/VoxelGridLimiterObsolete.cs:79-96 | the locations are exactly the set cells of the highest occupied layer, and exist exactly when a cell is set |
| Limiter.RoofLocationsExist | VoxelTools/Components/Obsolete/VoxelGridLimiterObsolete.cs:79-96 | there are locations exactly when the grid has set cells, and each is a cell index |
| Limiter.HeightsShareOut | VoxelTools/Components/Obsolete/VoxelGridLimiterObsolete.cs:107-114 | the first `rest` locations get one cell more than the others, and the heights add up to `n * height + rest` |
| Limiter.HeightsSumToDifference | VoxelTools/Components/Obsolete/VoxelGridLimiterObsolete.cs:103-114 | for a positive difference the heights add up to exactly the difference |
| Limiter.StackColumnAdds | VoxelTools/Components/Obsolete/VoxelGridLimiterObsolete.cs:116-121 | stacking one location fails only with an overflow, not at all within `short` range, and sets at most one cell per pass |
| Limiter.StackShareAdds | VoxelTools/Components/Obsolete/VoxelGridLimiterObsolete.cs:103-122 | stacking the difference sets at most that many cells and fails only with an overflow |
| Limiter.RoofIndexWraps | VoxelTools/Components/Obsolete/VoxelGridLimiterObsolete.cs:116-120 | the point one above the top layer has the index of the bottom cell of the next column |
| Limiter.StackPastRoofWraps | VoxelTools/Components/Obsolete/VoxelGridLimiterObsolete.cs:116-120 | as written, stacking over the top layer sets that other column's bottom cell; clipped, it sets nothing |
| Limiter.ClippedColumnStaysAbove | VoxelTools/Components/Obsolete/VoxelGridLimiterObsolete.cs:116-120 | the corrected stacking sets only cells of the location's own column, above it |
| Limiter.ClippedShareStaysAbove | VoxelTools/Components/Obsolete/VoxelGridLimiterObsolete.cs:103-122 | the corrected distribution sets only cells above some location, in its own column |
| Limiter.TopUpReaches | VoxelTools/Components/Obsolete/VoxelGridLimiterObsolete.cs:124-131 | the fallback reaches the target count, or fills every cell of a smaller grid |
| Limiter.IncreaseGridReachesCount | VoxelTools/Components/Obsolete/VoxelGridLimiterObsolete.cs:74-132 | below the target, an empty grid throws an overflow; otherwise the grid only gains cells and ends at the target or full |
| Limiter.SolveMeetsLimit | VoxelTools/Components/Obsolete/VoxelGridLimiterObsolete.cs:52-72 | for the component as written (`Solve`) and with the corrected stacking (`SolveCorrected`): an equal count is returned as is, a larger one is limited, and a smaller one is increased as IncreaseGrid promises |
| SetAlgebra.UnionCellsIsOr | VoxelTools/Components/VoxelGrid/VoxelGridUnion.cs:65-68 | the union's inner loop is `Or` on grids of equal count |
| SetAlgebra.FoldIsCellwise | VoxelTools/Components/VoxelGrid/VoxelGridIntersect.cs:54-58 | a fold throws exactly when a later grid's count differs, and otherwise combines each cell with its column |
| SetAlgebra.FoldedXor | VoxelTools/Components/VoxelGrid/VoxelGridExclusive.cs:54-58 | folding with Xor leaves a cell set exactly when an odd number of the cells is set |
| SetAlgebra.UnionIsAnyOf | VoxelTools/Components/VoxelGrid/VoxelGridUnion.cs:45-73 | the union has no output for an empty list or a count mismatch; otherwise a cell is set exactly when some grid sets it |
| SetAlgebra.IntersectIsAllOf | VoxelTools/Components/VoxelGrid/VoxelGridIntersect.cs:45-61 | the intersection throws on a count mismatch; otherwise a cell is set exactly when every grid sets it |
| SetAlgebra.DifferenceIsFirstLessRest | VoxelTools/Components/VoxelGrid/VoxelGridSubtract.cs:45-61 | the difference throws on a count mismatch; otherwise a cell is set exactly when the first grid sets it and no other does |
| SetAlgebra.ExclusiveIsParity | VoxelTools/Components/VoxelGrid/VoxelGridExclusive.cs:45-61 | exclusive-or throws on a count mismatch; otherwise a cell is set exactly when an odd number of grids set it |
| FromList.FromListOverwritesPrefix | VoxelTools/Components/VoxelGrid/VoxelGridFromList.cs:46-63 | the first `min(Count, vals.Count)` cells take the list's values, and every other cell and the shape are unchanged |
| FromList.FromListIsIdempotent | VoxelTools/Components/VoxelGrid/VoxelGridFromList.cs:46-63 | writing the same list a second time changes nothing |
| VoxelateGeometry.ChooseTakesEarliest | VoxelTools/Components/VoxelGrid/VoxelGridVoxelateGeometry.cs:345-408 | the nested comparisons step exactly the axes whose next boundary comes first, and tied axes step together |
| VoxelateGeometry.ChooseStaysWithin | VoxelTools/Components/VoxelGrid/VoxelGridVoxelateGeometry.cs:345-408 | no axis steps past the end, and each step shortens the remaining distance |
| VoxelateGeometry.BoundaryOrderTransitive | VoxelTools/Components/VoxelGrid/VoxelGridVoxelateGeometry.cs:345-408 | "the boundary comes no later" is transitive, and strict when either step is |
| VoxelateGeometry.Position | VoxelTools/Components/VoxelGrid/VoxelGridVoxelateGeometry.cs:327-412 | every position between start and end is built without overflow, and it is the end exactly when every axis has arrived |
| VoxelateGeometry.InterateLine | VoxelTools/Components/VoxelGrid/VoxelGridVoxelateGeometry.cs:327-412 | the traversal is empty exactly for a zero-length line; otherwise it ends at the end, stays in the box, is connected, repeats no cell, and is as long as the longest axis or longer |
| VoxelateGeometry.InterateLineIsConnected | VoxelTools/Components/VoxelGrid/VoxelGridVoxelateGeometry.cs:327-412 | consecutive cells differ by at most one per coordinate, and an axis with no extent never moves |
| VoxelateGeometry.DiagonalStepsAllAxes | VoxelTools/Components/VoxelGrid/VoxelGridVoxelateGeometry.cs:345-408 | a diagonal of length `n` takes exactly `n` steps, all three axes together |
| VoxelateGeometry.AddLineSetsTraversedCells | VoxelTools/Components/VoxelGrid/VoxelGridVoxelateGeometry.cs:310-319 | AddLine sets exactly the traversed cells that lie in the grid and leaves the rest |
| VoxelateGeometry.AddClosedMeshIsIntersection | VoxelTools/Components/VoxelGrid/VoxelGridVoxelateGeometry.cs:207-220 | a closed mesh sets exactly the cells all three directional fills contain, and throws on a count mismatch |

## Left out

- Floating point. The world coordinates, `Math.Floor(length / size)`, the
  conversion to world points, areas and porosity are all floating-point.
  `FloorDivide` is a parameter, and each `double` is an uninterpreted bit
  pattern.
- VoxelateGeometry.InterateLine: the source compares floating-point `tMax`
  values. The model compares the exact rationals those values approximate,
  so it does not follow the rounding of near-ties.
- The mesh and Brep intersection tests that feed `AddMeshNew` are left out.
  The three directional fills are inputs.
- GZip compression and decompression (ByteHelper.cs, lines 392-431). They
  are a foreign library.
- ByteHelper.ToInterval and ByteHelper.ToPlane: Rhino's `Interval` and
  `Plane` constructors can normalise their values. The model keeps the
  values as read.
- ByteHelper.PlaneRoundTrip, ByteHelper.BoxRoundTrip and
  ByteHelper.VoxelGridRoundTrip: they hold because the decoders keep the
  plane's axes and the intervals as read. With Rhino's normalisation they
  would hold only for already normalised values.
- Aliasing.DeepCloneIsolates: the deep copy it describes is the copy
  constructor's. The VoxelGrid3D clone allocates `Count` bits and copies
  only those. So on a grid whose injected array has another length it drops
  the extra bits, or throws reading past a short array. The heap model does
  not cover that clone.
- ByteHelper.StringToByteArray: `Convert.ToByte(s, 16)` also accepts some
  prefixed forms of a pair, such as a leading `+`. The model accepts exactly
  two hex digits in either case. It gives the argument error for a pair
  that starts with `-`, and a format error for every other rejected pair.
- ByteHelper.StringToByteArray: the model's string is a sequence of Unicode
  scalar values, not of UTF-16 code units. C# counts `hex.Length` and reads
  the pairs in code units, so a character outside the Basic Multilingual
  Plane is two units there and one character here. For "AB" followed by
  U+1F600, C# pairs the two surrogate halves and throws a format error,
  while the model returns the single byte 0xAB. Inputs made only of
  characters below U+10000 behave the same in both.
- ByteHelper.ToByteBits: the model writes the bits past the length in the
  last packed byte as false. The source copies whatever `BitArray.CopyTo`
  leaves there, and decoding ignores them.
- Grid3D.Initialize: it sets the extent through the corrected setter
  `SetSize` (see Findings). So it rejects an extent whose wrapped 32-bit
  count is at least 1 but whose exact count exceeds `int.MaxValue`, such as
  (5, 32767, 32767). The source accepts such an extent.
- VoxelGrid3D.New: built on Grid3D.Initialize, so it rejects the same
  extents. The source goes on to allocate a `BitArray` of the wrapped count.
- VoxelGrid3D.WithBits: built on Grid3D.Initialize, so it rejects the same
  extents, which the source accepts.
- VoxelGrid3D.Copy: it uses the corrected setter, so it rejects a grid of
  such an extent. The source's copy constructor accepts it.
- ScalarGrid3D.New: built on Grid3D.Initialize, so it rejects the same
  extents. The source allocates a `float[]` of the wrapped count.
- The members built on these constructors inherit the same restriction:
  Grid3D.Clone, VoxelGrid3D.Clone and CloneEmpty, ScalarGrid3D.Clone,
  ByteHelper.ToVoxelGrid, AccessibleRoof.Solve and Limiter.Solve. The
  grids they accept are exactly those whose cells all have an `int` index.
- Partial effects. An in-place C# loop that throws midway leaves a partly
  changed grid. The model returns only the error.
- Limiter.Solve: the component's exclusion input is left out. So are its
  output parameters other than the grid.
- Limiter: `IndexToPointUvw` is evaluated once per location. The source
  recomputes it in every pass of the inner loop, but it is pure and the
  size never changes.
- `Parallel.For` in the "MT" helpers. MapMatrixMT over a list of sizes never
  calls its delegate, and the XYZ variant is sequential.
- Aliasing: array sharing is modelled for BitGrid3D and VoxelGrid3D only.
  PixelGrid2D's bits constructor shares the same way.
- Statistics.SolveStatistics: its counters are unbounded integers. The
  source's `int` counters could wrap on grids of more than 2^29 voxels.
- Statistics.CellTally: the source reads the cell below (`tr`) twice. Both
  reads see the same grid, so the model reads it once.
- AccessibleRoof.Solve: the source calls the same constructor three times.
  The model builds the three empty grids from one call's result.
- SetAlgebra.DifferenceIsFirstLessRest and SetAlgebra.ExclusiveIsParity:
  there is no separate lemma that the order of the later grids does not
  matter. The closed forms imply it.
- MatrixHelper.MatrixVectorIsDecompose: proved only for sizes whose product
  fits an `int`. With a larger product the 32-bit `kCount` wraps.
- Component warnings, render previews and Grasshopper data access are left
  out.
- Numerics.TRem: on its own it gives 0 for `int.MinValue % -1`, where C#
  throws. MatrixHelper.MatrixVector, the one caller whose divisor can be
  negative, tests for these operands first and returns `Overflow`.

## Findings

| source | as written | input that shows it | evidently intended | confidence | as-written member | corrected member |
|---|---|---|---|---|---|---|
| VoxelGeometry/Grid3D.cs:110-119 | `Clone<T>` builds the copy with the parameterless constructor, which leaves the storage null, then writes every cell into it | any grid with at least one cell: the first `SetValue` throws a null reference | allocate storage of `Count` cells before copying | not executed | Grid3D.CloneAsWrittenAlwaysFails | Grid3D.CloneCopiesEveryCell |
| VoxelGeometry/Grid3D.cs:67-82 | the size guard tests the wrapped 32-bit product `SelfProduct() < 1` | size (5, 32767, 32767) passes with Count 1073414149, and cell (4, 0, 0) gets index -262140 | accept only sizes whose exact cell count fits an `int` | not executed | Grid3D.SetSizeAsWrittenAdmitsWrappedCount | Grid3D.SetSizeAdmitsOnlyIndexableSizes |
| VoxelTools/Components/Obsolete/VoxelGridLimiterObsolete.cs:116-120 | cells are stacked above a location by index, with no test that the point stays inside the grid | a set cell (x, y, top) with y + 1 < size.y and a stack of height one: the bottom cell (x, y + 1, 0) of the next column is set | drop stacked points above the top layer | not executed | Limiter.StackPastRoofWraps | Limiter.ClippedShareStaysAbove |

=== FILE: accessible_roof.dfy ===
/** Roofs that can be walked onto (`VoxelGridAccessibleRoof`,
VoxelGridAccessibleRoof.cs): a voxel whose cell above is empty is a roof; it
is accessible when a voxel stands beside that empty cell, one layer up, and
such voxels are collected in a third grid.

A voxel in the top layer has no cell above it (the read gives -1, not 0) and
is never considered.
 */
module AccessibleRoof {
  import opened Wrappers
  import opened Numerics
  import opened Geometry
  import opened Point3i
  import opened Grid3D
  import opened BitGrid3D
  import opened Occupancy
  import VoxelGrid3D

  /** The offsets `tr` (straight up) and `t1` to `t4` (beside the cell above)
      of the component. */
  const TR: Point3i := Point3i(0, 0, 1)
  const T1: Point3i := Point3i(0, 1, 1)
  const T2: Point3i := Point3i(1, 0, 1)
  const T3: Point3i := Point3i(-1, 0, 1)
  const T4: Point3i := Point3i(0, -1, 1)

  /** The three output grids. */
  datatype RoofGrids = RoofGrids(hasAccessible: BitGrid, isRoof: BitGrid, accessViaStairs: BitGrid)

  /** The `hasAccessible` grid and the `accessible` flag while one roof cell
      is examined. */
  datatype Marked = Marked(grid: BitGrid, accessible: bool)

  /** One `if (vg.GetRelativePointValue(i, t) == 1)` block (lines 98-117):
      a set neighbour makes the roof accessible and is marked. */
  function MarkAccess(vg: BitGrid, m: Marked, i: Int32, rel: Point3i): Result<Marked>
  {
    var v :- GetRelativePointValue(vg, i, rel);
    if v == 1 then
      var h :- SetRelativePointValue(m.grid, i, rel, true);
      Ok(Marked(h, true))
    else Ok(m)
  }

  /** The four blocks for the cells beside the cell above `i` (lines
      98-117), starting with `accessible = false`. */
  function MarkAll(vg: BitGrid, h: BitGrid, i: Int32): Result<Marked>
  {
    var m1 :- MarkAccess(vg, Marked(h, false), i, T1);
    var m2 :- MarkAccess(vg, m1, i, T2);
    var m3 :- MarkAccess(vg, m2, i, T3);
    MarkAccess(vg, m3, i, T4)
  }

  /** The body of the loop for a set cell `i` (lines 96-127): a cell with an
      empty cell above is a roof when some neighbour was marked, else it is
      reached by stairs. */
  function RoofCell(vg: BitGrid, g: RoofGrids, i: Int32): Result<RoofGrids>
  {
    var above :- GetRelativePointValue(vg, i, TR);
    if above != 0 then Ok(g)
    else
      var m :- MarkAll(vg, g.hasAccessible, i);
      if m.accessible then
        var r :- SetValue(g.isRoof, i, true);
        Ok(RoofGrids(m.grid, r, g.accessViaStairs))
      else
        var s :- SetValue(g.accessViaStairs, i, true);
        Ok(RoofGrids(m.grid, g.isRoof, s))
  }

  /** The loop `for i < vg.Count` (lines 90-129): an empty cell is skipped. */
  function RoofLoop(vg: BitGrid, g: RoofGrids, i: nat): Result<RoofGrids>
    decreases Count(vg) - i
  {
    if i >= Count(vg) then Ok(g)
    else
      var v :- GetValue(vg, i);
      if !v then RoofLoop(vg, g, i + 1)
      else
        var g' :- RoofCell(vg, g, i);
        RoofLoop(vg, g', i + 1)
  }

  /** `SolveInstance` (VoxelGridAccessibleRoof.cs, lines 76-134): three new
      empty grids over the input's box and cell size, then the loop. The
      three constructions are the same call on the same arguments, so they
      succeed or fail together and give equal grids; grids are values here,
      so one of them serves for all three. */
  function Solve(vg: BitGrid, fd: FloorDivide): Result<RoofGrids>
  {
    var e :- VoxelGrid3D.New(vg.box, vg.voxelSize, fd);
    RoofLoop(vg, RoofGrids(e, e, e), 0)
  }

  // ---------------------------------------------------------------- reference

  /** A set cell below the top layer whose cell above is empty. */
  predicate Uncovered(vg: BitGrid, i: nat)
    requires WellFormed(vg) && i < Count(vg)
  {
    var p := Uvw(vg.size, i);
    vg.storage.cells[i] && p.z + 1 < vg.size.z && !Occupied(vg, p.x, p.y, p.z + 1)
  }

  /** Some voxel stands beside the cell above cell `i`. */
  predicate Reaches(vg: BitGrid, i: nat)
    requires WellFormed(vg) && i < Count(vg)
  {
    var p := Uvw(vg.size, i);
    || Occupied(vg, p.x, p.y + 1, p.z + 1) || Occupied(vg, p.x + 1, p.y, p.z + 1)
    || Occupied(vg, p.x - 1, p.y, p.z + 1) || Occupied(vg, p.x, p.y - 1, p.z + 1)
  }

  function Abs(v: int): nat
  {
    if v < 0 then -v else v
  }

  /** Cell `k` is a voxel beside the empty cell above the uncovered cell
      `j`: one layer up and one step away along x or y. */
  predicate Grants(vg: BitGrid, j: nat, k: nat)
    requires WellFormed(vg) && j < Count(vg) && k < Count(vg)
  {
    var p, q := Uvw(vg.size, j), Uvw(vg.size, k);
    && Uncovered(vg, j) && vg.storage.cells[k]
    && q.z == p.z + 1 && Abs(q.x - p.x) + Abs(q.y - p.y) == 1
  }

  /** An output grid over the input's box, cell size and extent. */
  predicate Shaped(vg: BitGrid, h: BitGrid)
  {
    h.box == vg.box && h.voxelSize == vg.voxelSize && h.size == vg.size && WellFormed(h)
  }

  /** The outputs after the loop has examined the cells below `n`. */
  predicate Examined(vg: BitGrid, g: RoofGrids, n: nat)
    requires WellFormed(vg)
  {
    && Shaped(vg, g.hasAccessible) && Shaped(vg, g.isRoof) && Shaped(vg, g.accessViaStairs)
    && (forall k | 0 <= k < Count(vg) ::
          g.isRoof.storage.cells[k] == (k < n && Uncovered(vg, k) && Reaches(vg, k)))
    && (forall k | 0 <= k < Count(vg) ::
          g.accessViaStairs.storage.cells[k] == (k < n && Uncovered(vg, k) && !Reaches(vg, k)))
    && (forall k | 0 <= k < Count(vg) ::
          g.hasAccessible.storage.cells[k] == exists j :: 0 <= j < n && j < Count(vg) && Grants(vg, j, k))
  }

  // ---------------------------------------------------------------- proof

  /** A marking step sets the neighbour at `(x, y, z)` when it is a voxel. */
  lemma MarkAccessMarks(vg: BitGrid, m: Marked, i: nat, rel: Point3i, x: int, y: int, z: int)
    requires WellFormed(vg) && i < Count(vg) && Shaped(vg, m.grid)
    requires Unit(rel) && Moved(vg.size, i, rel, x, y, z)
    ensures MarkAccess(vg, m, i, rel).Ok?
    ensures var m' := MarkAccess(vg, m, i, rel).value;
            && Shaped(vg, m'.grid) && m'.accessible == (m.accessible || Occupied(vg, x, y, z))
            && forall k :: 0 <= k < Count(vg) ==>
                 m'.grid.storage.cells[k] ==
                   (m.grid.storage.cells[k] || (Occupied(vg, x, y, z) && At(vg.size, k, x, y, z)))
  {
    ReadIsOccupancy(vg, i, rel, x, y, z);
    WriteIsAt(m.grid, i, rel, x, y, z, true);
  }

  /** Whether marking from cell `i` sets cell `k`: one of the four voxels
      beside the cell above. */
  predicate MarkedFrom(vg: BitGrid, i: nat, k: nat)
    requires WellFormed(vg) && i < Count(vg)
  {
    var p := Uvw(vg.size, i);
    || (Occupied(vg, p.x, p.y + 1, p.z + 1) && At(vg.size, k, p.x, p.y + 1, p.z + 1))
    || (Occupied(vg, p.x + 1, p.y, p.z + 1) && At(vg.size, k, p.x + 1, p.y, p.z + 1))
    || (Occupied(vg, p.x - 1, p.y, p.z + 1) && At(vg.size, k, p.x - 1, p.y, p.z + 1))
    || (Occupied(vg, p.x, p.y - 1, p.z + 1) && At(vg.size, k, p.x, p.y - 1, p.z + 1))
  }

  /** The four marking steps of a roof cell set the voxels beside the cell
      above it, and report whether there is one. */
  lemma MarkAllMarks(vg: BitGrid, h: BitGrid, i: nat)
    requires WellFormed(vg) && i < Count(vg) && Shaped(vg, h)
    ensures MarkAll(vg, h, i).Ok?
    ensures var m := MarkAll(vg, h, i).value;
            && Shaped(vg, m.grid) && m.accessible == Reaches(vg, i)
            && forall k :: 0 <= k < Count(vg) ==>
                 m.grid.storage.cells[k] == (h.storage.cells[k] || MarkedFrom(vg, i, k))
  {
    hide MarkAccess, GetRelativePointValue, SetRelativePointValue, Uvw, Occupied, At;
    var p := Uvw(vg.size, i);
    var m0 := Marked(h, false);
    MarkAccessMarks(vg, m0, i, T1, p.x, p.y + 1, p.z + 1);
    var m1 := MarkAccess(vg, m0, i, T1).value;
    MarkAccessMarks(vg, m1, i, T2, p.x + 1, p.y, p.z + 1);
    var m2 := MarkAccess(vg, m1, i, T2).value;
    MarkAccessMarks(vg, m2, i, T3, p.x - 1, p.y, p.z + 1);
    var m3 := MarkAccess(vg, m2, i, T3).value;
    MarkAccessMarks(vg, m3, i, T4, p.x, p.y - 1, p.z + 1);
    var m4 := MarkAccess(vg, m3, i, T4).value;
    assert MarkAll(vg, h, i) == Ok(m4);
    forall k | 0 <= k < Count(vg)
      ensures m4.grid.storage.cells[k] == (h.storage.cells[k] || MarkedFrom(vg, i, k))
    {
    }
  }

  /** Marking from an uncovered cell sets exactly the cells it grants. */
  lemma MarkedFromIsGrants(vg: BitGrid, i: nat, k: nat)
    requires WellFormed(vg) && i < Count(vg) && k < Count(vg) && Uncovered(vg, i)
    ensures MarkedFrom(vg, i, k) == Grants(vg, i, k)
  {
    var p, q := Uvw(vg.size, i), Uvw(vg.size, k);
    IndexOfCell(vg.size, k);
    assert Occupied(vg, q.x, q.y, q.z) == vg.storage.cells[k];
  }

  /** The grids after an uncovered cell: its neighbours marked, and the cell
      itself set in `isRoof` or in `accessViaStairs`. */
  function AfterUncovered(vg: BitGrid, g: RoofGrids, i: nat): RoofGrids
    requires WellFormed(vg) && i < Count(vg) && Shaped(vg, g.hasAccessible)
    requires Shaped(vg, g.isRoof) && Shaped(vg, g.accessViaStairs)
  {
    MarkAllMarks(vg, g.hasAccessible, i);
    var m := MarkAll(vg, g.hasAccessible, i).value;
    if Reaches(vg, i) then RoofGrids(m.grid, g.isRoof.(storage := Cells(g.isRoof.storage.cells[i := true])), g.accessViaStairs)
    else RoofGrids(m.grid, g.isRoof, g.accessViaStairs.(storage := Cells(g.accessViaStairs.storage.cells[i := true])))
  }

  /** The roof-cell step reads the cell above: a covered cell, or one in the
      top layer, leaves the grids alone. */
  lemma RoofCellReadsAbove(vg: BitGrid, g: RoofGrids, i: nat)
    requires WellFormed(vg) && i < Count(vg) && vg.storage.cells[i]
    requires Shaped(vg, g.hasAccessible) && Shaped(vg, g.isRoof) && Shaped(vg, g.accessViaStairs)
    ensures RoofCell(vg, g, i) == if Uncovered(vg, i) then Ok(AfterUncovered(vg, g, i)) else Ok(g)
  {
    hide MarkAll, GetRelativePointValue, Uvw, Occupied;
    var p := Uvw(vg.size, i);
    ReadIsOccupancy(vg, i, TR, p.x, p.y, p.z + 1);
    if Uncovered(vg, i) {
      MarkAllMarks(vg, g.hasAccessible, i);
    }
  }

  /** After an uncovered cell the invariant holds one cell further. */
  lemma AfterUncoveredExamines(vg: BitGrid, g: RoofGrids, i: nat)
    requires WellFormed(vg) && i < Count(vg) && Uncovered(vg, i) && Examined(vg, g, i)
    ensures Examined(vg, AfterUncovered(vg, g, i), i + 1)
  {
    MarkAllMarks(vg, g.hasAccessible, i);
    var g' := AfterUncovered(vg, g, i);
    forall k | 0 <= k < Count(vg)
      ensures g'.hasAccessible.storage.cells[k] == exists j :: 0 <= j < i + 1 && j < Count(vg) && Grants(vg, j, k)
    {
      MarkedFromIsGrants(vg, i, k);
      GrantsUpTo(vg, i, k);
    }
  }

  /** The roof-cell step keeps the invariant, one cell further. */
  lemma RoofCellExamines(vg: BitGrid, g: RoofGrids, i: nat)
    requires WellFormed(vg) && i < Count(vg) && vg.storage.cells[i] && Examined(vg, g, i)
    ensures RoofCell(vg, g, i).Ok? && Examined(vg, RoofCell(vg, g, i).value, i + 1)
  {
    RoofCellReadsAbove(vg, g, i);
    if Uncovered(vg, i) {
      AfterUncoveredExamines(vg, g, i);
    } else {
      NothingGranted(vg, g, i);
    }
  }

  /** A cell that is not uncovered grants nothing, so the invariant moves one
      cell further unchanged. */
  lemma NothingGranted(vg: BitGrid, g: RoofGrids, i: nat)
    requires WellFormed(vg) && i < Count(vg) && !Uncovered(vg, i) && Examined(vg, g, i)
    ensures Examined(vg, g, i + 1)
  {
    forall k | 0 <= k < Count(vg)
      ensures g.hasAccessible.storage.cells[k] == exists j :: 0 <= j < i + 1 && j < Count(vg) && Grants(vg, j, k)
    {
      GrantsUpTo(vg, i, k);
    }
  }

  /** Some cell below `i + 1` grants `k` exactly when some cell below `i`
      does or cell `i` does. */
  lemma GrantsUpTo(vg: BitGrid, i: nat, k: nat)
    requires WellFormed(vg) && i < Count(vg) && k < Count(vg)
    ensures (exists j :: 0 <= j < i + 1 && j < Count(vg) && Grants(vg, j, k)) ==
            ((exists j :: 0 <= j < i && j < Count(vg) && Grants(vg, j, k)) || Grants(vg, i, k))
  {
    if exists j :: 0 <= j < i + 1 && j < Count(vg) && Grants(vg, j, k) {
      var j :| 0 <= j < i + 1 && j < Count(vg) && Grants(vg, j, k);
      if j < i {
        assert exists j :: 0 <= j < i && j < Count(vg) && Grants(vg, j, k);
      }
    }
  }

  lemma {:induction false} RoofLoopExamines(vg: BitGrid, g: RoofGrids, i: nat)
    requires WellFormed(vg) && i <= Count(vg) && Examined(vg, g, i)
    ensures RoofLoop(vg, g, i).Ok? && Examined(vg, RoofLoop(vg, g, i).value, Count(vg))
    decreases Count(vg) - i
  {
    if i < Count(vg) {
      assert GetValue(vg, i) == Ok(vg.storage.cells[i]);
      if vg.storage.cells[i] {
        RoofCellExamines(vg, g, i);
        RoofLoopExamines(vg, RoofCell(vg, g, i).value, i + 1);
      } else {
        NothingGranted(vg, g, i);
        RoofLoopExamines(vg, g, i + 1);
      }
    }
  }

  /** Three new grids over the input's box and cell size are empty and have
      its extent. */
  lemma StartExamined(vg: BitGrid, fd: FloorDivide)
    requires WellFormed(vg) && InitializedBy(vg, fd)
    ensures VoxelGrid3D.New(vg.box, vg.voxelSize, fd).Ok?
    ensures var e := VoxelGrid3D.New(vg.box, vg.voxelSize, fd).value;
            Examined(vg, RoofGrids(e, e, e), 0)
  {
    var e := VoxelGrid3D.CloneEmpty(vg, fd).value;
    assert forall k :: 0 <= k < Count(vg) ==> !e.storage.cells[k];
  }

  /** On a well-formed grid the component succeeds: `isRoof` holds the
      uncovered voxels with a voxel beside the cell above, `accessViaStairs`
      the other uncovered voxels, and `hasAccessible` the voxels granting
      access to some uncovered voxel; all three have the input's box, cell
      size and extent. */
  lemma SolveFindsRoofs(vg: BitGrid, fd: FloorDivide)
    requires WellFormed(vg) && InitializedBy(vg, fd)
    ensures Solve(vg, fd).Ok?
    ensures var g := Solve(vg, fd).value;
            && Shaped(vg, g.hasAccessible) && Shaped(vg, g.isRoof) && Shaped(vg, g.accessViaStairs)
            && (forall k | 0 <= k < Count(vg) ::
                  g.isRoof.storage.cells[k] == (Uncovered(vg, k) && Reaches(vg, k)))
            && (forall k | 0 <= k < Count(vg) ::
                  g.accessViaStairs.storage.cells[k] == (Uncovered(vg, k) && !Reaches(vg, k)))
            && (forall k | 0 <= k < Count(vg) ::
                  g.hasAccessible.storage.cells[k] == exists j :: 0 <= j < Count(vg) && Grants(vg, j, k))
  {
    StartExamined(vg, fd);
    var e := VoxelGrid3D.New(vg.box, vg.voxelSize, fd).value;
    RoofLoopExamines(vg, RoofGrids(e, e, e), 0);
  }

  /** Every cell of every output is a voxel of the input; a voxel is a roof or
      reached by stairs, never both, exactly when it is uncovered; and no
      voxel of the top layer is either. */
  lemma RoofsPartitionUncovered(vg: BitGrid, fd: FloorDivide, k: nat)
    requires WellFormed(vg) && InitializedBy(vg, fd) && k < Count(vg)
    ensures Solve(vg, fd).Ok?
    ensures var g := Solve(vg, fd).value;
            && Shaped(vg, g.hasAccessible) && Shaped(vg, g.isRoof) && Shaped(vg, g.accessViaStairs)
            && ((g.isRoof.storage.cells[k] || g.accessViaStairs.storage.cells[k] || g.hasAccessible.storage.cells[k])
                  ==> vg.storage.cells[k])
            && !(g.isRoof.storage.cells[k] && g.accessViaStairs.storage.cells[k])
            && (g.isRoof.storage.cells[k] || g.accessViaStairs.storage.cells[k]) == Uncovered(vg, k)
            && (Uvw(vg.size, k).z == vg.size.z - 1 ==>
                  !g.isRoof.storage.cells[k] && !g.accessViaStairs.storage.cells[k])
  {
    SolveFindsRoofs(vg, fd);
  }
}

=== FILE: aliasing.dfy ===
/** Sharing of bit arrays between grid objects.

The functional grids elsewhere are values; this module puts their bit arrays
back on a heap so that the difference between the clones can be stated: the
base `BitGrid3D.Clone` is `MemberwiseClone` and shares the array, the
VoxelGrid3D clone and copy constructor allocate a new one, and the bits
constructor of VoxelGrid3D keeps the caller's array.
 */
module Aliasing {
  import opened Wrappers
  import opened Geometry
  import opened Point3i
  import opened Grid3D
  import opened BitGrid3D
  import VoxelGrid3D

  /** The address of a `BitArray`: arrays are allocated at increasing
      addresses, so the next one is the number allocated so far. */
  type Ref = nat

  datatype Heap = Heap(arrays: seq<seq<bool>>)

  /** A grid object: its value fields and a reference to its bit array. */
  datatype GridObject = GridObject(box: Box, voxelSize: Vec3, size: Point3i, bits: Ref)

  predicate Live(h: Heap, o: GridObject)
  {
    o.bits < |h.arrays|
  }

  /** The grid an object denotes in a heap. */
  function View(h: Heap, o: GridObject): (g: BitGrid)
    requires Live(h, o)
    ensures g.storage == Cells(h.arrays[o.bits])
  {
    Grid3(o.box, o.voxelSize, o.size, Cells(h.arrays[o.bits]))
  }

  /** `SetValue(int, bool)` through an object: the array it refers to is
      updated in place. */
  function Write(h: Heap, o: GridObject, i: int, v: bool): (h': Heap)
    requires Live(h, o)
    ensures |h'.arrays| == |h.arrays|
    ensures forall r :: 0 <= r < |h.arrays| && r != o.bits ==> h'.arrays[r] == h.arrays[r]
    ensures Cells(h'.arrays[o.bits]) == SetValue(View(h, o), i, v).value.storage
  {
    var g := SetValue(View(h, o), i, v).value;
    Heap(h.arrays[o.bits := g.storage.cells])
  }

  /** `BitGrid3D.Clone` (BitGrid3D.cs, lines 72-75): `MemberwiseClone` copies
      the reference to the bit array. */
  function ShallowClone(o: GridObject): (c: GridObject)
    ensures c.bits == o.bits
  {
    GridObject(o.box, o.voxelSize, o.size, o.bits)
  }

  /** A write through a shallow clone is seen through the original, so the two
      always denote the same grid. */
  lemma ShallowCloneSharesBits(h: Heap, o: GridObject, i: int, v: bool)
    requires Live(h, o) && 0 <= i < |h.arrays[o.bits]|
    ensures var h' := Write(h, ShallowClone(o), i, v);
            View(h', o) == View(h', ShallowClone(o)) && View(h', o).storage.cells[i] == v
  {
  }

  /** The VoxelGrid3D copy constructor (VoxelGrid3D.cs, lines 44-58): a new
      bit array holding the same bits. The clone (lines 70-81) allocates
      `Count` bits and copies those, so it agrees with this only on a grid
      holding one bit per cell. */
  function DeepClone(h: Heap, o: GridObject): (res: (Heap, GridObject))
    requires Live(h, o)
    ensures res.1.bits == |h.arrays| && res.0.arrays == h.arrays + [h.arrays[o.bits]]
    ensures res.1 == o.(bits := res.1.bits)
  {
    (Heap(h.arrays + [h.arrays[o.bits]]), o.(bits := |h.arrays|))
  }

  /** A deep clone denotes the same grid as its original, and afterwards a
      write through either one leaves the other unchanged. */
  lemma DeepCloneIsolates(h: Heap, o: GridObject, i: int, v: bool)
    requires Live(h, o)
    ensures var (h1, c) := DeepClone(h, o);
            && Live(h1, o) && Live(h1, c) && View(h1, c) == View(h, o) && View(h1, o) == View(h, o)
            && View(Write(h1, c, i, v), o) == View(h, o)
            && View(Write(h1, o, i, v), c) == View(h, o)
  {
  }

  /** The deep copy made by the VoxelGrid3D copy constructor denotes the grid
      the functional model computes for it. */
  lemma DeepCloneIsCopy(h: Heap, o: GridObject)
    requires Live(h, o) && Fits(o.size)
    ensures var (h1, c) := DeepClone(h, o);
            Live(h1, c) && VoxelGrid3D.Copy(View(h, o)) == Ok(View(h1, c))
  {
  }

  /** The bits constructor (VoxelGrid3D.cs, lines 20-24): the new object
      refers to the caller's array `a`. */
  function Inject(h: Heap, box: Box, voxelSize: Vec3, a: Ref, fd: FloorDivide): (r: Result<GridObject>)
    requires a < |h.arrays|
    ensures r.Ok? <==> VoxelGrid3D.WithBits(box, voxelSize, Cells(h.arrays[a]), fd).Ok?
    ensures r.Ok? ==> r.value.bits == a && View(h, r.value) == VoxelGrid3D.WithBits(box, voxelSize, Cells(h.arrays[a]), fd).value
  {
    var g :- VoxelGrid3D.WithBits(box, voxelSize, Cells(h.arrays[a]), fd);
    Ok(GridObject(g.box, g.voxelSize, g.size, a))
  }

  /** After injection, every later change the caller makes to its array shows
      in the grid, and every write to the grid shows in the caller's array. */
  lemma InjectedBitsAreShared(h: Heap, box: Box, voxelSize: Vec3, a: Ref, fd: FloorDivide, bits: seq<bool>, i: int, v: bool)
    requires a < |h.arrays| && Inject(h, box, voxelSize, a, fd).Ok?
    ensures var o := Inject(h, box, voxelSize, a, fd).value;
            var h' := Heap(h.arrays[a := bits]);
            Live(h', o) && View(h', o).storage == Cells(bits)
    ensures var o := Inject(h, box, voxelSize, a, fd).value;
            Write(h, o, i, v).arrays[a] == SetValue(View(h, o), i, v).value.storage.cells
  {
  }
}

=== FILE: bit_grid3d.dfy ===
/** Boolean grids (`BitGrid3D`, BitGrid3D.cs): cell reads and writes, the
true-cell count, the in-place boolean algebra and the relative-neighbour
accessors.

The in-place operations of the source return the updated grid here. An
operation that throws part-way returns only the error (see the README).
 */
module BitGrid3D {
  import opened Wrappers
  import opened Numerics
  import opened Point3i
  import opened Grid3D

  type BitGrid = Grid3<bool>

  const SIZE_MISMATCH: string := "Grids are of different sizes"

  /** `GetValue(int)` (BitGrid3D.cs, lines 112-115): `BitArray.Get`. */
  function GetValue(g: BitGrid, i: int): (r: Result<bool>)
    ensures r.Ok? <==> g.storage.Cells? && 0 <= i < |g.storage.cells|
    ensures r.Ok? ==> r.value == g.storage.cells[i]
  {
    ReadCell(BitCells, g.storage, i)
  }

  /** `SetValue(int, bool)` (BitGrid3D.cs, lines 167-174): an index outside the
      storage is silently ignored. */
  function SetValue(g: BitGrid, i: int, v: bool): (r: Result<BitGrid>)
    ensures g.storage.Null? ==> r == Err(NullReference)
    ensures g.storage.Cells? ==> r.Ok? && r.value.size == g.size && r.value.box == g.box
    ensures g.storage.Cells? && 0 <= i < |g.storage.cells| ==>
              r.value.storage == Cells(g.storage.cells[i := v])
    ensures g.storage.Cells? && !(0 <= i < |g.storage.cells|) ==> r == Ok(g)
  {
    var s :- WriteCell(BitCells, g.storage, i, v);
    Ok(g.(storage := s))
  }

  // ---------------------------------------------------------------- counting

  /** The number of true entries. */
  function CountTrue(s: seq<bool>): (n: nat)
    ensures n <= |s|
  {
    if |s| == 0 then 0 else CountTrue(s[..|s| - 1]) + (if s[|s| - 1] then 1 else 0)
  }

  /** The indices holding true. */
  function TrueIndices(s: seq<bool>): set<int>
  {
    set i | 0 <= i < |s| && s[i]
  }

  /** CountTrue is the size of the set of true indices. */
  lemma {:induction false} CountTrueIsCardinality(s: seq<bool>)
    ensures CountTrue(s) == |TrueIndices(s)|
  {
    if |s| > 0 {
      var n := |s| - 1;
      CountTrueIsCardinality(s[..n]);
      var before := TrueIndices(s[..n]);
      assert n !in before;
      if s[n] {
        assert TrueIndices(s) == before + {n};
      } else {
        assert TrueIndices(s) == before;
      }
    }
  }

  lemma {:induction false} CountTrueAppend(a: seq<bool>, b: seq<bool>)
    ensures CountTrue(a + b) == CountTrue(a) + CountTrue(b)
    decreases |b|
  {
    if |b| > 0 {
      CountTrueAppend(a, b[..|b| - 1]);
      assert (a + b)[..|a + b| - 1] == a + b[..|b| - 1];
    } else {
      assert a + b == a;
    }
  }

  /** Setting one cell changes the count by at most one, in the expected
      direction. */
  lemma CountTrueUpdate(s: seq<bool>, i: int, v: bool)
    requires 0 <= i < |s|
    ensures CountTrue(s[i := v]) == CountTrue(s) - (if s[i] then 1 else 0) + (if v then 1 else 0)
  {
    assert s == s[..i] + [s[i]] + s[i + 1..];
    assert s[i := v] == s[..i] + [v] + s[i + 1..];
    CountTrueAppend(s[..i] + [s[i]], s[i + 1..]);
    CountTrueAppend(s[..i], [s[i]]);
    CountTrueAppend(s[..i] + [v], s[i + 1..]);
    CountTrueAppend(s[..i], [v]);
    assert CountTrue([v]) == (if v then 1 else 0) by {
      assert [v][..0] == [];
    }
    assert CountTrue([s[i]]) == (if s[i] then 1 else 0) by {
      assert [s[i]][..0] == [];
    }
  }

  /** `CountNonZero` (BitGrid3D.cs, lines 25-43): the true cells of the
      storage, or 0 when it is null. */
  function CountNonZero(g: BitGrid): (n: nat)
    ensures g.storage.Null? ==> n == 0
    ensures g.storage.Cells? ==> n == |TrueIndices(g.storage.cells)|
  {
    match g.storage
    case Null => 0
    case Cells(c) => CountTrueIsCardinality(c); CountTrue(c)
  }

  // ---------------------------------------------------------------- algebra

  datatype BitOp = AndOp | OrOp | XorOp | SubtractOp

  /** The value an operation leaves in a cell holding `x` when the argument
      grid holds `y`. */
  function Combined(op: BitOp, x: bool, y: bool): bool
  {
    match op
    case AndOp => x && y
    case OrOp => x || y
    case XorOp => x != y
    case SubtractOp => x && !y
  }

  /** Whether the loop reads the argument's cell: `&&` and `||` short-circuit,
      and Subtract tests `this[i] && bt[i]`. */
  predicate ReadsArgument(op: BitOp, x: bool)
  {
    match op
    case AndOp => x
    case OrOp => !x
    case XorOp => true
    case SubtractOp => x
  }

  /** A cell whose argument is not read keeps its value whatever the argument
      would have been. */
  lemma UnreadArgumentIsIrrelevant(op: BitOp, x: bool, y: bool)
    requires !ReadsArgument(op, x)
    ensures Combined(op, x, y) == x
  {
  }

  /** The loop `for i < Count` of And, Or, Xor and Subtract, on this grid's
      cells `a` and the argument's storage `b`. */
  function CombineLoop(op: BitOp, a: seq<bool>, b: Storage<bool>, count: int, i: nat): Result<seq<bool>>
    decreases count - i
  {
    if i >= count then Ok(a)
    else
      var x :- ReadCell(BitCells, Cells(a), i);
      if !ReadsArgument(op, x) then CombineLoop(op, a, b, count, i + 1)
      else
        var y :- ReadCell(BitCells, b, i);
        CombineLoop(op, a[i := Combined(op, x, y)], b, count, i + 1)
  }

  /** And, Or, Xor and Subtract (BitGrid3D.cs, lines 55-66, 132-143, 180-194,
      200-211): only the total counts are compared. */
  function Combine(op: BitOp, a: BitGrid, b: BitGrid): Result<BitGrid>
  {
    if Count(b) != Count(a) then Err(Failure(SIZE_MISMATCH))
    else if Count(a) <= 0 then Ok(a)
    else
      match a.storage
      case Null => Err(NullReference)
      case Cells(c) =>
        var c' :- CombineLoop(op, c, b.storage, Count(a), 0);
        Ok(a.(storage := Cells(c')))
  }

  function And(a: BitGrid, b: BitGrid): Result<BitGrid> { Combine(AndOp, a, b) }

  function Or(a: BitGrid, b: BitGrid): Result<BitGrid> { Combine(OrOp, a, b) }

  function Xor(a: BitGrid, b: BitGrid): Result<BitGrid> { Combine(XorOp, a, b) }

  function Subtract(a: BitGrid, b: BitGrid): Result<BitGrid> { Combine(SubtractOp, a, b) }

  /** The cells of `a` combined with those of `b` below `count`. */
  function Zipped(op: BitOp, a: seq<bool>, b: seq<bool>, count: int, i: int): (r: seq<bool>)
    requires count <= |a| && count <= |b|
    ensures |r| == |a|
  {
    seq(|a|, k requires 0 <= k < |a| => if i <= k < count then Combined(op, a[k], b[k]) else a[k])
  }

  lemma {:induction false} CombineLoopZips(op: BitOp, a: seq<bool>, b: seq<bool>, count: int, i: nat)
    requires count <= |a| && count <= |b|
    ensures CombineLoop(op, a, Cells(b), count, i) == Ok(Zipped(op, a, b, count, i))
    decreases count - i
  {
    if i < count {
      var x := a[i];
      var a' := a[i := Combined(op, x, b[i])];
      if !ReadsArgument(op, x) {
        UnreadArgumentIsIrrelevant(op, x, b[i]);
        assert a' == a;
      }
      CombineLoopZips(op, a', b, count, i + 1);
      assert Zipped(op, a', b, count, i + 1) == Zipped(op, a, b, count, i);
    } else {
      assert Zipped(op, a, b, count, i) == a;
    }
  }

  /** A grid whose storage holds exactly `Count` cells. */
  predicate HoldsCount(g: BitGrid)
  {
    g.storage.Cells? && |g.storage.cells| == Count(g)
  }

  /** The operations fail exactly when the counts differ; otherwise every
      cell becomes `a[i] op b[i]` and nothing else about `a` changes. */
  lemma CombineIsCellwise(op: BitOp, a: BitGrid, b: BitGrid)
    requires HoldsCount(a) && HoldsCount(b)
    ensures Combine(op, a, b).Err? <==> Count(a) != Count(b)
    ensures Combine(op, a, b).Err? ==> Combine(op, a, b).error == Failure(SIZE_MISMATCH)
    ensures Combine(op, a, b).Ok? ==>
              var r := Combine(op, a, b).value;
              && r.box == a.box && r.voxelSize == a.voxelSize && r.size == a.size && HoldsCount(r)
              && forall k :: 0 <= k < |r.storage.cells| ==>
                   r.storage.cells[k] == Combined(op, a.storage.cells[k], b.storage.cells[k])
  {
    if Count(a) == Count(b) && Count(a) > 0 {
      CombineLoopZips(op, a.storage.cells, b.storage.cells, Count(a), 0);
    }
  }

  /** Subtract never turns a cell on, and And yields a subset of both grids. */
  lemma SubtractAndShrink(a: BitGrid, b: BitGrid, k: int)
    requires HoldsCount(a) && HoldsCount(b) && Count(a) == Count(b) && 0 <= k < Count(a)
    ensures Subtract(a, b).Ok? && And(a, b).Ok?
    ensures HoldsCount(Subtract(a, b).value) && Subtract(a, b).value.size == a.size
    ensures HoldsCount(And(a, b).value) && And(a, b).value.size == a.size
    ensures Subtract(a, b).value.storage.cells[k] ==> a.storage.cells[k] && !b.storage.cells[k]
    ensures And(a, b).value.storage.cells[k] <==> a.storage.cells[k] && b.storage.cells[k]
  {
    CombineIsCellwise(SubtractOp, a, b);
    CombineIsCellwise(AndOp, a, b);
  }

  /** Only the total count is compared: grids of different shapes with equal
      counts combine, and the result takes the shape of the first. */
  lemma CombineIgnoresShape(op: BitOp, a: BitGrid, b: BitGrid)
    requires HoldsCount(a) && HoldsCount(b) && Count(a) == Count(b)
    ensures Combine(op, a, b).Ok? && Combine(op, a, b).value.size == a.size
  {
    CombineIsCellwise(op, a, b);
  }

  /** The loop of `Not` (BitGrid3D.cs, lines 120-126). */
  function NotLoop(a: seq<bool>, count: int, i: nat): Result<seq<bool>>
    decreases count - i
  {
    if i >= count then Ok(a)
    else
      var x :- ReadCell(BitCells, Cells(a), i);
      NotLoop(a[i := !x], count, i + 1)
  }

  /** `Not` (BitGrid3D.cs, lines 120-126): flips every cell below Count. */
  function Not(g: BitGrid): Result<BitGrid>
  {
    if Count(g) <= 0 then Ok(g)
    else
      match g.storage
      case Null => Err(NullReference)
      case Cells(c) =>
        var c' :- NotLoop(c, Count(g), 0);
        Ok(g.(storage := Cells(c')))
  }

  function Flipped(a: seq<bool>, count: int, i: int): (r: seq<bool>)
    ensures |r| == |a|
  {
    seq(|a|, k requires 0 <= k < |a| => if i <= k < count then !a[k] else a[k])
  }

  lemma {:induction false} NotLoopFlips(a: seq<bool>, count: int, i: nat)
    requires count <= |a|
    ensures NotLoop(a, count, i) == Ok(Flipped(a, count, i))
    decreases count - i
  {
    if i < count {
      NotLoopFlips(a[i := !a[i]], count, i + 1);
      assert Flipped(a[i := !a[i]], count, i + 1) == Flipped(a, count, i);
    } else {
      assert Flipped(a, count, i) == a;
    }
  }

  /** Not flips exactly the cells below Count, so applying it twice restores
      the grid. */
  lemma NotIsAnInvolution(g: BitGrid)
    requires g.storage.Cells? && Count(g) <= |g.storage.cells|
    ensures Not(g).Ok? && Not(g).value.storage.Cells?
    ensures |Not(g).value.storage.cells| == |g.storage.cells|
    ensures forall k :: 0 <= k < |g.storage.cells| ==>
              Not(g).value.storage.cells[k] == (if k < Count(g) then !g.storage.cells[k] else g.storage.cells[k])
    ensures Not(Not(g).value) == Ok(g)
  {
    var c := g.storage.cells;
    if Count(g) > 0 {
      NotLoopFlips(c, Count(g), 0);
      var c' := Flipped(c, Count(g), 0);
      NotLoopFlips(c', Count(g), 0);
      assert Flipped(c', Count(g), 0) == c;
    }
  }

  // ---------------------------------------------------------------- neighbours

  /** The neighbour of cell `i` at offset `rel`: IndexToPointUvw, then the
      checked `+`. */
  function Neighbour(g: BitGrid, i: Int32, rel: Point3i): Result<Point3i>
  {
    var p :- IndexToPointUvw(g.size, i);
    Add(p, rel)
  }

  /** `GetRelativePointValue` (BitGrid3D.cs, lines 97-105): -1 for a neighbour
      outside the grid, else 1 or 0. */
  function GetRelativePointValue(g: BitGrid, i: Int32, rel: Point3i): (r: Result<int>)
    ensures r.Ok? ==> r.value in {-1, 0, 1}
  {
    var pt :- Neighbour(g, i, rel);
    if Gt(Origin, pt) || Ge(pt, g.size) then Ok(-1)
    else
      var v :- GetAt(BitCells, g, pt);
      Ok(if v then 1 else 0)
  }

  /** `SetRelativePointValue` (BitGrid3D.cs, lines 151-160): a neighbour
      outside the grid is ignored. */
  function SetRelativePointValue(g: BitGrid, i: Int32, rel: Point3i, v: bool): Result<BitGrid>
  {
    var pt :- Neighbour(g, i, rel);
    if Gt(Origin, pt) || Ge(pt, g.size) then Ok(g)
    else SetAt(BitCells, g, pt, v)
  }

  /** In a well-formed grid the neighbour of a cell is its coordinate plus the
      offset. */
  lemma NeighbourOfCell(g: BitGrid, i: nat, rel: Point3i)
    requires WellFormed(g) && i < Count(g)
    ensures Neighbour(g, i, rel) == Add(Uvw(g.size, i), rel)
  {
    IndexToPointUvwIsUvw(g.size, i);
  }

  /** The tri-state reading: -1 exactly when the neighbour is outside the
      grid, else whether its cell is set. */
  lemma GetRelativePointValueReadsNeighbour(g: BitGrid, i: nat, rel: Point3i)
    requires WellFormed(g) && i < Count(g) && Add(Uvw(g.size, i), rel).Ok?
    ensures var q := Add(Uvw(g.size, i), rel).value;
            InGrid(q, g.size) ==> 0 <= PointUvwToIndex(g.size, q) < |g.storage.cells|
    ensures var q := Add(Uvw(g.size, i), rel).value;
            GetRelativePointValue(g, i, rel) ==
              if InGrid(q, g.size) then Ok(if g.storage.cells[PointUvwToIndex(g.size, q)] then 1 else 0)
              else Ok(-1)
  {
    NeighbourOfCell(g, i, rel);
    var q := Add(Uvw(g.size, i), rel).value;
    if InGrid(q, g.size) {
      CellOfIndex(g.size, q);
    }
  }

  /** Writing a neighbour changes exactly its cell, or nothing when it lies
      outside the grid. */
  lemma SetRelativePointValueWritesNeighbour(g: BitGrid, i: nat, rel: Point3i, v: bool)
    requires WellFormed(g) && i < Count(g) && Add(Uvw(g.size, i), rel).Ok?
    ensures var q := Add(Uvw(g.size, i), rel).value;
            InGrid(q, g.size) ==> 0 <= PointUvwToIndex(g.size, q) < |g.storage.cells|
    ensures var q := Add(Uvw(g.size, i), rel).value;
            SetRelativePointValue(g, i, rel, v) ==
              if InGrid(q, g.size) then Ok(g.(storage := Cells(g.storage.cells[PointUvwToIndex(g.size, q) := v])))
              else Ok(g)
  {
    NeighbourOfCell(g, i, rel);
    var q := Add(Uvw(g.size, i), rel).value;
    if InGrid(q, g.size) {
      CellOfIndex(g.size, q);
    }
  }
}

=== FILE: byte_helper.dfy ===
/** Serialisation of geometry, integers, hex strings and bit arrays
(ByteHelper.cs).

Every fixed-size decoder checks the exact length of its input and throws on a
mismatch; every encoder/decoder pair is proved to round-trip.
 */
module ByteHelper {
  import opened Wrappers
  import opened Numerics
  import opened LittleEndian
  import opened Geometry
  import Grid3D
  import VoxelGrid3D

  const POINT3D_LENGTH: nat := 24
  const VECTOR3D_LENGTH: nat := 24
  const PLANE_LENGTH: nat := 72
  const INTERVAL_LENGTH: nat := 16
  const BOX_LENGTH: nat := 72 + 16 + 16 + 16

  // ---------------------------------------------------------------- doubles

  /** `BitConverter.GetBytes(double)`. */
  function DoubleBytes(d: Double): (bs: seq<Byte>)
    ensures |bs| == 8
  {
    LeBytes(d.pattern, 8)
  }

  /** `BitConverter.ToDouble` of eight bytes. */
  function DoubleOf(bs: seq<Byte>): Double
    requires |bs| == 8
  {
    Pow256Values();
    Double(LeValue(bs))
  }

  lemma DoubleRoundTrip(d: Double, bs: seq<Byte>)
    ensures DoubleOf(DoubleBytes(d)) == d
    ensures |bs| == 8 ==> DoubleBytes(DoubleOf(bs)) == bs
  {
    Pow256Values();
    LeValueOfBytes(d.pattern, 8);
    if |bs| == 8 {
      LeBytesOfValue(bs);
    }
  }

  /** `ToByte(double[])` (ByteHelper.cs, lines 44-52): eight bytes per value. */
  function ToByteDoubles(arr: seq<Double>): (bs: seq<Byte>)
    ensures |bs| == 8 * |arr|
  {
    if |arr| == 0 then [] else DoubleBytes(arr[0]) + ToByteDoubles(arr[1..])
  }

  function DecodeDoubles(bytes: seq<Byte>): (ds: seq<Double>)
    requires |bytes| % 8 == 0
    ensures |ds| == |bytes| / 8
  {
    if |bytes| == 0 then [] else [DoubleOf(bytes[..8])] + DecodeDoubles(bytes[8..])
  }

  /** `ToDoubleArray` (ByteHelper.cs, lines 22-36): throws unless the length is
      a multiple of eight. */
  function ToDoubleArray(bytes: seq<Byte>): (r: Result<seq<Double>>)
    ensures r.Ok? <==> |bytes| % 8 == 0
    ensures r.Ok? ==> |r.value| == |bytes| / 8
  {
    if |bytes| % 8 != 0 then Err(Argument("ToDoubleArray expects multiple 8byte/64bit segments"))
    else Ok(DecodeDoubles(bytes))
  }

  lemma {:induction false} DoublesRoundTrip(arr: seq<Double>)
    ensures ToDoubleArray(ToByteDoubles(arr)) == Ok(arr)
  {
    if |arr| > 0 {
      DoublesRoundTrip(arr[1..]);
      DoubleRoundTrip(arr[0], []);
      var bs := ToByteDoubles(arr);
      assert bs[..8] == DoubleBytes(arr[0]);
      assert bs[8..] == ToByteDoubles(arr[1..]);
      assert |bs| % 8 == 0 && |bs[8..]| % 8 == 0;
      assert DecodeDoubles(bs[8..]) == arr[1..];
      assert DecodeDoubles(bs) == [arr[0]] + arr[1..];
      assert [arr[0]] + arr[1..] == arr;
    }
  }

  lemma {:induction false} DoubleBytesRoundTrip(bytes: seq<Byte>)
    requires |bytes| % 8 == 0
    ensures ToByteDoubles(DecodeDoubles(bytes)) == bytes
  {
    if |bytes| > 0 {
      DoubleBytesRoundTrip(bytes[8..]);
      DoubleRoundTrip(Double(0), bytes[..8]);
      var ds := DecodeDoubles(bytes);
      assert ds[1..] == DecodeDoubles(bytes[8..]);
      assert bytes == bytes[..8] + bytes[8..];
    }
  }

  /** Decoding is exactly the inverse of encoding: every byte string of a
      length divisible by eight is the encoding of exactly one array. */
  lemma DoubleArrayCodecIsBijective(arr: seq<Double>, bytes: seq<Byte>)
    ensures ToDoubleArray(ToByteDoubles(arr)) == Ok(arr)
    ensures ToDoubleArray(bytes).Ok? ==> ToByteDoubles(ToDoubleArray(bytes).value) == bytes
  {
    DoublesRoundTrip(arr);
    if |bytes| % 8 == 0 {
      DoubleBytesRoundTrip(bytes);
    }
  }

  // ---------------------------------------------------------------- ints

  /** `ToByte(int[])` (ByteHelper.cs, lines 82-90): four bytes per value. */
  function ToByteInts(arr: seq<Int32>): (bs: seq<Byte>)
    ensures |bs| == 4 * |arr|
  {
    if |arr| == 0 then [] else Int32Bytes(arr[0]) + ToByteInts(arr[1..])
  }

  function DecodeInts(bytes: seq<Byte>): (vs: seq<Int32>)
    requires |bytes| % 4 == 0
    ensures |vs| == |bytes| / 4
  {
    if |bytes| == 0 then [] else [Int32Of(bytes[..4])] + DecodeInts(bytes[4..])
  }

  /** `ToIntArray` (ByteHelper.cs, lines 61-75): throws unless the length is a
      multiple of four. */
  function ToIntArray(bytes: seq<Byte>): (r: Result<seq<Int32>>)
    ensures r.Ok? <==> |bytes| % 4 == 0
    ensures r.Ok? ==> |r.value| == |bytes| / 4
  {
    if |bytes| % 4 != 0 then Err(Argument("ToIntArray expects multiple 4byte/32bit segments"))
    else Ok(DecodeInts(bytes))
  }

  lemma {:induction false} IntsRoundTrip(arr: seq<Int32>)
    ensures ToIntArray(ToByteInts(arr)) == Ok(arr)
  {
    if |arr| > 0 {
      IntsRoundTrip(arr[1..]);
      Int32RoundTrip(arr[0], []);
      var bs := ToByteInts(arr);
      assert bs[..4] == Int32Bytes(arr[0]);
      assert bs[4..] == ToByteInts(arr[1..]);
      assert |bs| % 4 == 0 && |bs[4..]| % 4 == 0;
      assert DecodeInts(bs[4..]) == arr[1..];
      assert DecodeInts(bs) == [arr[0]] + arr[1..];
      assert [arr[0]] + arr[1..] == arr;
    }
  }

  lemma {:induction false} IntBytesRoundTrip(bytes: seq<Byte>)
    requires |bytes| % 4 == 0
    ensures ToByteInts(DecodeInts(bytes)) == bytes
  {
    if |bytes| > 0 {
      IntBytesRoundTrip(bytes[4..]);
      Int32RoundTrip(0, bytes[..4]);
      var vs := DecodeInts(bytes);
      assert vs[1..] == DecodeInts(bytes[4..]);
      assert bytes == bytes[..4] + bytes[4..];
    }
  }

  // ---------------------------------------------------------------- geometry

  /** `ToByte(Point3d)` / `ToByte(Vector3d)` (ByteHelper.cs, lines 119-123 and
      152-155): X, Y, Z. */
  function ToByteVec3(v: Vec3): (bs: seq<Byte>)
    ensures |bs| == POINT3D_LENGTH
  {
    ToByteDoubles([v.x, v.y, v.z])
  }

  /** `ToPoint3d` / `ToVector3d` (ByteHelper.cs, lines 103-112 and 135-145):
      exactly 24 bytes. */
  function ToVec3(ba: seq<Byte>): (r: Result<Vec3>)
    ensures r.Ok? <==> |ba| == VECTOR3D_LENGTH
    ensures r.Err? ==> r.error == ArgumentOutOfRange
  {
    if |ba| != VECTOR3D_LENGTH then Err(ArgumentOutOfRange)
    else
      var n := DecodeDoubles(ba);
      Ok(Vec3(n[0], n[1], n[2]))
  }

  lemma Vec3RoundTrip(v: Vec3)
    ensures ToVec3(ToByteVec3(v)) == Ok(v)
  {
    DoublesRoundTrip([v.x, v.y, v.z]);
  }

  /** `ToByte(Plane)` (ByteHelper.cs, lines 188-195): origin at 0, X axis at
      24, Y axis at 48. */
  function ToBytePlane(p: Plane): (bs: seq<Byte>)
    ensures |bs| == PLANE_LENGTH
    ensures bs[..24] == ToByteVec3(p.origin) && bs[24..48] == ToByteVec3(p.xAxis)
    ensures bs[48..] == ToByteVec3(p.yAxis)
  {
    ToByteVec3(p.origin) + ToByteVec3(p.xAxis) + ToByteVec3(p.yAxis)
  }

  /** `ToPlane` (ByteHelper.cs, lines 168-181): exactly 72 bytes, nine doubles. */
  function ToPlane(ba: seq<Byte>): (r: Result<Plane>)
    ensures r.Ok? <==> |ba| == PLANE_LENGTH
    ensures r.Err? ==> r.error == ArgumentOutOfRange
  {
    if |ba| != PLANE_LENGTH then Err(ArgumentOutOfRange)
    else
      var n := DecodeDoubles(ba);
      Ok(Plane(Vec3(n[0], n[1], n[2]), Vec3(n[3], n[4], n[5]), Vec3(n[6], n[7], n[8])))
  }

  lemma PlaneRoundTrip(p: Plane)
    ensures ToPlane(ToBytePlane(p)) == Ok(p)
  {
    var ds := [p.origin.x, p.origin.y, p.origin.z, p.xAxis.x, p.xAxis.y, p.xAxis.z,
               p.yAxis.x, p.yAxis.y, p.yAxis.z];
    ConcatDoubles([p.origin.x, p.origin.y, p.origin.z], [p.xAxis.x, p.xAxis.y, p.xAxis.z]);
    ConcatDoubles([p.origin.x, p.origin.y, p.origin.z] + [p.xAxis.x, p.xAxis.y, p.xAxis.z],
                  [p.yAxis.x, p.yAxis.y, p.yAxis.z]);
    assert [p.origin.x, p.origin.y, p.origin.z] + [p.xAxis.x, p.xAxis.y, p.xAxis.z]
           + [p.yAxis.x, p.yAxis.y, p.yAxis.z] == ds;
    DoublesRoundTrip(ds);
  }

  lemma {:induction false} ConcatDoubles(a: seq<Double>, b: seq<Double>)
    ensures ToByteDoubles(a + b) == ToByteDoubles(a) + ToByteDoubles(b)
  {
    if |a| > 0 {
      ConcatDoubles(a[1..], b);
      assert (a + b)[1..] == a[1..] + b;
    } else {
      assert a + b == b;
    }
  }

  /** `ToByte(Interval)` (ByteHelper.cs, lines 207-210): Min, then Max. */
  function ToByteInterval(i: Interval): (bs: seq<Byte>)
    ensures |bs| == INTERVAL_LENGTH
  {
    ToByteDoubles([i.min, i.max])
  }

  /** `ToInterval` (ByteHelper.cs, lines 217-227): exactly 16 bytes. */
  function ToInterval(b: seq<Byte>): (r: Result<Interval>)
    ensures r.Ok? <==> |b| == INTERVAL_LENGTH
    ensures r.Err? ==> r.error == ArgumentOutOfRange
  {
    if |b| != INTERVAL_LENGTH then Err(ArgumentOutOfRange)
    else
      var parts := DecodeDoubles(b);
      Ok(Interval(parts[0], parts[1]))
  }

  lemma IntervalRoundTrip(i: Interval)
    ensures ToInterval(ToByteInterval(i)) == Ok(i)
  {
    DoublesRoundTrip([i.min, i.max]);
  }

  /** `ToByte(Box)` (ByteHelper.cs, lines 259-267): plane at 0, X interval at
      72, Y at 88, Z at 104. */
  function ToByteBox(bo: Box): (bs: seq<Byte>)
    ensures |bs| == BOX_LENGTH
    ensures bs[..72] == ToBytePlane(bo.plane) && bs[72..88] == ToByteInterval(bo.x)
    ensures bs[88..104] == ToByteInterval(bo.y) && bs[104..] == ToByteInterval(bo.z)
  {
    ToBytePlane(bo.plane) + ToByteInterval(bo.x) + ToByteInterval(bo.y) + ToByteInterval(bo.z)
  }

  /** `ToBox` (ByteHelper.cs, lines 239-252): exactly 120 bytes. */
  function ToBox(ba: seq<Byte>): (r: Result<Box>)
    ensures r.Ok? <==> |ba| == BOX_LENGTH
    ensures r.Err? ==> r.error == ArgumentOutOfRange
  {
    if |ba| != BOX_LENGTH then Err(ArgumentOutOfRange)
    else
      Ok(Box(ToPlane(ba[..72]).value, ToInterval(ba[72..88]).value,
             ToInterval(ba[88..104]).value, ToInterval(ba[104..120]).value))
  }

  lemma BoxRoundTrip(bo: Box)
    ensures ToBox(ToByteBox(bo)) == Ok(bo)
  {
    PlaneRoundTrip(bo.plane);
    IntervalRoundTrip(bo.x);
    IntervalRoundTrip(bo.y);
    IntervalRoundTrip(bo.z);
    var bs := ToByteBox(bo);
    assert bs[104..120] == bs[104..];
  }

  // ---------------------------------------------------------------- hex

  const HEX_DIGITS: string := "0123456789ABCDEF"

  /** The character ByteToHex writes for a nibble, computed as the source
      does: `55 + b + (((b - 10) >> 31) & -7)` in 32-bit arithmetic, where the
      arithmetic shift spreads the sign bit. */
  function NibbleChar(nibble: int): (c: char)
    requires 0 <= nibble < 16
    ensures c == HEX_DIGITS[nibble]
  {
    var b := nibble as bv32;
    var t := b - 10;
    var sign: bv32 := if t & 0x8000_0000 != 0 then 0xFFFF_FFFF else 0;
    var code := 55 + b + (sign & 0xFFFF_FFF9);
    assert code as int == HEX_DIGITS[nibble] as int by {
      NibbleArithmetic(nibble);
    }
    (code as int) as char
  }

  lemma NibbleArithmetic(nibble: int)
    requires 0 <= nibble < 16
    ensures var b := nibble as bv32;
            var t := b - 10;
            var sign: bv32 := if t & 0x8000_0000 != 0 then 0xFFFF_FFFF else 0;
            (55 + b + (sign & 0xFFFF_FFF9)) as int == HEX_DIGITS[nibble] as int
  {
    match nibble
    case 0 => case 1 => case 2 => case 3 => case 4 => case 5 => case 6 => case 7 =>
    case 8 => case 9 => case 10 => case 11 => case 12 => case 13 => case 14 => case 15 =>
  }

  /** `ByteToHex` (ByteHelper.cs, lines 276-288): two characters per byte,
      high nibble first. */
  function ByteToHex(bytes: seq<Byte>): (s: string)
    ensures |s| == 2 * |bytes|
  {
    if |bytes| == 0 then "" else HexChars(bytes[0]) + ByteToHex(bytes[1..])
  }

  /** The two characters of one byte. */
  function HexChars(b: Byte): (cs: string)
    ensures cs == [HEX_DIGITS[b / 16], HEX_DIGITS[b % 16]]
  {
    [NibbleChar(b / 16), NibbleChar(b % 16)]
  }

  /** The value of a hex digit in either case, as `Convert.ToByte(_, 16)`
      reads it. */
  function HexValue(c: char): (v: Option<int>)
    ensures v.Some? ==> 0 <= v.value < 16
  {
    if '0' <= c <= '9' then Some(c as int - '0' as int)
    else if 'A' <= c <= 'F' then Some(c as int - 'A' as int + 10)
    else if 'a' <= c <= 'f' then Some(c as int - 'a' as int + 10)
    else None
  }

  /** The message of the `ArgumentException` that `Convert.ToByte` throws
      for a minus sign in a base other than 10. */
  const MINUS_SIGN_MESSAGE: string := "String cannot contain a minus sign if the base is not 10."

  /** `Convert.ToByte` of a two-character hex string: a leading minus sign is
      an argument error, any other non-digit a format error. */
  function HexPair(hi: char, lo: char): (r: Result<Byte>)
    ensures r.Ok? <==> HexValue(hi).Some? && HexValue(lo).Some?
    ensures r.Ok? ==> r.value == 16 * HexValue(hi).value + HexValue(lo).value
    ensures hi == '-' ==> r == Err(Argument(MINUS_SIGN_MESSAGE))
    ensures r.Err? && hi != '-' ==> r.error == Format
  {
    if hi == '-' then Err(Argument(MINUS_SIGN_MESSAGE))
    else
      match (HexValue(hi), HexValue(lo))
      case (Some(h), Some(l)) => Ok(16 * h + l)
      case _ => Err(Format)
  }

  /** `StringToByteArray` (ByteHelper.cs, lines 296-307): one byte per pair of
      characters; a trailing odd character is never read. */
  function StringToByteArray(hex: string): (r: Result<seq<Byte>>)
    ensures r.Ok? ==> |r.value| == |hex| / 2
    decreases |hex|
  {
    if |hex| < 2 then Ok([])
    else
      var b :- HexPair(hex[0], hex[1]);
      var rest :- StringToByteArray(hex[2..]);
      Ok([b] + rest)
  }

  /** Every character of the pairs read is a hex digit. */
  predicate HexPairsOnly(hex: string)
  {
    forall i :: 0 <= i < |hex| / 2 * 2 ==> IsHexDigit(hex[i])
  }

  /** Parsing succeeds exactly when every character of the pairs read is a
      hex digit; otherwise it fails with the error of the first bad pair. */
  lemma {:induction false} StringToByteArrayAcceptsHexPairs(hex: string)
    ensures StringToByteArray(hex).Ok? <==> HexPairsOnly(hex)
    ensures |hex| >= 2 && !(IsHexDigit(hex[0]) && IsHexDigit(hex[1])) ==>
              StringToByteArray(hex) == Err(HexPair(hex[0], hex[1]).error)
    decreases |hex|
  {
    if |hex| >= 2 {
      StringToByteArrayAcceptsHexPairs(hex[2..]);
      assert |hex[2..]| / 2 * 2 == |hex| / 2 * 2 - 2;
      if HexPairsOnly(hex) {
        assert HexPairsOnly(hex[2..]) by {
          forall i | 0 <= i < |hex[2..]| / 2 * 2 ensures IsHexDigit(hex[2..][i]) {
            assert hex[2..][i] == hex[i + 2];
          }
        }
      } else if IsHexDigit(hex[0]) && IsHexDigit(hex[1]) {
        var i :| 0 <= i < |hex| / 2 * 2 && !IsHexDigit(hex[i]);
        assert !IsHexDigit(hex[2..][i - 2]);
      }
    }
  }

  lemma HexDigitValues(v: int)
    requires 0 <= v < 16
    ensures HexValue(HEX_DIGITS[v]) == Some(v)
  {
  }

  lemma HexPairOfByte(b: Byte)
    ensures HexPair(HEX_DIGITS[b / 16], HEX_DIGITS[b % 16]) == Ok(b)
  {
    HexDigitValues(b / 16);
    HexDigitValues(b % 16);
  }

  /** Hex decoding undoes hex encoding. */
  lemma {:induction false} HexRoundTrip(bytes: seq<Byte>)
    ensures StringToByteArray(ByteToHex(bytes)) == Ok(bytes)
  {
    if |bytes| > 0 {
      var b := bytes[0];
      HexPairOfByte(b);
      HexRoundTrip(bytes[1..]);
      var s := ByteToHex(bytes);
      assert s[0] == HEX_DIGITS[b / 16] && s[1] == HEX_DIGITS[b % 16];
      assert s[2..] == ByteToHex(bytes[1..]);
      assert StringToByteArray(s) == Ok([b] + bytes[1..]);
      assert [b] + bytes[1..] == bytes;
    }
  }

  /** The upper-case form of a hex digit. */
  function UpperHex(c: char): char
  {
    if 'a' <= c <= 'f' then (c as int - 32) as char else c
  }

  predicate IsHexDigit(c: char) {
    HexValue(c).Some?
  }

  lemma DigitOfValue(c: char)
    requires IsHexDigit(c)
    ensures HEX_DIGITS[HexValue(c).value] == UpperHex(c)
  {
  }

  lemma HexPairPrint(c0: char, c1: char)
    requires IsHexDigit(c0) && IsHexDigit(c1)
    ensures HexPair(c0, c1).Ok?
    ensures HexChars(HexPair(c0, c1).value) == [UpperHex(c0), UpperHex(c1)]
  {
    var h := HexValue(c0).value;
    var l := HexValue(c1).value;
    DigitOfValue(c0);
    DigitOfValue(c1);
    var b := 16 * h + l;
    DivModUnique(b, 16, h, l);
    assert HexPair(c0, c1) == Ok(b);
    assert HexChars(b) == [HEX_DIGITS[h], HEX_DIGITS[l]];
  }

  /** Hex encoding undoes hex decoding up to letter case, and a trailing odd
      character is dropped. */
  lemma {:induction false} HexParseThenPrint(hex: string)
    requires forall i :: 0 <= i < |hex| ==> IsHexDigit(hex[i])
    ensures StringToByteArray(hex).Ok?
    ensures var out := ByteToHex(StringToByteArray(hex).value);
            |out| == |hex| / 2 * 2 && forall i :: 0 <= i < |out| ==> out[i] == UpperHex(hex[i])
    decreases |hex|
  {
    if |hex| >= 2 {
      HexParseThenPrint(hex[2..]);
      HexPairPrint(hex[0], hex[1]);
      var b := HexPair(hex[0], hex[1]).value;
      var rest := StringToByteArray(hex[2..]).value;
      assert StringToByteArray(hex) == Ok([b] + rest);
      var tail := ByteToHex(rest);
      assert ([b] + rest)[1..] == rest;
      assert ByteToHex([b] + rest) == [UpperHex(hex[0]), UpperHex(hex[1])] + tail;
      UpperPrefix(hex, tail);
    }
  }

  /** Two upper-cased characters followed by the upper-cased rest of `hex`
      are the upper-cased prefix of `hex`. */
  lemma UpperPrefix(hex: string, tail: string)
    requires |hex| >= 2 && |tail| == (|hex| - 2) / 2 * 2
    requires forall i :: 0 <= i < |tail| ==> tail[i] == UpperHex(hex[2..][i])
    ensures var out := [UpperHex(hex[0]), UpperHex(hex[1])] + tail;
            |out| == |hex| / 2 * 2 && forall i :: 0 <= i < |out| ==> out[i] == UpperHex(hex[i])
  {
    var out := [UpperHex(hex[0]), UpperHex(hex[1])] + tail;
    forall i | 2 <= i < |out|
      ensures out[i] == UpperHex(hex[i])
    {
      assert out[i] == tail[i - 2] && hex[i] == hex[2..][i - 2];
    }
  }

  // ---------------------------------------------------------------- bit arrays

  /** The byte holding up to eight bits, the first in the least significant
      position (`BitArray.CopyTo` into a `byte[]`). */
  function PackByte(bits: seq<bool>): (b: nat)
    requires |bits| <= 8
    ensures b < Pow2(|bits|)
  {
    if |bits| == 0 then 0 else (if bits[0] then 1 else 0) + 2 * PackByte(bits[1..])
  }

  function Pow2(n: nat): (p: nat)
    ensures p > 0
  {
    if n == 0 then 1 else 2 * Pow2(n - 1)
  }

  lemma Pow2Monotone(m: nat, n: nat)
    requires m <= n
    ensures Pow2(m) <= Pow2(n)
  {
  }

  /** The bytes holding a bit sequence, eight bits per byte. */
  function PackBits(bits: seq<bool>): (bs: seq<Byte>)
    ensures |bs| == (|bits| + 7) / 8
  {
    if |bits| == 0 then []
    else
      var chunk := if |bits| <= 8 then bits else bits[..8];
      Pow2Monotone(|chunk|, 8);
      assert Pow2(8) == 256;
      [PackByte(chunk)] + PackBits(bits[|chunk|..])
  }

  /** The `k` lowest bits of a byte, least significant first. */
  function ByteBits(v: nat, k: nat): (bits: seq<bool>)
    ensures |bits| == k
  {
    if k == 0 then [] else [v % 2 == 1] + ByteBits(v / 2, k - 1)
  }

  /** `new BitArray(byte[])`: eight bits per byte, least significant first. */
  function UnpackBits(bytes: seq<Byte>): (bits: seq<bool>)
    ensures |bits| == 8 * |bytes|
  {
    if |bytes| == 0 then [] else ByteBits(bytes[0], 8) + UnpackBits(bytes[1..])
  }

  function Falses(n: nat): (s: seq<bool>)
    ensures |s| == n && forall i :: 0 <= i < n ==> !s[i]
  {
    seq(n, _ => false)
  }

  lemma {:induction false} ByteBitsOfPack(bits: seq<bool>, k: nat)
    requires |bits| <= k && |bits| <= 8
    ensures ByteBits(PackByte(bits), k) == bits + Falses(k - |bits|)
  {
    if k > 0 {
      if |bits| == 0 {
        ByteBitsOfZero(k);
      } else {
        var rest := PackByte(bits[1..]);
        var v := (if bits[0] then 1 else 0) + 2 * rest;
        assert v % 2 == 1 <==> bits[0];
        assert v / 2 == rest;
        ByteBitsOfPack(bits[1..], k - 1);
        assert bits == [bits[0]] + bits[1..];
        assert Falses(k - |bits|) == Falses(k - 1 - |bits[1..]|);
      }
    }
  }

  lemma {:induction false} ByteBitsOfZero(k: nat)
    ensures ByteBits(0, k) == Falses(k)
  {
    if k > 0 {
      ByteBitsOfZero(k - 1);
      assert Falses(k) == [false] + Falses(k - 1);
    }
  }

  /** Unpacking packed bits gives the bits back, padded with false up to a
      multiple of eight. */
  lemma {:induction false} UnpackPack(bits: seq<bool>)
    ensures UnpackBits(PackBits(bits)) == bits + Falses(8 * ((|bits| + 7) / 8) - |bits|)
    decreases |bits|
  {
    if |bits| > 0 {
      var chunk := if |bits| <= 8 then bits else bits[..8];
      var rest := bits[|chunk|..];
      ByteBitsOfPack(chunk, 8);
      UnpackPack(rest);
      var packed := PackBits(bits);
      assert packed[1..] == PackBits(rest);
      if |bits| <= 8 {
        assert rest == [];
        assert UnpackBits([]) == [];
        assert (|bits| + 7) / 8 == 1;
      } else {
        assert bits == chunk + rest;
        assert (|bits| + 7) / 8 == (|rest| + 7) / 8 + 1;
        assert Falses(8 * ((|bits| + 7) / 8) - |bits|) == Falses(8 * ((|rest| + 7) / 8) - |rest|);
      }
    }
  }

  lemma {:induction false} UnpackConcat(a: seq<Byte>, b: seq<Byte>)
    ensures UnpackBits(a + b) == UnpackBits(a) + UnpackBits(b)
  {
    if |a| > 0 {
      UnpackConcat(a[1..], b);
      assert (a + b)[1..] == a[1..] + b;
    } else {
      assert a + b == b;
    }
  }

  /** The size of the byte buffer ToByte(BitArray) allocates: the ceiling of
      `n / 8`, plus one more byte when `n` is not a multiple of eight. */
  function PackedLength(n: nat): nat
  {
    (n + 7) / 8 + (if n % 8 != 0 then 1 else 0)
  }

  function Zeros(n: nat): (s: seq<Byte>)
    ensures |s| == n && forall i :: 0 <= i < n ==> s[i] == 0
  {
    seq(n, _ => 0)
  }

  /** `ToByte(BitArray)` (ByteHelper.cs, lines 315-331): the bit count as a
      four-byte prefix, then the packed bits in a buffer of PackedLength bytes
      whose unused bytes stay zero. */
  function ToByteBits(bits: seq<bool>): (bs: seq<Byte>)
    requires |bits| <= INT32_MAX
    ensures |bs| == 4 + PackedLength(|bits|)
    ensures bs[..4] == Int32Bytes(|bits|)
  {
    var packed := PackBits(bits);
    Int32Bytes(|bits|) + packed + Zeros(PackedLength(|bits|) - |packed|)
  }

  /** `BitArray.Length = size`: truncates, or extends with false. */
  function Resize(bits: seq<bool>, size: nat): (r: seq<bool>)
    ensures |r| == size
    ensures forall i :: 0 <= i < size ==> r[i] == (i < |bits| && bits[i])
  {
    if size <= |bits| then bits[..size] else bits + Falses(size - |bits|)
  }

  /** `ToBitArray` (ByteHelper.cs, lines 338-348): fewer than four bytes fail
      when the payload buffer of negative length is allocated; a negative
      prefix fails when the length is set. */
  function ToBitArray(bytes: seq<Byte>): (r: Result<seq<bool>>)
    ensures |bytes| < 4 ==> r == Err(Overflow)
    ensures |bytes| >= 4 ==> (r.Ok? <==> Int32Of(bytes[..4]) >= 0)
    ensures r.Ok? ==> |r.value| == Int32Of(bytes[..4])
  {
    if |bytes| < 4 then Err(Overflow)
    else
      var size := Int32Of(bytes[..4]);
      if size < 0 then Err(ArgumentOutOfRange)
      else Ok(Resize(UnpackBits(bytes[4..]), size))
  }

  /** Decoding an encoded bit array gives it back, whatever trails the
      encoding. */
  lemma BitArrayRoundTrip(bits: seq<bool>, trailer: seq<Byte>)
    requires |bits| <= INT32_MAX
    ensures ToBitArray(ToByteBits(bits) + trailer) == Ok(bits)
  {
    var n := |bits|;
    var packed := PackBits(bits);
    var all := ToByteBits(bits) + trailer;
    Int32RoundTrip(n, []);
    assert all[..4] == Int32Bytes(n);
    var payload := packed + (Zeros(PackedLength(n) - |packed|) + trailer);
    assert all[4..] == payload;
    UnpackConcat(packed, Zeros(PackedLength(n) - |packed|) + trailer);
    UnpackPack(bits);
    var unpacked := UnpackBits(payload);
    assert unpacked[..n] == bits;
  }

  // ---------------------------------------------------------------- voxel grids

  /** Where ToByte(VoxelGrid3D) puts the box and the bits. */
  const GRID_BOX_OFFSET: nat := POINT3D_LENGTH
  const GRID_BITS_OFFSET: nat := POINT3D_LENGTH + BOX_LENGTH

  /** `ToByte(VoxelGrid3D)` (ByteHelper.cs, lines 356-373): cell size at 0, box
      at 24, encoded bits at 144, in a buffer four bytes longer than that, so
      four zero bytes trail. */
  function ToByteVoxelGrid(vg: Grid3D.Grid3<bool>): (r: Result<seq<Byte>>)
    requires vg.storage.Cells? ==> |vg.storage.cells| <= INT32_MAX
    ensures r.Ok? <==> vg.storage.Cells?
    ensures r.Err? ==> r.error == NullReference
    ensures r.Ok? ==> |r.value| == GRID_BITS_OFFSET + 4 + |ToByteBits(vg.storage.cells)|
    ensures r.Ok? ==> && r.value[..GRID_BOX_OFFSET] == ToByteVec3(vg.voxelSize)
                      && r.value[GRID_BOX_OFFSET..GRID_BITS_OFFSET] == ToByteBox(vg.box)
                      && r.value[GRID_BITS_OFFSET..] == ToByteBits(vg.storage.cells) + Zeros(4)
  {
    match vg.storage
    case Null => Err(NullReference)
    case Cells(c) =>
      var out := ToByteVec3(vg.voxelSize) + ToByteBox(vg.box) + ToByteBits(c) + Zeros(4);
      assert out[GRID_BITS_OFFSET..] == ToByteBits(c) + Zeros(4);
      Ok(out)
  }

  /** `ToVoxelGrid` (ByteHelper.cs, lines 380-386): the first 24 bytes, the next
      120 and the rest, each through its decoder (`Take` and `Skip` stop at the
      end of the input), then the bits constructor. */
  function ToVoxelGrid(b: seq<Byte>, fd: FloorDivide): (r: Result<Grid3D.Grid3<bool>>)
    ensures |b| < GRID_BITS_OFFSET + 4 ==> r.Err?
    ensures r.Ok? ==> r.value.storage.Cells? && |r.value.storage.cells| == Int32Of(b[GRID_BITS_OFFSET..GRID_BITS_OFFSET + 4])
  {
    var n := |b|;
    var voxelSize :- ToVec3(b[..if n < 24 then n else 24]);
    var box :- ToBox(b[if n < 24 then n else 24..if n < 144 then n else 144]);
    var bits :- ToBitArray(b[if n < 144 then n else 144..]);
    assert b[144..][..4] == b[GRID_BITS_OFFSET..GRID_BITS_OFFSET + 4];
    VoxelGrid3D.WithBits(box, voxelSize, Grid3D.Cells(bits), fd)
  }

  /** A well-formed grid whose extent is the one its box and cell size give
      survives encoding and decoding: cell size, box, extent and every bit. */
  lemma VoxelGridRoundTrip(vg: Grid3D.Grid3<bool>, fd: FloorDivide)
    requires Grid3D.WellFormed(vg) && Grid3D.InitializedBy(vg, fd)
    ensures ToByteVoxelGrid(vg).Ok?
    ensures ToVoxelGrid(ToByteVoxelGrid(vg).value, fd) == Ok(vg)
  {
    var c := vg.storage.cells;
    var b := ToByteVoxelGrid(vg).value;
    Vec3RoundTrip(vg.voxelSize);
    BoxRoundTrip(vg.box);
    BitArrayRoundTrip(c, Zeros(4));
    assert b[..24] == ToByteVec3(vg.voxelSize);
    assert b[24..144] == ToByteBox(vg.box);
    assert b[144..] == ToByteBits(c) + Zeros(4);
  }
}

=== FILE: from_list.dfy ===
/** The component that writes a list of booleans into a copy of a voxel grid
(`VoxelGridFromList`, VoxelGridFromList.cs): cell `i` takes value `i` of the
list, for as many cells as both the grid's storage and the list have.
 */
module FromList {
  import opened Wrappers
  import opened Geometry
  import opened Grid3D
  import opened BitGrid3D
  import VoxelGrid3D

  /** The loop of lines 56-59: `SetValue(i, vals[i])` for `i < max`. */
  function Assign(g: BitGrid, vals: seq<bool>, max: nat, i: nat): Result<BitGrid>
    requires max <= |vals|
    decreases max - i
  {
    if i >= max then Ok(g)
    else
      var g' :- SetValue(g, i, vals[i]);
      Assign(g', vals, max, i + 1)
  }

  /** `SolveInstance` (lines 46-63): clone the grid, then assign the first
      `Math.Min(grid.Grid.Count, vals.Count)` cells, where `Grid.Count` is the
      length of the storage. */
  function FromList(vg: BitGrid, vals: seq<bool>, fd: FloorDivide): Result<BitGrid>
  {
    var g :- VoxelGrid3D.Clone(vg, fd);
    match g.storage
    case Null => Err(NullReference)
    case Cells(c) => Assign(g, vals, Min(|c|, |vals|), 0)
  }

  /** The value cell `k` should hold after the assignment. */
  function Assigned(before: seq<bool>, vals: seq<bool>, k: nat): bool
    requires k < |before|
  {
    if k < |vals| then vals[k] else before[k]
  }

  lemma {:induction false} AssignWritesPrefix(g: BitGrid, vals: seq<bool>, max: nat, i: nat)
    requires max <= |vals| && g.storage.Cells? && max <= |g.storage.cells| && i <= max
    ensures Assign(g, vals, max, i).Ok?
    ensures var r := Assign(g, vals, max, i).value;
            && r.box == g.box && r.voxelSize == g.voxelSize && r.size == g.size
            && r.storage.Cells? && |r.storage.cells| == |g.storage.cells|
            && forall k :: 0 <= k < |g.storage.cells| ==>
                 r.storage.cells[k] == if i <= k < max then vals[k] else g.storage.cells[k]
    decreases max - i
  {
    if i < max {
      var c := g.storage.cells;
      var g' := g.(storage := Cells(c[i := vals[i]]));
      assert SetValue(g, i, vals[i]) == Ok(g');
      AssignWritesPrefix(g', vals, max, i + 1);
    }
  }

  /** On a well-formed grid the component keeps the grid's shape, gives the
      first cells the list's values, as many as both have, and leaves every
      other cell as it was. */
  lemma FromListOverwritesPrefix(vg: BitGrid, vals: seq<bool>, fd: FloorDivide)
    requires WellFormed(vg) && InitializedBy(vg, fd)
    ensures FromList(vg, vals, fd).Ok?
    ensures var r := FromList(vg, vals, fd).value;
            && r.box == vg.box && r.voxelSize == vg.voxelSize && r.size == vg.size && WellFormed(r)
            && forall k :: 0 <= k < Count(vg) ==> r.storage.cells[k] == Assigned(vg.storage.cells, vals, k)
  {
    VoxelGrid3D.CloneIsEqualCopy(vg, fd);
    AssignWritesPrefix(vg, vals, Min(Count(vg), |vals|), 0);
  }

  /** Writing the same list twice changes nothing more. */
  lemma FromListIsIdempotent(vg: BitGrid, vals: seq<bool>, fd: FloorDivide)
    requires WellFormed(vg) && InitializedBy(vg, fd)
    ensures FromList(vg, vals, fd).Ok?
    ensures FromList(FromList(vg, vals, fd).value, vals, fd) == FromList(vg, vals, fd)
  {
    FromListOverwritesPrefix(vg, vals, fd);
    var r := FromList(vg, vals, fd).value;
    assert InitializedBy(r, fd) by {
      assert r.box == vg.box && r.voxelSize == vg.voxelSize && r.size == vg.size;
    }
    FromListOverwritesPrefix(r, vals, fd);
    var r2 := FromList(r, vals, fd).value;
    assert r2.storage.cells == r.storage.cells;
  }
}

=== FILE: geometry.dfy ===
/** The floating-point world values a grid carries (RhinoCommon structures).

The grids only store these values, copy them and serialise them; the one
computation done on them is the extent of a grid, `Math.Floor(length / cell)`
per axis, which enters the model as a `FloorDivide` function (see Grid3D).
A `double` is represented by its IEEE-754 bit pattern, which is exactly what
`BitConverter` reads and writes; its numeric meaning is not modelled.
 */
module Geometry {

  /** The 64-bit pattern of a `double`. */
  type Bits64 = n: nat | n < 0x1_0000_0000_0000_0000

  datatype Double = Double(pattern: Bits64)

  /** `Point3d` and `Vector3d`. */
  datatype Vec3 = Vec3(x: Double, y: Double, z: Double)

  /** `Point2d`. */
  datatype Vec2 = Vec2(x: Double, y: Double)

  /** `Interval`, as the pair (Min, Max) that the library reads from it. */
  datatype Interval = Interval(min: Double, max: Double)

  /** `Plane`: an origin and the two in-plane axes. */
  datatype Plane = Plane(origin: Vec3, xAxis: Vec3, yAxis: Vec3)

  /** `Box`: a plane and one interval per axis. */
  datatype Box = Box(plane: Plane, x: Interval, y: Interval, z: Interval)

  /** `Rectangle3d`: a plane and one interval per in-plane axis. */
  datatype Rectangle = Rectangle(plane: Plane, x: Interval, y: Interval)

  /** The value of `Math.Floor(a / b)` for doubles: an integral value, or an
      infinity or NaN (a zero cell size, an overflowing ratio). */
  datatype FloorQuotient = Finite(n: int) | NonFinite

  /** `Math.Floor(interval.Length / cellSize)` as the floating-point unit
      computes it; the model takes it as a parameter. */
  type FloorDivide = (Interval, Double) -> FloorQuotient
}

=== FILE: grid2d.dfy ===
/** The common part of every two-dimensional grid (`Grid2D<T, Y>`, Grid2D.cs):
world rectangle, pixel size, extent in pixels and the injected storage.

Unlike Grid3D, the extent setter performs no validation, and a neighbour
outside the grid is an exception rather than a sentinel value.
 */
module Grid2D {
  import opened Wrappers
  import opened Numerics
  import opened Geometry
  import opened Point2i
  import opened Grid3D

  datatype Grid2<T> = Grid2(rect: Rectangle, pixelSize: Vec2, size: Point2i, storage: Storage<T>)

  const ORIGIN: Point2i := Point2i(0, 0)

  const NO_INDEX: string := "Index does not exist"

  /** The parameterless constructor: all-zero world values, extent (0, 0), no
      storage. */
  function Empty<T>(): Grid2<T>
  {
    Grid2(Rectangle(Plane(ZeroVec, ZeroVec, ZeroVec), ZeroInterval, ZeroInterval),
          Vec2(Double(0), Double(0)), ORIGIN, Null)
  }

  /** The two extents `Convert.ToInt16(Math.Floor(length / pixelSize))`
      (Grid2D.cs, lines 39-42). */
  function Extent(rect: Rectangle, pixelSize: Vec2, fd: FloorDivide): (r: Result<Point2i>)
    ensures r.Ok? <==> FloorToInt16(fd(rect.x, pixelSize.x)).Ok? && FloorToInt16(fd(rect.y, pixelSize.y)).Ok?
    ensures r.Ok? ==> r.value == Point2i(fd(rect.x, pixelSize.x).n, fd(rect.y, pixelSize.y).n)
    ensures r.Err? ==> r.error == Overflow
  {
    var ix :- FloorToInt16(fd(rect.x, pixelSize.x));
    var iy :- FloorToInt16(fd(rect.y, pixelSize.y));
    FromInts(ix, iy)
  }

  /** The rectangle, pixel size and extent assignments shared by the Grid2D
      constructor and `PixelGrid2D.Initialize`: the unguarded `SizeUV` setter
      takes any extent. */
  function Initialize<T>(g: Grid2<T>, rect: Rectangle, pixelSize: Vec2, fd: FloorDivide): (r: Result<Grid2<T>>)
    ensures r.Ok? <==> Extent(rect, pixelSize, fd).Ok?
    ensures r.Ok? ==> r.value == Grid2(rect, pixelSize, Extent(rect, pixelSize, fd).value, g.storage)
  {
    var size :- Extent(rect, pixelSize, fd);
    Ok(g.(rect := rect, pixelSize := pixelSize, size := size))
  }

  /** The constructor (Grid2D.cs, lines 33-45): the storage is injected as it
      is. */
  function New<T>(rect: Rectangle, pixelSize: Vec2, grid: Storage<T>, fd: FloorDivide): (r: Result<Grid2<T>>)
    ensures r.Ok? <==> Extent(rect, pixelSize, fd).Ok?
    ensures r.Ok? ==> r.value.rect == rect && r.value.pixelSize == pixelSize && r.value.storage == grid
    ensures r.Ok? ==> InitializedBy(r.value, fd)
  {
    var g :- Initialize(Empty<T>(), rect, pixelSize, fd);
    Ok(g.(storage := grid))
  }

  /** A grid whose extent is the one its own rectangle and pixel size give. */
  predicate InitializedBy<T>(g: Grid2<T>, fd: FloorDivide)
  {
    Extent(g.rect, g.pixelSize, fd) == Ok(g.size)
  }

  /** `IsValid` (Grid2D.cs, line 179). */
  predicate IsValid<T>(g: Grid2<T>)
  {
    SelfProduct(g.size) > 0 && IsPositiveNonZero(g.size)
  }

  /** A product of two `short`s cannot wrap, so validity is positivity. */
  lemma IsValidIsPositive<T>(g: Grid2<T>)
    ensures IsValid(g) <==> Fits(g.size)
  {
    if IsPositiveNonZero(g.size) {
      MulAtLeast(g.size.x, g.size.y);
    }
  }

  /** The unguarded setter lets the constructor build an invalid grid: a
      rectangle shorter than one pixel gives extent zero. */
  lemma NewAcceptsEmptyExtent<T>(rect: Rectangle, pixelSize: Vec2, grid: Storage<T>, fd: FloorDivide)
    requires fd(rect.x, pixelSize.x) == Finite(0)
    requires FloorToInt16(fd(rect.y, pixelSize.y)).Ok?
    ensures New(rect, pixelSize, grid, fd).Ok?
    ensures !IsValid(New(rect, pixelSize, grid, fd).value)
  {
  }

  /** `InPixelGrid(p, size)`: `!(p < (0, 0) || p >= size)`, i.e. both
      components in range. */
  function InPixelGrid(p: Point2i, size: Point2i): (r: bool)
    ensures r <==> 0 <= p.x < size.x && 0 <= p.y < size.y
  {
    !(Gt(ORIGIN, p) || Ge(p, size))
  }

  /** `UVIndex` (Grid2D.cs, lines 103-106): `uv ^ SizeUV`. */
  function UVIndex<T>(g: Grid2<T>, uv: Point2i): Int32
  {
    Caret(uv, g.size)
  }

  /** `IndexUV` (Grid2D.cs, lines 93-96): `SizeUV % index`. */
  function IndexUV<T>(g: Grid2<T>, index: Int32): Result<Point2i>
  {
    Mod(g.size, index)
  }

  /** On a valid grid UVIndex and IndexUV are inverse bijections between the
      pixels and `[0, SizeUV.X * SizeUV.Y)`; the argument swap of `^` is
      what makes UVIndex the row-major index `uv.X * SizeUV.Y + uv.Y`. */
  lemma PixelIndexBijection<T>(g: Grid2<T>, i: nat, uv: Point2i)
    requires IsValid(g)
    ensures UVIndex(g, uv) == uv.x * g.size.y + uv.y
    ensures i < SelfProduct(g.size) ==>
              IndexUV(g, i).Ok? && InPixelGrid(IndexUV(g, i).value, g.size) && UVIndex(g, IndexUV(g, i).value) == i
    ensures InPixelGrid(uv, g.size) ==>
              0 <= UVIndex(g, uv) < SelfProduct(g.size) && IndexUV(g, UVIndex(g, uv)) == Ok(uv)
  {
    PixelIndexRoundTrip(g.size, i, uv);
    if i < SelfProduct(g.size) {
      ModIsUv(g.size, i);
    }
    if InPixelGrid(uv, g.size) {
      ModIsUv(g.size, UVIndex(g, uv));
    }
  }

  /** `GetRelativeUV` (Grid2D.cs, lines 60-69): the neighbour of pixel `index`
      at offset `rel`, or an exception when it lies outside the grid. */
  function GetRelativeUV<T>(g: Grid2<T>, index: Int32, rel: Point2i): (r: Result<Point2i>)
    ensures r.Ok? ==> InPixelGrid(r.value, g.size)
  {
    var p :- IndexUV(g, index);
    var pt :- Add(p, rel);
    if Gt(ORIGIN, pt) || Ge(pt, g.size) then Err(Failure(NO_INDEX)) else Ok(pt)
  }

  /** On a valid grid the neighbour of a pixel is its position plus the
      offset, and the exception is raised exactly when that lies outside. */
  lemma GetRelativeUVThrowsOutside<T>(g: Grid2<T>, i: nat, rel: Point2i)
    requires IsValid(g) && i < SelfProduct(g.size)
    requires Add(Uv(g.size, i), rel).Ok?
    ensures var q := Add(Uv(g.size, i), rel).value;
            GetRelativeUV(g, i, rel) == if InPixelGrid(q, g.size) then Ok(q) else Err(Failure(NO_INDEX))
  {
    ModIsUv(g.size, i);
  }
}

=== FILE: grid3d.dfy ===
/** The common part of every three-dimensional grid (`Grid3D<TValue,
TCollection>`, Grid3D.cs): world box, cell size, extent in cells and the
backing storage, which a parameterless constructor leaves null.

The subclasses differ only in how their storage reacts to a bad index; that
difference is the `CellKind` below, so the storage operations, the extent
computation and the clones are written once here.
 */
module Grid3D {
  import opened Wrappers
  import opened Numerics
  import opened Geometry
  import opened Point3i

  /** The `TCollection` field: unset, or the cells in index order. */
  datatype Storage<T> = Null | Cells(cells: seq<T>)

  datatype Grid3<T> = Grid3(box: Box, voxelSize: Vec3, size: Point3i, storage: Storage<T>)

  /** `BitArray` storage (BitGrid3D, VoxelGrid3D) or `float[]` storage
      (ScalarGrid3D). */
  datatype CellKind = BitCells | FloatCells

  const SIZE_MESSAGE: string := "The size of a grid should at least be 1x1x1 and non-negative"

  const ZeroVec: Vec3 := Vec3(Double(0), Double(0), Double(0))
  const ZeroInterval: Interval := Interval(Double(0), Double(0))
  const DefaultBox: Box := Box(Plane(ZeroVec, ZeroVec, ZeroVec), ZeroInterval, ZeroInterval, ZeroInterval)

  /** The parameterless constructors (Grid3D.cs, line 37): all-zero world
      values, extent (0, 0, 0), no storage. */
  function Empty<T>(): Grid3<T>
  {
    Grid3(DefaultBox, ZeroVec, Origin, Null)
  }

  /** `Count` (Grid3D.cs, line 54): the wrapping product of the extent. */
  function Count<T>(g: Grid3<T>): Int32
  {
    SelfProduct(g.size)
  }

  /** `IsValid` (Grid3D.cs, line 59). */
  predicate IsValid<T>(g: Grid3<T>)
  {
    SelfProduct(g.size) > 0 && IsPositiveNonZero(g.size)
  }

  // ---------------------------------------------------------------- size guard

  /** The `SizeUVW` setter exactly as written (Grid3D.cs, lines 67-82): the
      wrapped product must be at least one and every component positive. */
  function SetSizeAsWritten<T>(g: Grid3<T>, value: Point3i): (r: Result<Grid3<T>>)
    ensures r.Ok? <==> SelfProduct(value) >= 1 && IsPositiveNonZero(value)
    ensures r.Ok? ==> r.value == g.(size := value)
    ensures r.Err? ==> r.error == Argument(SIZE_MESSAGE)
  {
    if SelfProduct(value) < 1 || !IsPositiveNonZero(value) then Err(Argument(SIZE_MESSAGE))
    else Ok(g.(size := value))
  }

  /** The guard as written admits an extent whose cell count wraps: a grid of
      5 x 32767 x 32767 cells reports 1073414149 of them, and an in-grid cell
      gets a negative index. */
  lemma SetSizeAsWrittenAdmitsWrappedCount()
    ensures var size := Point3i(5, 0x7FFF, 0x7FFF);
            var r := SetSizeAsWritten(Empty<bool>(), size);
            && r.Ok? && IsValid(r.value)
            && Count(r.value) == 1073414149
            && size.x * size.y * size.z == 5368381445
            && InGrid(Point3i(4, 0, 0), size)
            && PointUvwToIndex(size, Point3i(4, 0, 0)) == -262140
  {
    var size := Point3i(5, 0x7FFF, 0x7FFF);
    assert size.x * size.y * size.z == 5368381445;
    assert Wrap32(5368381445) == 1073414149 by {
      assert 5368381445 - TWO_32 == 1073414149;
    }
    assert size.z * size.y * 4 + size.z * 0 + 0 == 4294705156;
    assert Wrap32(4294705156) == -262140 by {
      assert 4294705156 - TWO_32 == -262140;
    }
  }

  /** The `SizeUVW` setter as evidently intended, and as this model uses it:
      an extent is accepted only when every component is positive and its
      exact cell count fits an `int`. */
  function SetSize<T>(g: Grid3<T>, value: Point3i): (r: Result<Grid3<T>>)
    ensures r.Ok? <==> Fits(value)
    ensures r.Ok? ==> r.value == g.(size := value)
    ensures r.Err? ==> r.error == Argument(SIZE_MESSAGE)
  {
    if !Fits(value) then Err(Argument(SIZE_MESSAGE)) else Ok(g.(size := value))
  }

  /** The corrected guard admits exactly the extents the original admits whose
      count does not wrap, and on them every in-grid cell has an index in
      `[0, Count)`. */
  lemma SetSizeAdmitsOnlyIndexableSizes<T>(g: Grid3<T>, value: Point3i)
    ensures SetSize(g, value).Ok? <==>
              SetSizeAsWritten(g, value).Ok? && SelfProduct(value) == value.x * value.y * value.z
    ensures SetSize(g, value).Ok? ==>
              forall p :: InGrid(p, value) ==> 0 <= PointUvwToIndex(value, p) < Count(SetSize(g, value).value)
  {
    if IsPositiveNonZero(value) {
      MulPositive3(value);
    }
    if Fits(value) {
      forall p | InGrid(p, value)
        ensures 0 <= PointUvwToIndex(value, p) < Count(SetSize(g, value).value)
      {
        CellOfIndex(value, p);
      }
    }
  }

  lemma MulPositive3(size: Point3i)
    requires IsPositiveNonZero(size)
    ensures size.x * size.y * size.z >= 1
  {
    MulAtLeast(size.x, size.y);
    MulAtLeast(size.x * size.y, size.z);
  }

  // ---------------------------------------------------------------- extent

  /** `Convert.ToInt16` of a floored quotient: an infinity, a NaN or a value
      outside `short` throws an overflow. */
  function FloorToInt16(q: FloorQuotient): (r: Result<Int16>)
    ensures r.Ok? <==> q.Finite? && InInt16(q.n)
    ensures r.Ok? ==> r.value == q.n
    ensures r.Err? ==> r.error == Overflow
  {
    match q
    case Finite(n) => ToInt16Checked(n)
    case NonFinite => Err(Overflow)
  }

  /** The three extents Initialize computes (Grid3D.cs, lines 327-331). */
  function Extent(box: Box, voxelSize: Vec3, fd: FloorDivide): (r: Result<Point3i>)
    ensures r.Ok? <==> FloorToInt16(fd(box.x, voxelSize.x)).Ok? && FloorToInt16(fd(box.y, voxelSize.y)).Ok?
                       && FloorToInt16(fd(box.z, voxelSize.z)).Ok?
    ensures r.Ok? ==> r.value == Point3i(fd(box.x, voxelSize.x).n, fd(box.y, voxelSize.y).n, fd(box.z, voxelSize.z).n)
  {
    var ix :- FloorToInt16(fd(box.x, voxelSize.x));
    var iy :- FloorToInt16(fd(box.y, voxelSize.y));
    var iz :- FloorToInt16(fd(box.z, voxelSize.z));
    FromInts(ix, iy, iz)
  }

  /** `Initialize` (Grid3D.cs, lines 322-333): sets the box and cell size, then
      the extent through the corrected setter `SetSize`, which also rejects an
      extent whose exact cell count exceeds `int.MaxValue`; the storage is left
      as it was. */
  function Initialize<T>(g: Grid3<T>, box: Box, voxelSize: Vec3, fd: FloorDivide): (r: Result<Grid3<T>>)
    ensures r.Ok? <==> Extent(box, voxelSize, fd).Ok? && Fits(Extent(box, voxelSize, fd).value)
    ensures r.Ok? ==> r.value.box == box && r.value.voxelSize == voxelSize && r.value.storage == g.storage
    ensures r.Ok? ==> r.value.size == Extent(box, voxelSize, fd).value
    ensures r.Ok? ==> IsValid(r.value) && Fits(r.value.size)
  {
    var size :- Extent(box, voxelSize, fd);
    FitsIsValid(size);
    SetSize(g.(box := box, voxelSize := voxelSize), size)
  }

  /** An extent that fits passes the original guard, with an exact count. */
  lemma FitsIsValid(size: Point3i)
    ensures Fits(size) ==> SelfProduct(size) == size.x * size.y * size.z >= 1
  {
    if Fits(size) {
      MulPositive3(size);
    }
  }

  /** A grid whose extent is the one Initialize derives from its own box and
      cell size. */
  predicate InitializedBy<T>(g: Grid3<T>, fd: FloorDivide)
  {
    Extent(g.box, g.voxelSize, fd) == Ok(g.size)
  }

  /** Initialising twice from the same box and cell size gives the same
      extent, so a grid made by Initialize is rebuilt exactly by it. */
  lemma InitializeIsReproducible<T, U>(g: Grid3<T>, box: Box, voxelSize: Vec3, fd: FloorDivide, h: Grid3<U>)
    requires Initialize(g, box, voxelSize, fd).Ok?
    ensures InitializedBy(Initialize(g, box, voxelSize, fd).value, fd)
    ensures Initialize(h, box, voxelSize, fd) ==
              Ok(Grid3(box, voxelSize, Initialize(g, box, voxelSize, fd).value.size, h.storage))
  {
  }

  /** A grid with storage for every cell of an extent that fits. */
  predicate WellFormed<T>(g: Grid3<T>)
  {
    Fits(g.size) && g.storage.Cells? && |g.storage.cells| == Count(g)
  }

  /** New storage of `Count` default values: `new BitArray(n, false)` in the
      VoxelGrid3D constructor (VoxelGrid3D.cs, line 34) and `new float[n]` in
      the ScalarGrid3D one (ScalarGrid3D.cs, line 20). */
  function Allocate<T>(g: Grid3<T>, zero: T): (r: Grid3<T>)
    requires Count(g) >= 0
    ensures r.storage.Cells? && |r.storage.cells| == Count(g)
    ensures forall i :: 0 <= i < Count(g) ==> r.storage.cells[i] == zero
    ensures r.(storage := g.storage) == g
  {
    g.(storage := Cells(seq(Count(g), _ => zero)))
  }

  // ---------------------------------------------------------------- cells

  /** Reading one cell: null storage throws a null reference; a bad index
      throws `ArgumentOutOfRange` from `BitArray.Get` or `IndexOutOfRange`
      from a `float[]`. */
  function ReadCell<T>(kind: CellKind, s: Storage<T>, i: int): (r: Result<T>)
    ensures r.Ok? <==> s.Cells? && 0 <= i < |s.cells|
    ensures r.Ok? ==> r.value == s.cells[i]
    ensures s.Null? ==> r == Err(NullReference)
    ensures s.Cells? && r.Err? ==> r.error == (if kind == BitCells then ArgumentOutOfRange else IndexOutOfRange)
  {
    match s
    case Null => Err(NullReference)
    case Cells(c) =>
      if 0 <= i < |c| then Ok(c[i])
      else if kind == BitCells then Err(ArgumentOutOfRange) else Err(IndexOutOfRange)
  }

  /** Writing one cell: null storage throws; a bad index is silently ignored
      by BitGrid3D.SetValue (BitGrid3D.cs, lines 167-174) and throws for a
      `float[]` (ScalarGrid3D.cs, lines 89-92). */
  function WriteCell<T>(kind: CellKind, s: Storage<T>, i: int, v: T): (r: Result<Storage<T>>)
    ensures s.Null? ==> r == Err(NullReference)
    ensures s.Cells? && 0 <= i < |s.cells| ==> r == Ok(Cells(s.cells[i := v]))
    ensures s.Cells? && !(0 <= i < |s.cells|) ==>
              r == if kind == BitCells then Ok(s) else Err(IndexOutOfRange)
  {
    match s
    case Null => Err(NullReference)
    case Cells(c) =>
      if 0 <= i < |c| then Ok(Cells(c[i := v]))
      else if kind == BitCells then Ok(s) else Err(IndexOutOfRange)
  }

  /** Reading back a written cell gives the written value, and no other cell
      changes. */
  lemma ReadAfterWrite<T>(kind: CellKind, s: Storage<T>, i: int, j: int, v: T)
    requires s.Cells? && 0 <= i < |s.cells|
    ensures WriteCell(kind, s, i, v).Ok?
    ensures ReadCell(kind, WriteCell(kind, s, i, v).value, j) == if i == j then Ok(v) else ReadCell(kind, s, j)
  {
  }

  /** The index a coordinate accessor uses (Grid3D.cs, lines 174-177 and
      274-277): no bounds check. */
  function IndexOf<T>(g: Grid3<T>, p: Point3i): Int32
  {
    PointUvwToIndex(g.size, p)
  }

  /** `GetValue(Point3i)` and the coordinate indexer getter (Grid3D.cs, lines
      174-177 and 353-357). */
  function GetAt<T>(kind: CellKind, g: Grid3<T>, p: Point3i): Result<T>
  {
    ReadCell(kind, g.storage, IndexOf(g, p))
  }

  /** `SetValue(Point3i, value)` and the coordinate indexer setter (Grid3D.cs,
      lines 274-277 and 353-357). */
  function SetAt<T>(kind: CellKind, g: Grid3<T>, p: Point3i, v: T): Result<Grid3<T>>
  {
    var s :- WriteCell(kind, g.storage, IndexOf(g, p), v);
    Ok(g.(storage := s))
  }

  /** In a well-formed grid distinct in-grid coordinates address distinct
      cells, and writing one leaves every other coordinate's value alone. */
  lemma SetAtInGrid<T>(kind: CellKind, g: Grid3<T>, p: Point3i, q: Point3i, v: T)
    requires WellFormed(g) && InGrid(p, g.size) && InGrid(q, g.size)
    ensures SetAt(kind, g, p, v).Ok?
    ensures GetAt(kind, SetAt(kind, g, p, v).value, q) == if p == q then Ok(v) else GetAt(kind, g, q)
  {
    CellOfIndex(g.size, p);
    CellOfIndex(g.size, q);
    assert Uvw(g.size, IndexOf(g, p)) == p && Uvw(g.size, IndexOf(g, q)) == q;
  }

  /** Without a bounds check an out-of-range coordinate addresses another
      cell: in a 2 x 2 x 2 grid, (0, 0, 2) is cell (0, 1, 0). */
  lemma CoordinatesAlias<T>(kind: CellKind, g: Grid3<T>, v: T)
    requires WellFormed(g) && g.size == Point3i(2, 2, 2)
    ensures !InGrid(Point3i(0, 0, 2), g.size)
    ensures GetAt(kind, SetAt(kind, g, Point3i(0, 0, 2), v).value, Point3i(0, 1, 0)) == Ok(v)
  {
    assert g.size.x * g.size.y * g.size.z == 8;
    assert |g.storage.cells| == 8;
    assert g.size.z * g.size.y * 0 + g.size.z * 0 + 2 == 2;
    assert g.size.z * g.size.y * 0 + g.size.z * 1 + 0 == 2;
    assert IndexOf(g, Point3i(0, 0, 2)) == 2 == IndexOf(g, Point3i(0, 1, 0));
    var s := WriteCell(kind, g.storage, 2, v);
    assert s == Ok(Cells(g.storage.cells[2 := v]));
  }

  // ---------------------------------------------------------------- copying

  /** The loop `for i < Count: dst[i] = src[i]` of Clone<T> (Grid3D.cs, lines
      114-117) and ScalarGrid3D.Clone (ScalarGrid3D.cs, lines 77-80): the
      source cell is read before the destination is written. */
  function CopyCells<T>(kind: CellKind, src: Grid3<T>, dst: Grid3<T>, i: nat): Result<Grid3<T>>
    decreases Count(src) - i
  {
    if i >= Count(src) then Ok(dst)
    else
      var v :- ReadCell(kind, src.storage, i);
      var s :- WriteCell(kind, dst.storage, i, v);
      CopyCells(kind, src, dst.(storage := s), i + 1)
  }

  /** When both grids hold `Count` cells the loop copies every cell and
      nothing else. */
  lemma {:induction false} CopyCellsCopies<T>(kind: CellKind, src: Grid3<T>, dst: Grid3<T>, i: nat)
    requires src.storage.Cells? && |src.storage.cells| == Count(src)
    requires dst.storage.Cells? && |dst.storage.cells| == Count(src)
    requires i <= Count(src) && dst.storage.cells[..i] == src.storage.cells[..i]
    ensures CopyCells(kind, src, dst, i) == Ok(dst.(storage := src.storage))
    decreases Count(src) - i
  {
    var c := src.storage.cells;
    if i < Count(src) {
      var d := dst.storage.cells[i := c[i]];
      assert d[..i + 1] == c[..i + 1] by {
        assert dst.storage.cells[..i] == c[..i];
      }
      CopyCellsCopies(kind, src, dst.(storage := Cells(d)), i + 1);
    } else {
      assert dst.storage.cells == dst.storage.cells[..i] && c == c[..i];
    }
  }

  /** `Clone<TGridType>` exactly as written (Grid3D.cs, lines 110-119): the new
      grid comes from a parameterless constructor, so its storage is still
      null when the loop writes the first cell. */
  function CloneAsWritten<T>(kind: CellKind, g: Grid3<T>, fd: FloorDivide): Result<Grid3<T>>
  {
    var vg :- Initialize(Empty<T>(), g.box, g.voxelSize, fd);
    CopyCells(kind, g, vg, 0)
  }

  /** Cloning any grid that has a cell fails: with a null reference, or with
      the error of reading the source's first cell. */
  lemma CloneAsWrittenAlwaysFails<T>(kind: CellKind, g: Grid3<T>, fd: FloorDivide)
    requires Count(g) > 0
    ensures CloneAsWritten(kind, g, fd).Err?
    ensures WellFormed(g) && InitializedBy(g, fd) ==> CloneAsWritten(kind, g, fd) == Err(NullReference)
  {
  }

  /** `Clone<TGridType>` as evidently intended: the new grid gets storage for
      its cells before the copy. */
  function Clone<T>(kind: CellKind, g: Grid3<T>, fd: FloorDivide, zero: T): Result<Grid3<T>>
  {
    var vg :- Initialize(Empty<T>(), g.box, g.voxelSize, fd);
    CopyCells(kind, g, Allocate(vg, zero), 0)
  }

  /** The corrected clone of a well-formed grid has the same box, cell size,
      extent and value at every index. */
  lemma CloneCopiesEveryCell<T>(kind: CellKind, g: Grid3<T>, fd: FloorDivide, zero: T)
    requires WellFormed(g) && InitializedBy(g, fd)
    ensures Clone(kind, g, fd, zero) == Ok(g)
  {
    var vg := Initialize(Empty<T>(), g.box, g.voxelSize, fd).value;
    CopyCellsCopies(kind, g, Allocate(vg, zero), 0);
  }

  // ---------------------------------------------------------------- PointsInBox

  /** `p` comes before `q` in x-outer, z-inner order. */
  predicate Before(p: Point3i, q: Point3i)
  {
    p.x < q.x || (p.x == q.x && (p.y < q.y || (p.y == q.y && p.z < q.z)))
  }

  predicate Sorted(s: seq<Point3i>)
  {
    forall i, j :: 0 <= i < j < |s| ==> Before(s[i], s[j])
  }

  predicate Increasing(s: seq<Int16>)
  {
    forall i, j :: 0 <= i < j < |s| ==> s[i] < s[j]
  }

  /** The integers `lo, lo + 1, ..., hi`. */
  function Between(lo: int, hi: int): (r: seq<Int16>)
    requires lo >= 0 && hi <= INT16_MAX
    ensures forall v :: v in r <==> lo <= v <= hi
    ensures |r| == if lo <= hi then hi - lo + 1 else 0
    ensures Increasing(r)
    decreases hi - lo
  {
    if lo > hi then []
    else
      var rest := Between(lo + 1, hi);
      var r := [lo as Int16] + rest;
      assert forall j :: 1 <= j < |r| ==> r[j] == rest[j - 1] && rest[j - 1] in rest;
      r
  }

  lemma SortedConcat(a: seq<Point3i>, b: seq<Point3i>)
    requires Sorted(a) && Sorted(b)
    requires forall p, q :: p in a && q in b ==> Before(p, q)
    ensures Sorted(a + b)
  {
    forall i, j | 0 <= i < j < |a + b|
      ensures Before((a + b)[i], (a + b)[j])
    {
      if j < |a| {
      } else if i >= |a| {
        assert (a + b)[i] == b[i - |a|] && (a + b)[j] == b[j - |a|];
      } else {
        assert (a + b)[i] in a && (a + b)[j] in b;
      }
    }
  }

  function Row(x: Int16, y: Int16, zs: seq<Int16>): (r: seq<Point3i>)
    requires Increasing(zs)
    ensures forall p :: p in r <==> p.x == x && p.y == y && p.z in zs
    ensures |r| == |zs| && Sorted(r)
  {
    if |zs| == 0 then []
    else
      var rest := Row(x, y, zs[1..]);
      assert forall q :: q in rest ==> Before(Point3i(x, y, zs[0]), q) by {
        forall q | q in rest ensures q.z > zs[0] {
          var k :| 0 <= k < |zs[1..]| && zs[1..][k] == q.z;
        }
      }
      SortedConcat([Point3i(x, y, zs[0])], rest);
      [Point3i(x, y, zs[0])] + rest
  }

  function Layer(x: Int16, ys: seq<Int16>, zs: seq<Int16>): (r: seq<Point3i>)
    requires Increasing(ys) && Increasing(zs)
    ensures forall p :: p in r <==> p.x == x && p.y in ys && p.z in zs
    ensures Sorted(r)
  {
    if |ys| == 0 then []
    else
      var first := Row(x, ys[0], zs);
      var rest := Layer(x, ys[1..], zs);
      assert forall p, q :: p in first && q in rest ==> Before(p, q) by {
        forall p, q | p in first && q in rest ensures q.y > p.y {
          var k :| 0 <= k < |ys[1..]| && ys[1..][k] == q.y;
        }
      }
      SortedConcat(first, rest);
      first + rest
  }

  function Block(xs: seq<Int16>, ys: seq<Int16>, zs: seq<Int16>): (r: seq<Point3i>)
    requires Increasing(xs) && Increasing(ys) && Increasing(zs)
    ensures forall p :: p in r <==> p.x in xs && p.y in ys && p.z in zs
    ensures Sorted(r)
  {
    if |xs| == 0 then []
    else
      var first := Layer(xs[0], ys, zs);
      var rest := Block(xs[1..], ys, zs);
      assert forall p, q :: p in first && q in rest ==> Before(p, q) by {
        forall p, q | p in first && q in rest ensures q.x > p.x {
          var k :| 0 <= k < |xs[1..]| && xs[1..][k] == q.x;
        }
      }
      SortedConcat(first, rest);
      first + rest
  }

  function Max(a: int, b: int): int { if a >= b then a else b }

  function Min(a: int, b: int): int { if a <= b then a else b }

  /** The integer part of `PointsInBox` (Grid3D.cs, lines 184-200): given the
      cells nearest to the inflated box corners, every coordinate from
      `max(lo, 0)` to `min(hi, extent)` inclusive on each axis, x outermost and
      z innermost. */
  function PointsInBox(size: Point3i, lo: Point3i, hi: Point3i): (pts: seq<Point3i>)
    ensures forall p :: p in pts <==>
              && Max(lo.x, 0) <= p.x <= Min(hi.x, size.x)
              && Max(lo.y, 0) <= p.y <= Min(hi.y, size.y)
              && Max(lo.z, 0) <= p.z <= Min(hi.z, size.z)
    ensures Sorted(pts)
  {
    Block(Between(Max(lo.x, 0), Min(hi.x, size.x)), Between(Max(lo.y, 0), Min(hi.y, size.y)),
          Between(Max(lo.z, 0), Min(hi.z, size.z)))
  }

  /** The upper bounds are inclusive, so the listed points can lie one past
      the grid. */
  lemma PointsInBoxReachesExtent()
    ensures var pts := PointsInBox(Point3i(1, 1, 1), Origin, Point3i(5, 5, 5));
            Point3i(1, 1, 1) in pts && !InGrid(Point3i(1, 1, 1), Point3i(1, 1, 1))
  {
  }
}

=== FILE: limiter.dfy ===
/** The obsolete voxel-count limiter (`VoxelGridLimiterObsolete`,
VoxelGridLimiterObsolete.cs): a clone of the grid is brought to a requested
number of set cells, by clearing cells from the top down when it has too many,
or by stacking cells on its highest occupied layer and then filling from the
bottom up when it has too few.
 */
module Limiter {
  import opened Wrappers
  import opened Numerics
  import opened Geometry
  import opened Point3i
  import opened Grid3D
  import opened BitGrid3D
  import opened ScanOrder
  import VoxelGrid3D

  // ---------------------------------------------------------------- cells by coordinates

  /** Whether the cell at the in-grid point `p` is set. */
  predicate Cell(g: BitGrid, p: Point3i)
    requires WellFormed(g) && InGrid(p, g.size)
  {
    IndexInRange(g.size, p);
    g.storage.cells[PointUvwToIndex(g.size, p)]
  }

  /** The coordinate getter and setter on an in-grid point read and write its
      cell. */
  lemma CellAccess(g: BitGrid, p: Point3i, v: bool)
    requires WellFormed(g) && InGrid(p, g.size)
    ensures 0 <= PointUvwToIndex(g.size, p) < Count(g)
    ensures Uvw(g.size, PointUvwToIndex(g.size, p)) == p
    ensures GetAt(BitCells, g, p) == Ok(g.storage.cells[PointUvwToIndex(g.size, p)])
    ensures SetAt(BitCells, g, p, v) ==
              Ok(g.(storage := Cells(g.storage.cells[PointUvwToIndex(g.size, p) := v])))
  {
    CellOfIndex(g.size, p);
  }

  /** The grid with the cell at the in-grid point `p` set to `v`. */
  function Put(g: BitGrid, p: Point3i, v: bool): (h: BitGrid)
    requires WellFormed(g) && InGrid(p, g.size)
    ensures WellFormed(h) && SameShape(h, g)
  {
    IndexInRange(g.size, p);
    g.(storage := Cells(g.storage.cells[PointUvwToIndex(g.size, p) := v]))
  }

  /** Writing one cell changes that cell alone, and the count by at most
      one. */
  lemma PutChangesOneCell(g: BitGrid, p: Point3i, v: bool)
    requires WellFormed(g) && InGrid(p, g.size)
    ensures WellFormed(Put(g, p, v)) && SameShape(Put(g, p, v), g) && Cell(Put(g, p, v), p) == v
    ensures forall k :: 0 <= k < Count(g) ==>
              Put(g, p, v).storage.cells[k] == if k == PointUvwToIndex(g.size, p) then v else g.storage.cells[k]
    ensures CountNonZero(Put(g, p, v)) ==
              CountNonZero(g) - (if Cell(g, p) then 1 else 0) + (if v then 1 else 0)
    ensures Cell(g, p) == v ==> Put(g, p, v) == g
  {
    CellOfIndex(g.size, p);
    CountTrueUpdate(g.storage.cells, PointUvwToIndex(g.size, p), v);
  }

  /** Every point of a scan lies in the grid. */
  predicate Inside(size: Point3i, order: seq<Point3i>)
  {
    forall s :: 0 <= s < |order| ==> InGrid(order[s], size)
  }

  predicate SameShape(h: BitGrid, g: BitGrid)
  {
    h.box == g.box && h.voxelSize == g.voxelSize && h.size == g.size
  }

  /** `h` is `g` with some set cells cleared. */
  predicate Shrunk(h: BitGrid, g: BitGrid)
  {
    && WellFormed(h) && WellFormed(g) && SameShape(h, g)
    && forall k :: 0 <= k < Count(g) && h.storage.cells[k] ==> g.storage.cells[k]
  }

  /** `h` is `g` with some clear cells set. */
  predicate Grown(h: BitGrid, g: BitGrid)
  {
    && WellFormed(h) && WellFormed(g) && SameShape(h, g)
    && forall k :: 0 <= k < Count(g) && g.storage.cells[k] ==> h.storage.cells[k]
  }

  /** A scan from position `t` that stopped before position `T`: the cells it
      passed hold `v` in `r`, and every cell where `r` differs from `g` is one
      it passed. */
  predicate Swept(g: BitGrid, r: BitGrid, order: seq<Point3i>, t: nat, T: nat, v: bool)
    requires WellFormed(g) && WellFormed(r) && SameShape(r, g) && Inside(g.size, order)
  {
    && t <= T <= |order|
    && (forall s :: t <= s < T ==> Cell(r, order[s]) == v)
    && (forall k :: 0 <= k < Count(g) && r.storage.cells[k] != g.storage.cells[k] ==>
          exists s :: t <= s < T && PointUvwToIndex(g.size, order[s]) == k)
  }

  /** A sweep from `t + 1` after writing `v` at `order[t]` is a sweep from
      `t`. */
  lemma SweptExtends(g: BitGrid, r: BitGrid, order: seq<Point3i>, t: nat, T: nat, v: bool)
    requires WellFormed(g) && WellFormed(r) && SameShape(r, g) && Inside(g.size, order) && t < |order|
    requires Swept(Put(g, order[t], v), r, order, t + 1, T, v) && Cell(r, order[t]) == v
    ensures Swept(g, r, order, t, T, v)
  {
    PutChangesOneCell(g, order[t], v);
  }

  /** A scan that visits every point of the grid. */
  ghost predicate Covers(size: Point3i, order: seq<Point3i>)
  {
    forall p :: InGrid(p, size) ==> p in order
  }

  /** After a covering sweep from the start that stopped before `T`, a cell
      not holding `v` is visited at or after `T`. */
  lemma Unswept(g: BitGrid, r: BitGrid, order: seq<Point3i>, T: nat, v: bool, b: nat)
    requires WellFormed(g) && WellFormed(r) && SameShape(r, g) && Inside(g.size, order)
    requires Covers(g.size, order) && Swept(g, r, order, 0, T, v) && b < Count(g)
    ensures r.storage.cells[b] != v ==> exists sb :: T <= sb < |order| && order[sb] == Uvw(g.size, b)
  {
    IndexOfCell(g.size, b);
    var sb :| 0 <= sb < |order| && order[sb] == Uvw(g.size, b);
    if sb < T {
      assert Cell(r, order[sb]) == v;
    }
  }

  /** After a covering sweep from the start, a changed cell comes before every
      cell not holding `v`. */
  lemma SweptBefore(g: BitGrid, r: BitGrid, order: seq<Point3i>, T: nat, v: bool, a: nat, b: nat)
    requires WellFormed(g) && WellFormed(r) && SameShape(r, g) && Inside(g.size, order)
    requires Covers(g.size, order) && Swept(g, r, order, 0, T, v) && a < Count(g) && b < Count(g)
    ensures r.storage.cells[a] != g.storage.cells[a] && r.storage.cells[b] != v ==>
              exists sa, sb :: 0 <= sa < sb < |order| && order[sa] == Uvw(g.size, a) && order[sb] == Uvw(g.size, b)
  {
    Unswept(g, r, order, T, v, b);
    if r.storage.cells[a] != g.storage.cells[a] && r.storage.cells[b] != v {
      var sa :| 0 <= sa < T && PointUvwToIndex(g.size, order[sa]) == a;
      var sb :| T <= sb < |order| && order[sb] == Uvw(g.size, b);
      CellOfIndex(g.size, order[sa]);
    }
  }

  lemma {:induction false} CountTrueNone(s: seq<bool>)
    requires forall k :: 0 <= k < |s| ==> !s[k]
    ensures CountTrue(s) == 0
    decreases |s|
  {
    if |s| > 0 {
      CountTrueNone(s[..|s| - 1]);
    }
  }

  lemma {:induction false} CountTrueAll(s: seq<bool>)
    requires forall k :: 0 <= k < |s| ==> s[k]
    ensures CountTrue(s) == |s|
    decreases |s|
  {
    if |s| > 0 {
      CountTrueAll(s[..|s| - 1]);
    }
  }

  function Min(a: int, b: int): int
  {
    if a < b then a else b
  }

  function Max(a: int, b: int): int
  {
    if a < b then b else a
  }

  // ---------------------------------------------------------------- LimitGrid

  /** The loops of `LimitGrid` (VoxelGridLimiterObsolete.cs, lines 163-185)
      from position `t` of the scan: a set cell is cleared and counted off,
      and after every cell the scan returns once the count equals the
      limit. */
  function LimitScan(g: BitGrid, order: seq<Point3i>, t: nat, trueCount: int, limit: int): Result<BitGrid>
    decreases |order| - t
  {
    if t >= |order| then Ok(g)
    else
      var v :- GetAt(BitCells, g, order[t]);
      var g' :- if v then SetAt(BitCells, g, order[t], false) else Ok(g);
      var c := if v then trueCount - 1 else trueCount;
      if c == limit then Ok(g') else LimitScan(g', order, t + 1, c, limit)
  }

  /** `LimitGrid`: z from the top layer down, then y and x upward. */
  function LimitGrid(vg: BitGrid, limit: int): Result<BitGrid>
  {
    LimitScan(vg, TopDown(vg.size, Iterations(vg.size.z)), 0, CountNonZero(vg), limit)
  }

  /** One step of `LimitScan`: the cell is cleared, whether or not it was
      set. */
  lemma LimitStep(g: BitGrid, order: seq<Point3i>, t: nat, c: int, limit: int)
    requires WellFormed(g) && t < |order| && Inside(g.size, order)
    ensures var g' := Put(g, order[t], false);
            var c' := if Cell(g, order[t]) then c - 1 else c;
            LimitScan(g, order, t, c, limit) == if c' == limit then Ok(g') else LimitScan(g', order, t + 1, c', limit)
  {
    CellAccess(g, order[t], false);
    PutChangesOneCell(g, order[t], false);
  }

  lemma {:induction false} LimitScanClears(g: BitGrid, order: seq<Point3i>, t: nat, c: int, limit: int)
    requires WellFormed(g) && t <= |order| && Inside(g.size, order) && c == CountNonZero(g)
    ensures LimitScan(g, order, t, c, limit).Ok?
    ensures var r := LimitScan(g, order, t, c, limit).value;
            && Shrunk(r, g)
            && (c > limit ==> CountNonZero(r) >= limit)
            && exists T :: Swept(g, r, order, t, T, false) && (CountNonZero(r) == limit || T == |order|)
    decreases |order| - t
  {
    if t < |order| {
      var p := order[t];
      LimitStep(g, order, t, c, limit);
      PutChangesOneCell(g, p, false);
      var g' := Put(g, p, false);
      var c' := if Cell(g, p) then c - 1 else c;
      if c' == limit {
        assert Swept(g', g', order, t + 1, t + 1, false);
        SweptExtends(g, g', order, t, t + 1, false);
      } else {
        LimitScanClears(g', order, t + 1, c', limit);
        var r := LimitScan(g', order, t + 1, c', limit).value;
        var T :| Swept(g', r, order, t + 1, T, false) && (CountNonZero(r) == limit || T == |order|);
        CellOfIndex(g.size, p);
        SweptExtends(g, r, order, t, T, false);
      }
    } else {
      assert Swept(g, g, order, t, t, false);
    }
  }

  /** When the grid holds more set cells than the limit, `LimitGrid` only
      clears set cells and leaves exactly `limit` of them (none for a
      negative limit); every cleared cell lies on a layer at least as high as
      every cell it keeps. */
  lemma LimitGridLeavesLimit(vg: BitGrid, limit: int)
    requires WellFormed(vg) && CountNonZero(vg) > limit
    ensures LimitGrid(vg, limit).Ok?
    ensures var r := LimitGrid(vg, limit).value;
            && Shrunk(r, vg) && CountNonZero(r) == Max(limit, 0)
            && forall a, b | 0 <= a < Count(vg) && 0 <= b < Count(vg) ::
                 vg.storage.cells[a] && !r.storage.cells[a] && r.storage.cells[b] ==> Uvw(vg.size, a).z >= Uvw(vg.size, b).z
  {
    var order := TopDown(vg.size, Iterations(vg.size.z));
    LimitScanClears(vg, order, 0, CountNonZero(vg), limit);
    var r := LimitGrid(vg, limit).value;
    var T :| Swept(vg, r, order, 0, T, false) && (CountNonZero(r) == limit || T == |order|);
    if T == |order| {
      forall k | 0 <= k < Count(vg)
        ensures !r.storage.cells[k]
      {
        Unswept(vg, r, order, T, false, k);
      }
      CountTrueNone(r.storage.cells);
    }
    forall a, b | 0 <= a < Count(vg) && 0 <= b < Count(vg) &&
                  (vg.storage.cells[a] && !r.storage.cells[a] && r.storage.cells[b])
      ensures Uvw(vg.size, a).z >= Uvw(vg.size, b).z
    {
      SweptBefore(vg, r, order, T, false, a, b);
    }
  }

  // ---------------------------------------------------------------- IncreaseGridFromBottom

  /** The loops of `IncreaseGridFromBottom` (VoxelGridLimiterObsolete.cs,
      lines 139-161) from position `t`: a clear cell is set and counted, and
      the scan returns as soon as the count reaches the target. */
  function FillScan(g: BitGrid, order: seq<Point3i>, t: nat, trueCount: int, count: int): Result<BitGrid>
    decreases |order| - t
  {
    if t >= |order| then Ok(g)
    else
      var v :- GetAt(BitCells, g, order[t]);
      if v then FillScan(g, order, t + 1, trueCount, count)
      else
        var g' :- SetAt(BitCells, g, order[t], true);
        if trueCount + 1 == count then Ok(g') else FillScan(g', order, t + 1, trueCount + 1, count)
  }

  /** `IncreaseGridFromBottom`: z from the bottom layer up, then y and x
      upward. */
  function IncreaseGridFromBottom(vg: BitGrid, count: int): Result<BitGrid>
  {
    FillScan(vg, BottomUp(vg.size, Iterations(vg.size.z)), 0, CountNonZero(vg), count)
  }

  /** One step of `FillScan`: a set cell is passed over, a clear one is set
      and counted. */
  lemma FillStep(g: BitGrid, order: seq<Point3i>, t: nat, c: int, count: int)
    requires WellFormed(g) && t < |order| && Inside(g.size, order)
    ensures FillScan(g, order, t, c, count) ==
              if Cell(g, order[t]) then FillScan(g, order, t + 1, c, count)
              else if c + 1 == count then Ok(Put(g, order[t], true))
              else FillScan(Put(g, order[t], true), order, t + 1, c + 1, count)
  {
    CellAccess(g, order[t], true);
  }

  /** What the fill scan from position `t` promises about its result `r`:
      it only sets cells; below the target it stops at the target; and it is
      a sweep that either ran to the end or stopped on reaching the
      target. */
  ghost predicate Filled(g: BitGrid, order: seq<Point3i>, t: nat, c: int, count: int, r: Result<BitGrid>)
    requires WellFormed(g) && Inside(g.size, order)
  {
    && r.Ok? && Grown(r.value, g)
    && (c < count ==> CountNonZero(r.value) <= count)
    && exists T :: Swept(g, r.value, order, t, T, true) && (T == |order| || (c < count && CountNonZero(r.value) == count))
  }

  /** At the end of the scan the grid is returned as it is. */
  lemma FillDone(g: BitGrid, order: seq<Point3i>, c: int, count: int)
    requires WellFormed(g) && Inside(g.size, order) && c == CountNonZero(g)
    ensures Filled(g, order, |order|, c, count, Ok(g))
  {
    assert Swept(g, g, order, |order|, |order|, true);
  }

  /** Setting the clear cell that reaches the target ends the scan. */
  lemma FillStops(g: BitGrid, order: seq<Point3i>, t: nat, c: int, count: int)
    requires WellFormed(g) && t < |order| && Inside(g.size, order) && c == CountNonZero(g)
    requires !Cell(g, order[t]) && c + 1 == count
    ensures Filled(g, order, t, c, count, Ok(Put(g, order[t], true)))
  {
    var g' := Put(g, order[t], true);
    PutChangesOneCell(g, order[t], true);
    assert Swept(g', g', order, t + 1, t + 1, true);
    SweptExtends(g, g', order, t, t + 1, true);
  }

  /** A scan from `t + 1` after passing or setting the cell at `t` is a scan
      from `t`. */
  lemma FillContinues(g: BitGrid, order: seq<Point3i>, t: nat, c: int, count: int, r: Result<BitGrid>)
    requires WellFormed(g) && t < |order| && Inside(g.size, order) && c == CountNonZero(g)
    requires Cell(g, order[t]) || c + 1 != count
    requires var g', c' := Put(g, order[t], true), if Cell(g, order[t]) then c else c + 1;
             Filled(g', order, t + 1, c', count, r)
    ensures Filled(g, order, t, c, count, r)
  {
    var p := order[t];
    PutChangesOneCell(g, p, true);
    var g' := Put(g, p, true);
    var c' := if Cell(g, p) then c else c + 1;
    var T :| Swept(g', r.value, order, t + 1, T, true) && (T == |order| || (c' < count && CountNonZero(r.value) == count));
    CellOfIndex(g.size, p);
    SweptExtends(g, r.value, order, t, T, true);
  }

  lemma {:induction false} FillScanFills(g: BitGrid, order: seq<Point3i>, t: nat, c: int, count: int)
    requires WellFormed(g) && t <= |order| && Inside(g.size, order) && c == CountNonZero(g)
    ensures Filled(g, order, t, c, count, FillScan(g, order, t, c, count))
    decreases |order| - t
  {
    if t < |order| {
      var p := order[t];
      FillStep(g, order, t, c, count);
      PutChangesOneCell(g, p, true);
      hide FillScan, Filled, Put, CountNonZero;
      var g' := Put(g, p, true);
      var c' := if Cell(g, p) then c else c + 1;
      if !Cell(g, p) && c' == count {
        FillStops(g, order, t, c, count);
      } else {
        FillScanFills(g', order, t + 1, c', count);
        FillContinues(g, order, t, c, count, FillScan(g', order, t + 1, c', count));
      }
    } else {
      FillDone(g, order, c, count);
    }
  }

  lemma FillScanSets(g: BitGrid, order: seq<Point3i>, t: nat, c: int, count: int)
    requires WellFormed(g) && t <= |order| && Inside(g.size, order) && c == CountNonZero(g)
    ensures FillScan(g, order, t, c, count).Ok?
    ensures var r := FillScan(g, order, t, c, count).value;
            && Grown(r, g)
            && (c < count ==> CountNonZero(r) <= count)
            && exists T :: Swept(g, r, order, t, T, true) && (T == |order| || (c < count && CountNonZero(r) == count))
  {
    FillScanFills(g, order, t, c, count);
  }

  /** `IncreaseGridFromBottom` only sets clear cells. Below the target it
      stops on reaching it, or sets every cell when the grid is too small;
      from the target or above it never stops and sets every cell. Every cell
      it sets lies on a layer no higher than any cell it leaves clear. */
  lemma FromBottomFills(vg: BitGrid, count: int)
    requires WellFormed(vg)
    ensures IncreaseGridFromBottom(vg, count).Ok?
    ensures var r := IncreaseGridFromBottom(vg, count).value;
            && Grown(r, vg)
            && (CountNonZero(vg) < count ==> CountNonZero(r) == Min(count, Count(vg)))
            && (CountNonZero(vg) >= count ==> forall k :: 0 <= k < Count(vg) ==> r.storage.cells[k])
            && forall a, b | 0 <= a < Count(vg) && 0 <= b < Count(vg) ::
                 !vg.storage.cells[a] && r.storage.cells[a] && !r.storage.cells[b] ==> Uvw(vg.size, a).z <= Uvw(vg.size, b).z
  {
    var order := BottomUp(vg.size, Iterations(vg.size.z));
    FillScanSets(vg, order, 0, CountNonZero(vg), count);
    var r := IncreaseGridFromBottom(vg, count).value;
    var T :| Swept(vg, r, order, 0, T, true) && (T == |order| || (CountNonZero(vg) < count && CountNonZero(r) == count));
    if T == |order| {
      forall k | 0 <= k < Count(vg)
        ensures r.storage.cells[k]
      {
        Unswept(vg, r, order, T, true, k);
      }
      CountTrueAll(r.storage.cells);
    }
    forall a, b | 0 <= a < Count(vg) && 0 <= b < Count(vg) &&
                  (!vg.storage.cells[a] && r.storage.cells[a] && !r.storage.cells[b])
      ensures Uvw(vg.size, a).z <= Uvw(vg.size, b).z
    {
      SweptBefore(vg, r, order, T, true, a, b);
    }
  }

  // ---------------------------------------------------------------- IncreaseGrid

  /** The indices of the set cells among the points `ps`, in scan order (the
      two inner loops of lines 86-95). */
  function Occupants(g: BitGrid, ps: seq<Point3i>): Result<seq<Int32>>
  {
    if |ps| == 0 then Ok([])
    else
      var v :- GetAt(BitCells, g, ps[0]);
      var rest :- Occupants(g, ps[1..]);
      Ok(if v then [PointUvwToIndex(g.size, ps[0])] + rest else rest)
  }

  /** The loop over the layers `n - 1` down to `0` (lines 79-96): the set
      cells of the first layer that has any, after which `foundRoof` stops
      the loop. */
  function RoofLocations(g: BitGrid, n: nat): Result<seq<Int32>>
    requires n <= Iterations(g.size.z)
  {
    if n == 0 then Ok([])
    else
      var found :- Occupants(g, ScanOrder.Layer(g.size, n - 1, Iterations(g.size.y)));
      if |found| > 0 then Ok(found) else RoofLocations(g, n - 1)
  }

  /** The `makeheight` of each location (lines 107-114): `height`, plus one
      while `rest`, counted down, is positive. */
  function Heights(n: nat, height: int, rest: int): (hs: seq<int>)
    ensures |hs| == n
  {
    if n == 0 then []
    else [if rest > 0 then height + 1 else height] + Heights(n - 1, height, if rest > 0 then rest - 1 else rest)
  }

  function Sum(s: seq<int>): int
  {
    if |s| == 0 then 0 else s[0] + Sum(s[1..])
  }

  /** The loop over `j` for one location (lines 116-121): each pass builds
      the point `j` cells above the location with the checked constructor and
      `+`, and writes it through the coordinate setter, which does no bounds
      check. `IndexToPointUvw` of the location is pure and the size never
      changes, so `base` is its result, the same on every pass.

      With `clip` false this is the code as written: a point above the top
      layer has the index of a cell at the bottom of the next column, and
      that cell is set. With `clip` true such a point is dropped, as the
      fallback's comment ("reaches to the roof") intends. */
  function StackColumn(g: BitGrid, base: Result<Point3i>, j: int, makeheight: int, clip: bool): Result<BitGrid>
    decreases Iterations(makeheight - j + 1)
  {
    if j > makeheight then Ok(g)
    else
      var pt :- FromInts(0, 0, j);
      var b :- base;
      var position :- Add(b, pt);
      var g' :- if clip && !InGrid(position, g.size) then Ok(g) else SetAt(BitCells, g, position, true);
      StackColumn(g', base, j + 1, makeheight, clip)
  }

  /** The loop over the locations (lines 107-122), each with its height. */
  function Stack(g: BitGrid, locs: seq<Int32>, heights: seq<int>, clip: bool): Result<BitGrid>
    decreases |locs|
  {
    if |locs| == 0 || |heights| == 0 then Ok(g)
    else
      var g' :- StackColumn(g, IndexToPointUvw(g.size, locs[0]), 1, heights[0], clip);
      Stack(g', locs[1..], heights[1..], clip)
  }

  /** `IncreaseGrid` (lines 74-132). `Math.Floor((double)difference / n)` is
      the exact floor quotient for 32-bit operands; with no location it is an
      infinity or NaN, which `Convert.ToInt32` rejects with an overflow. The
      remainder is C#'s truncating `%`. `clip` selects the stacking (see
      `StackColumn`): false is the code as written, true the corrected one. */
  function IncreaseGrid(vg: BitGrid, count: Int32, clip: bool): Result<BitGrid>
  {
    var locs :- RoofLocations(vg, Iterations(vg.size.z));
    Distribute(vg, locs, count, clip)
  }

  /** Lines 98-131, once the locations are known. */
  function Distribute(vg: BitGrid, locs: seq<Int32>, count: Int32, clip: bool): Result<BitGrid>
  {
    var trueCount := CountNonZero(vg);
    var difference := Wrap32(count - trueCount);
    if |locs| == 0 then Err(Overflow)
    else
      var g :- Share(vg, locs, difference, clip);
      TopUp(g, count)
  }

  /** Lines 103-122: each location gets `height` cells stacked above it and
      the first `rest` one more. */
  function Share(vg: BitGrid, locs: seq<Int32>, difference: int, clip: bool): Result<BitGrid>
    requires |locs| > 0
  {
    var height := difference / |locs|;
    var rest := TRem(difference, |locs|);
    Stack(vg, locs, Heights(|locs|, height, rest), clip)
  }

  /** The fallback of lines 124-131: when the stacks miss the count, the grid
      is filled from the bottom. */
  function TopUp(g: BitGrid, count: Int32): Result<BitGrid>
  {
    if CountNonZero(g) != count then IncreaseGridFromBottom(g, count) else Ok(g)
  }

  /** `SolveInstance` (lines 52-72): the grid is cloned, then limited when it
      has more set cells than requested and increased when it has fewer. The
      stacking is the one the component runs, which can set a cell past the
      roof of a column (see `StackPastRoofWraps`). */
  function Solve(vg: BitGrid, fd: FloorDivide, limit: Int32): Result<BitGrid>
  {
    SolveWith(vg, fd, limit, false)
  }

  /** `SolveInstance` with the corrected stacking, which drops the points
      above the top layer. */
  function SolveCorrected(vg: BitGrid, fd: FloorDivide, limit: Int32): Result<BitGrid>
  {
    SolveWith(vg, fd, limit, true)
  }

  function SolveWith(vg: BitGrid, fd: FloorDivide, limit: Int32, clip: bool): Result<BitGrid>
  {
    var g :- VoxelGrid3D.Clone(vg, fd);
    if CountNonZero(g) > limit then LimitGrid(g, limit)
    else if CountNonZero(g) < limit then IncreaseGrid(g, limit, clip)
    else Ok(g)
  }

  // ---------------------------------------------------------------- IncreaseGrid proofs

  lemma {:induction false} OccupantsAreSetCells(g: BitGrid, ps: seq<Point3i>)
    requires WellFormed(g) && Inside(g.size, ps)
    ensures Occupants(g, ps).Ok?
    ensures forall k :: k in Occupants(g, ps).value <==>
              exists p :: p in ps && InGrid(p, g.size) && Cell(g, p) && k == PointUvwToIndex(g.size, p)
    decreases |ps|
  {
    if |ps| > 0 {
      CellAccess(g, ps[0], true);
      OccupantsAreSetCells(g, ps[1..]);
      forall k
        ensures k in Occupants(g, ps).value <==>
                  exists p :: p in ps && InGrid(p, g.size) && Cell(g, p) && k == PointUvwToIndex(g.size, p)
      {
        if exists p :: p in ps && InGrid(p, g.size) && Cell(g, p) && k == PointUvwToIndex(g.size, p) {
          var p :| p in ps && InGrid(p, g.size) && Cell(g, p) && k == PointUvwToIndex(g.size, p);
          if p != ps[0] {
            assert p in ps[1..];
          }
        }
      }
    }
  }

  /** The occupants of layer `z` are its set cells. */
  lemma LayerOccupants(g: BitGrid, z: nat)
    requires WellFormed(g) && z < g.size.z
    ensures Occupants(g, ScanOrder.Layer(g.size, z, Iterations(g.size.y))).Ok?
    ensures forall k :: k in Occupants(g, ScanOrder.Layer(g.size, z, Iterations(g.size.y))).value <==>
              SetInLayer(g, k, z)
  {
    var layer := ScanOrder.Layer(g.size, z, Iterations(g.size.y));
    OccupantsAreSetCells(g, layer);
    forall k
      ensures k in Occupants(g, layer).value <==> SetInLayer(g, k, z)
    {
      if SetInLayer(g, k, z) {
        IndexOfCell(g.size, k);
        assert Uvw(g.size, k) in layer;
      }
      if exists p :: p in layer && InGrid(p, g.size) && Cell(g, p) && k == PointUvwToIndex(g.size, p) {
        var p :| p in layer && InGrid(p, g.size) && Cell(g, p) && k == PointUvwToIndex(g.size, p);
        CellOfIndex(g.size, p);
      }
    }
  }

  /** Cell `k` is set and lies in layer `z`. */
  predicate SetInLayer(g: BitGrid, k: int, z: int)
    requires WellFormed(g)
  {
    0 <= k < Count(g) && g.storage.cells[k] && Uvw(g.size, k).z == z
  }

  /** Cell `k` is set, below layer `n`, and no set cell below layer `n` lies
      higher. */
  predicate Highest(g: BitGrid, k: int, n: int)
    requires WellFormed(g)
  {
    && 0 <= k < Count(g) && g.storage.cells[k] && Uvw(g.size, k).z < n
    && forall j :: 0 <= j < Count(g) && g.storage.cells[j] && Uvw(g.size, j).z < n ==> Uvw(g.size, j).z <= Uvw(g.size, k).z
  }

  /** Some set cell lies below layer `n`. */
  predicate AnySetBelow(g: BitGrid, n: int)
    requires WellFormed(g)
  {
    exists j :: 0 <= j < Count(g) && g.storage.cells[j] && Uvw(g.size, j).z < n
  }

  /** When layer `n - 1` holds set cell `k0`, the highest set cells below `n`
      are that layer's. */
  lemma OccupiedLayerIsHighest(g: BitGrid, n: int, k0: int)
    requires WellFormed(g) && SetInLayer(g, k0, n - 1)
    ensures forall k :: SetInLayer(g, k, n - 1) <==> Highest(g, k, n)
    ensures AnySetBelow(g, n)
  {
    forall k
      ensures SetInLayer(g, k, n - 1) <==> Highest(g, k, n)
    {
      if Highest(g, k, n) {
        assert Uvw(g.size, k0).z <= Uvw(g.size, k).z;
      }
    }
  }

  /** When layer `n - 1` holds no set cell, looking below `n` is looking below
      `n - 1`. */
  lemma EmptyLayerIsSkipped(g: BitGrid, n: int)
    requires WellFormed(g)
    requires forall k | 0 <= k < Count(g) && g.storage.cells[k] :: Uvw(g.size, k).z != n - 1
    ensures forall k :: Highest(g, k, n) <==> Highest(g, k, n - 1)
    ensures AnySetBelow(g, n) <==> AnySetBelow(g, n - 1)
  {
  }

  /** The locations `r` are exactly the set cells of the highest occupied
      layer below `n`, and there are some exactly when a set cell lies below
      `n`. */
  ghost predicate HighestLocations(g: BitGrid, n: int, r: Result<seq<Int32>>)
    requires WellFormed(g)
  {
    && r.Ok?
    && (forall k :: k in r.value <==> Highest(g, k, n))
    && (|r.value| > 0 <==> AnySetBelow(g, n))
  }

  /** The occupants of layer `n - 1` when it has set cells. */
  lemma OccupiedLayerLocations(g: BitGrid, n: nat, found: seq<Int32>)
    requires WellFormed(g) && 0 < n <= Iterations(g.size.z)
    requires Occupants(g, ScanOrder.Layer(g.size, n - 1, Iterations(g.size.y))) == Ok(found)
    requires |found| > 0
    ensures HighestLocations(g, n, Ok(found))
  {
    hide Occupants, ScanOrder.Layer, Uvw, Highest, AnySetBelow;
    LayerOccupants(g, n - 1);
    assert found[0] in found;
    OccupiedLayerIsHighest(g, n, found[0]);
  }

  /** The locations below `n - 1` when layer `n - 1` has no set cell. */
  lemma EmptyLayerLocations(g: BitGrid, n: nat, r: Result<seq<Int32>>)
    requires WellFormed(g) && 0 < n <= Iterations(g.size.z)
    requires Occupants(g, ScanOrder.Layer(g.size, n - 1, Iterations(g.size.y))) == Ok([])
    requires HighestLocations(g, n - 1, r)
    ensures HighestLocations(g, n, r)
  {
    hide Occupants, ScanOrder.Layer, Uvw, Highest, AnySetBelow;
    LayerOccupants(g, n - 1);
    forall k | 0 <= k < Count(g) && g.storage.cells[k]
      ensures Uvw(g.size, k).z != n - 1
    {
      assert !SetInLayer(g, k, n - 1);
    }
    EmptyLayerIsSkipped(g, n);
  }

  /** Below layer 0 there is nothing. */
  lemma NothingBelowBottom(g: BitGrid)
    requires WellFormed(g)
    ensures HighestLocations(g, 0, Ok([]))
  {
    assert forall k :: !Highest(g, k, 0);
  }

  lemma {:induction false} RoofLocationsMeetHighest(g: BitGrid, n: nat)
    requires WellFormed(g) && n <= Iterations(g.size.z)
    ensures HighestLocations(g, n, RoofLocations(g, n))
  {
    hide Occupants, ScanOrder.Layer, Uvw, Highest, AnySetBelow, HighestLocations;
    if n > 0 {
      LayerOccupants(g, n - 1);
      var found := Occupants(g, ScanOrder.Layer(g.size, n - 1, Iterations(g.size.y))).value;
      if |found| > 0 {
        assert RoofLocations(g, n) == Ok(found);
        OccupiedLayerLocations(g, n, found);
      } else {
        assert RoofLocations(g, n) == RoofLocations(g, n - 1);
        RoofLocationsMeetHighest(g, n - 1);
        EmptyLayerLocations(g, n, RoofLocations(g, n - 1));
      }
    } else {
      assert RoofLocations(g, n) == Ok([]);
      NothingBelowBottom(g);
    }
  }

  /** The locations are exactly the set cells of the highest occupied layer
      below `n`, and there are some exactly when a set cell lies below `n`. */
  lemma RoofLocationsAreHighest(g: BitGrid, n: nat)
    requires WellFormed(g) && n <= Iterations(g.size.z)
    ensures RoofLocations(g, n).Ok?
    ensures forall k :: k in RoofLocations(g, n).value <==> Highest(g, k, n)
    ensures |RoofLocations(g, n).value| > 0 <==> AnySetBelow(g, n)
  {
    RoofLocationsMeetHighest(g, n);
  }

  /** A grid has set cells exactly when its count is positive. */
  lemma CountNonZeroPositive(g: BitGrid)
    requires WellFormed(g)
    ensures CountNonZero(g) <= Count(g)
    ensures CountNonZero(g) > 0 <==> exists k :: 0 <= k < Count(g) && g.storage.cells[k]
  {
    var t := TrueIndices(g.storage.cells);
    if exists k :: 0 <= k < Count(g) && g.storage.cells[k] {
      var k :| 0 <= k < Count(g) && g.storage.cells[k];
      assert k in t;
    } else {
      assert t == {};
    }
  }

  /** The `rest` locations first in line get one cell more than the others,
      and the heights add up to `n * height + rest`. */
  lemma {:induction false} HeightsShareOut(n: nat, height: int, rest: int)
    requires 0 <= rest
    ensures forall s :: 0 <= s < n ==> Heights(n, height, rest)[s] == height + (if s < rest then 1 else 0)
    ensures rest <= n ==> Sum(Heights(n, height, rest)) == n * height + rest
  {
    if n > 0 {
      var rest' := if rest > 0 then rest - 1 else rest;
      HeightsShareOut(n - 1, height, rest');
      var hs := Heights(n, height, rest);
      assert hs[1..] == Heights(n - 1, height, rest');
      forall s | 0 <= s < n
        ensures hs[s] == height + (if s < rest then 1 else 0)
      {
        if s > 0 {
          assert hs[s] == hs[1..][s - 1];
        }
      }
      assert n * height == (n - 1) * height + height;
    }
  }

  /** For a positive difference the heights `difference / n` and the
      remainder add up to the difference, so the stacking adds at most that
      many cells. */
  lemma HeightsSumToDifference(difference: nat, n: nat)
    requires n > 0
    ensures var hs := Heights(n, difference / n, TRem(difference, n));
            && Sum(hs) == difference
            && forall s :: 0 <= s < n ==> (0 <= hs[s] <= difference && hs[s] == difference / n + (if s < difference % n then 1 else 0))
  {
    HeightsShareOut(n, difference / n, difference % n);
    MulAtLeast(n, difference / n);
  }

  lemma MulAtLeast(n: nat, h: nat)
    requires n > 0
    ensures n * h >= h
  {
    assert n * h == (n - 1) * h + h;
  }

  lemma GrownTrans(a: BitGrid, b: BitGrid, c: BitGrid)
    requires Grown(a, b) && Grown(b, c)
    ensures Grown(a, c)
  {
  }

  /** The coordinate setter writing `true` at index `i`: outside the cells
      the write is dropped. */
  function Lift(g: BitGrid, i: int): BitGrid
  {
    if g.storage.Cells? && 0 <= i < |g.storage.cells| then g.(storage := Cells(g.storage.cells[i := true])) else g
  }

  /** Setting a cell grows the grid by at most one cell. */
  lemma LiftGrows(g: BitGrid, i: int)
    requires WellFormed(g)
    ensures Grown(Lift(g, i), g) && CountNonZero(Lift(g, i)) <= CountNonZero(g) + 1
  {
    if 0 <= i < Count(g) {
      CountTrueUpdate(g.storage.cells, i, true);
    }
  }

  /** One pass of the loop over `j`: it fails with an overflow exactly when
      the point `j` above the location leaves the 16-bit range, and otherwise
      sets the cell of that point's index, if there is one, unless the
      clipped stacking drops a point outside the grid. */
  lemma StackColumnStep(g: BitGrid, b: Point3i, j: int, mh: int, clip: bool)
    requires WellFormed(g) && 1 <= j && 0 <= b.z
    ensures StackColumn(g, Ok(b), j, mh, clip) ==
              if j > mh then Ok(g)
              else if !InInt16(b.z + j) then Err(Overflow)
              else if clip && !InGrid(Point3i(b.x, b.y, b.z + j), g.size) then StackColumn(g, Ok(b), j + 1, mh, clip)
              else StackColumn(Lift(g, PointUvwToIndex(g.size, Point3i(b.x, b.y, b.z + j))), Ok(b), j + 1, mh, clip)
  {
    if j <= mh && InInt16(b.z + j) {
      var position := Point3i(b.x, b.y, b.z + j);
      assert FromInts(0, 0, j) == Ok(Point3i(0, 0, j));
      assert Add(b, Point3i(0, 0, j)) == Ok(position);
      assert SetAt(BitCells, g, position, true) == Ok(Lift(g, PointUvwToIndex(g.size, position)));
    }
  }

  /** The loop over `j` fails only with an overflow, and not at all when the
      column stays within the 16-bit range; it only sets cells, at most one
      per pass. */
  lemma {:induction false} StackColumnAdds(g: BitGrid, b: Point3i, j: int, mh: int, clip: bool)
    requires WellFormed(g) && 1 <= j && 0 <= b.z
    ensures var r := StackColumn(g, Ok(b), j, mh, clip);
            && (r.Err? ==> r.error == Overflow)
            && (b.z + mh <= INT16_MAX ==> r.Ok?)
            && (r.Ok? ==> Grown(r.value, g) && CountNonZero(r.value) <= CountNonZero(g) + Iterations(mh - j + 1))
    decreases Iterations(mh - j + 1)
  {
    hide StackColumn, Lift, CountNonZero, PointUvwToIndex, InGrid;
    StackColumnStep(g, b, j, mh, clip);
    if j <= mh && InInt16(b.z + j) {
      var p := Point3i(b.x, b.y, b.z + j);
      if clip && !InGrid(p, g.size) {
        StackColumnAdds(g, b, j + 1, mh, clip);
      } else {
        var i := PointUvwToIndex(g.size, p);
        LiftGrows(g, i);
        StackColumnAdds(Lift(g, i), b, j + 1, mh, clip);
        var r := StackColumn(Lift(g, i), Ok(b), j + 1, mh, clip);
        if r.Ok? {
          GrownTrans(r.value, Lift(g, i), g);
        }
      }
    }
  }

  /** Cell `k` lies in the column of `b`, above it. */
  predicate Above(size: Point3i, k: int, b: Point3i)
    requires IsPositiveNonZero(size) && Fits(size)
  {
    0 <= k < SelfProduct(size) && Uvw(size, k).x == b.x && Uvw(size, k).y == b.y && Uvw(size, k).z > b.z
  }

  /** Setting the cell `j` above `b`, when it lies in the grid, sets a cell
      of `b`'s column above `b`. */
  lemma LiftIsAbove(g: BitGrid, b: Point3i, j: int)
    requires WellFormed(g) && 1 <= j && 0 <= b.z && InInt16(b.z + j) && InGrid(Point3i(b.x, b.y, b.z + j), g.size)
    ensures AddedAbove(Lift(g, PointUvwToIndex(g.size, Point3i(b.x, b.y, b.z + j))), g, b)
  {
    var p := Point3i(b.x, b.y, b.z + j);
    CellOfIndex(g.size, p);
  }

  /** Grid `r` grew from `g`, and every cell it sets that `g` does not lies
      above `b`, in its column. */
  predicate AddedAbove(r: BitGrid, g: BitGrid, b: Point3i)
    requires WellFormed(g)
  {
    Grown(r, g) && forall k | 0 <= k < Count(g) && r.storage.cells[k] && !g.storage.cells[k] :: Above(g.size, k, b)
  }

  /** The corrected loop over `j` sets only cells of the location's own
      column, above the location. */
  lemma {:induction false} ClippedColumnStaysAbove(g: BitGrid, b: Point3i, j: int, mh: int)
    requires WellFormed(g) && 1 <= j && 0 <= b.z
    ensures var r := StackColumn(g, Ok(b), j, mh, true);
            r.Ok? ==> AddedAbove(r.value, g, b)
    decreases Iterations(mh - j + 1)
  {
    hide StackColumn, PointUvwToIndex, InGrid;
    StackColumnStep(g, b, j, mh, true);
    if j <= mh && InInt16(b.z + j) {
      var p := Point3i(b.x, b.y, b.z + j);
      if !InGrid(p, g.size) {
        ClippedColumnStaysAbove(g, b, j + 1, mh);
      } else {
        var i := PointUvwToIndex(g.size, p);
        LiftIsAbove(g, b, j);
        ClippedColumnStaysAbove(Lift(g, i), b, j + 1, mh);
        var r := StackColumn(Lift(g, i), Ok(b), j + 1, mh, true);
        if r.Ok? {
          AddedAboveTrans(r.value, Lift(g, i), g, b);
        }
      }
    }
  }

  lemma AddedAboveTrans(a: BitGrid, m: BitGrid, g: BitGrid, b: Point3i)
    requires WellFormed(g) && AddedAbove(m, g, b) && AddedAbove(a, m, b)
    ensures AddedAbove(a, g, b)
  {
    forall k | 0 <= k < Count(g) && a.storage.cells[k] && !g.storage.cells[k]
      ensures Above(g.size, k, b)
    {
      if !m.storage.cells[k] {
        assert Above(m.size, k, b);
      }
    }
  }

  lemma {:induction false} StackAdds(g: BitGrid, locs: seq<Int32>, hs: seq<int>, clip: bool)
    requires WellFormed(g) && |hs| == |locs|
    requires forall s :: 0 <= s < |locs| ==> 0 <= locs[s] < Count(g) && hs[s] >= 0
    ensures var r := Stack(g, locs, hs, clip);
            && (r.Err? ==> r.error == Overflow)
            && (r.Ok? ==> Grown(r.value, g) && CountNonZero(r.value) <= CountNonZero(g) + Sum(hs))
            && ((forall s :: 0 <= s < |locs| ==> Uvw(g.size, locs[s]).z + hs[s] <= INT16_MAX) ==> r.Ok?)
    decreases |locs|
  {
    if |locs| > 0 {
      IndexToPointUvwIsUvw(g.size, locs[0]);
      StackColumnAdds(g, Uvw(g.size, locs[0]), 1, hs[0], clip);
      var c := StackColumn(g, IndexToPointUvw(g.size, locs[0]), 1, hs[0], clip);
      if c.Ok? {
        StackAdds(c.value, locs[1..], hs[1..], clip);
        var r := Stack(c.value, locs[1..], hs[1..], clip);
        if r.Ok? {
          GrownTrans(r.value, c.value, g);
        }
      }
    }
  }

  /** Cell `k` lies above one of the locations, in its column. */
  predicate AboveSome(size: Point3i, k: int, locs: seq<Int32>)
    requires IsPositiveNonZero(size) && Fits(size)
  {
    exists s :: 0 <= s < |locs| && 0 <= locs[s] < SelfProduct(size) && Above(size, k, Uvw(size, locs[s]))
  }

  /** Grid `r` grew from `g`, and every cell it sets that `g` does not lies
      above one of the locations, in its column. */
  predicate AddedAboveSome(r: BitGrid, g: BitGrid, locs: seq<Int32>)
    requires WellFormed(g)
  {
    Grown(r, g) && forall k | 0 <= k < Count(g) && r.storage.cells[k] && !g.storage.cells[k] :: AboveSome(g.size, k, locs)
  }

  lemma {:induction false} ClippedStackStaysAbove(g: BitGrid, locs: seq<Int32>, hs: seq<int>)
    requires WellFormed(g) && |hs| == |locs|
    requires forall s :: 0 <= s < |locs| ==> 0 <= locs[s] < Count(g) && hs[s] >= 0
    ensures var r := Stack(g, locs, hs, true);
            r.Ok? ==> AddedAboveSome(r.value, g, locs)
    decreases |locs|
  {
    if |locs| > 0 {
      var b := Uvw(g.size, locs[0]);
      IndexToPointUvwIsUvw(g.size, locs[0]);
      ClippedColumnStaysAbove(g, b, 1, hs[0]);
      var c := StackColumn(g, IndexToPointUvw(g.size, locs[0]), 1, hs[0], true);
      if c.Ok? {
        ClippedStackStaysAbove(c.value, locs[1..], hs[1..]);
        var r := Stack(c.value, locs[1..], hs[1..], true);
        if r.Ok? {
          AddedAboveSomeCons(r.value, c.value, g, locs);
        }
      }
    }
  }

  lemma AddedAboveSomeCons(r: BitGrid, c: BitGrid, g: BitGrid, locs: seq<Int32>)
    requires WellFormed(g) && |locs| > 0 && 0 <= locs[0] < Count(g)
    requires AddedAbove(c, g, Uvw(g.size, locs[0])) && AddedAboveSome(r, c, locs[1..])
    ensures AddedAboveSome(r, g, locs)
  {
    forall k | 0 <= k < Count(g) && r.storage.cells[k] && !g.storage.cells[k]
      ensures AboveSome(g.size, k, locs)
    {
      if c.storage.cells[k] {
        assert Above(g.size, k, Uvw(g.size, locs[0]));
      } else {
        assert AboveSome(c.size, k, locs[1..]);
        var s :| 0 <= s < |locs[1..]| && 0 <= locs[1..][s] < SelfProduct(g.size) && Above(g.size, k, Uvw(g.size, locs[1..][s]));
        assert locs[1..][s] == locs[s + 1];
      }
    }
  }

  /** A grid grown from `vg` with at most `count` set cells reaches the count
      after the fallback, or fills every cell when it is smaller. */
  lemma TopUpReaches(g: BitGrid, vg: BitGrid, count: Int32)
    requires Grown(g, vg) && CountNonZero(g) <= count
    ensures TopUp(g, count).Ok?
    ensures Grown(TopUp(g, count).value, vg) && CountNonZero(TopUp(g, count).value) == Min(count, Count(vg))
  {
    CountNonZeroPositive(g);
    if CountNonZero(g) != count {
      FromBottomFills(g, count);
      GrownTrans(IncreaseGridFromBottom(g, count).value, g, vg);
    }
  }

  /** There are roof locations exactly when the grid has set cells, and
      each is the index of a cell. */
  lemma RoofLocationsExist(vg: BitGrid)
    requires WellFormed(vg)
    ensures var r := RoofLocations(vg, Iterations(vg.size.z));
            && r.Ok?
            && (|r.value| > 0 <==> CountNonZero(vg) > 0)
            && forall s :: 0 <= s < |r.value| ==> 0 <= r.value[s] < Count(vg)
  {
    var zs := Iterations(vg.size.z);
    RoofLocationsAreHighest(vg, zs);
    CountNonZeroPositive(vg);
    var locs := RoofLocations(vg, zs).value;
    if CountNonZero(vg) > 0 {
      var k :| 0 <= k < Count(vg) && vg.storage.cells[k];
      assert AnySetBelow(vg, zs);
    }
    forall s | 0 <= s < |locs|
      ensures 0 <= locs[s] < Count(vg)
    {
      assert locs[s] in locs;
    }
  }

  /** Stacking `difference` cells over the locations adds at most that many
      cells, fails only with an overflow, and succeeds when the stacks stay
      within the 16-bit coordinate range. */
  lemma StackShareAdds(vg: BitGrid, locs: seq<Int32>, difference: nat, clip: bool)
    requires WellFormed(vg) && |locs| > 0
    requires forall s :: 0 <= s < |locs| ==> 0 <= locs[s] < Count(vg)
    ensures var r := Share(vg, locs, difference, clip);
            && (r.Err? ==> r.error == Overflow)
            && (r.Ok? ==> Grown(r.value, vg) && CountNonZero(r.value) <= CountNonZero(vg) + difference)
            && (difference + vg.size.z <= INT16_MAX + 1 ==> r.Ok?)
  {
    var n := |locs|;
    HeightsSumToDifference(difference, n);
    var hs := Heights(n, difference / n, TRem(difference, n));
    StackAdds(vg, locs, hs, clip);
  }

  /** The corrected stacking of `difference` cells sets only cells above the
      locations, each in a location's own column. */
  lemma ClippedShareStaysAbove(vg: BitGrid, locs: seq<Int32>, difference: nat)
    requires WellFormed(vg) && |locs| > 0
    requires forall s :: 0 <= s < |locs| ==> 0 <= locs[s] < Count(vg)
    ensures var r := Share(vg, locs, difference, true);
            r.Ok? ==> AddedAboveSome(r.value, vg, locs)
  {
    var n := |locs|;
    HeightsSumToDifference(difference, n);
    ClippedStackStaysAbove(vg, locs, Heights(n, difference / n, TRem(difference, n)));
  }

  /** Below the target, `IncreaseGrid` fails with an overflow on a grid with
      no set cell, and fails only with an overflow; it succeeds when the
      stacks fit in 16-bit coordinates, and a result only sets clear cells
      and holds the target count, or every cell when the grid is smaller. */
  lemma IncreaseGridReachesCount(vg: BitGrid, count: Int32, clip: bool)
    requires WellFormed(vg) && CountNonZero(vg) < count
    ensures var r := IncreaseGrid(vg, count, clip);
            && (CountNonZero(vg) == 0 ==> r == Err(Overflow))
            && (r.Err? ==> r.error == Overflow)
            && (CountNonZero(vg) > 0 && count - CountNonZero(vg) + vg.size.z <= INT16_MAX + 1 ==> r.Ok?)
            && (r.Ok? ==> Grown(r.value, vg) && CountNonZero(r.value) == Min(count, Count(vg)))
  {
    RoofLocationsExist(vg);
    var locs := RoofLocations(vg, Iterations(vg.size.z)).value;
    DistributeReaches(vg, locs, count, clip);
  }

  /** Distributing over locations that are present exactly when the grid has
      set cells. */
  lemma DistributeReaches(vg: BitGrid, locs: seq<Int32>, count: Int32, clip: bool)
    requires WellFormed(vg) && CountNonZero(vg) < count
    requires |locs| > 0 <==> CountNonZero(vg) > 0
    requires forall s :: 0 <= s < |locs| ==> 0 <= locs[s] < Count(vg)
    ensures var r := Distribute(vg, locs, count, clip);
            && (CountNonZero(vg) == 0 ==> r == Err(Overflow))
            && (r.Err? ==> r.error == Overflow)
            && (CountNonZero(vg) > 0 && count - CountNonZero(vg) + vg.size.z <= INT16_MAX + 1 ==> r.Ok?)
            && (r.Ok? ==> Grown(r.value, vg) && CountNonZero(r.value) == Min(count, Count(vg)))
  {
    var diff := count - CountNonZero(vg);
    assert Wrap32(diff) == diff;
    var r := Distribute(vg, locs, count, clip);
    if |locs| > 0 {
      StackShareAdds(vg, locs, diff, clip);
      var st := Share(vg, locs, diff, clip);
      DistributeStep(vg, locs, count, clip, diff);
      if st.Ok? {
        TopUpReaches(st.value, vg, count);
        assert r == TopUp(st.value, count);
      } else {
        assert r == Err(Overflow);
      }
    }
  }

  /** Lines 98-131 with at least one location: the stacking's failure, or the
      fallback on its result. */
  lemma DistributeStep(vg: BitGrid, locs: seq<Int32>, count: Int32, clip: bool, difference: int)
    requires |locs| > 0 && difference == Wrap32(count - CountNonZero(vg))
    ensures var st := Share(vg, locs, difference, clip);
            Distribute(vg, locs, count, clip) == if st.Ok? then TopUp(st.value, count) else Err(st.error)
  {
    hide Share, TopUp, CountNonZero, Wrap32;
  }

  /** The component on a well-formed grid, as written (`clip` false) and
      with the corrected stacking (`clip` true): the grid is returned
      unchanged when it holds exactly the requested count; it is limited to
      the count (none for a negative one) when it holds more; and when it
      holds fewer it is increased as `IncreaseGrid` promises. */
  lemma SolveMeetsLimit(vg: BitGrid, fd: FloorDivide, limit: Int32, clip: bool)
    requires WellFormed(vg) && InitializedBy(vg, fd)
    ensures var r := if clip then SolveCorrected(vg, fd, limit) else Solve(vg, fd, limit);
            && (CountNonZero(vg) == limit ==> r == Ok(vg))
            && (CountNonZero(vg) > limit ==> r.Ok? && Shrunk(r.value, vg) && CountNonZero(r.value) == Max(limit, 0))
            && (CountNonZero(vg) < limit ==>
                  && (CountNonZero(vg) == 0 ==> r == Err(Overflow))
                  && (r.Err? ==> r.error == Overflow)
                  && (r.Ok? ==> Grown(r.value, vg) && CountNonZero(r.value) == Min(limit, Count(vg))))
  {
    VoxelGrid3D.CloneIsEqualCopy(vg, fd);
    if CountNonZero(vg) > limit {
      LimitGridLeavesLimit(vg, limit);
    } else if CountNonZero(vg) < limit {
      IncreaseGridReachesCount(vg, limit, clip);
    }
  }

  // ---------------------------------------------------------------- the stacking past the roof

  /** The point one above a location on the top layer has the index of the
      bottom cell of the next column along y, which does not lie above the
      location. */
  lemma {:induction false} RoofIndexWraps(size: Point3i, b: Point3i)
    requires Fits(size) && InGrid(b, size) && b.z == size.z - 1 && b.y + 1 < size.y
    ensures var i := PointUvwToIndex(size, Point3i(b.x, b.y, b.z + 1));
            && i == PointUvwToIndex(size, Point3i(b.x, b.y + 1, 0))
            && 0 <= i < CellCount(size) && Uvw(size, i) == Point3i(b.x, b.y + 1, 0) && !Above(size, i, b)
  {
    var next := Point3i(b.x, b.y + 1, 0);
    CellOfIndex(size, next);
    OneAboveRoofIndex(size, b);
    hide PointUvwToIndex, Uvw, Wrap32;
    assert SelfProduct(size) == CellCount(size);
  }

  lemma OneAboveRoofIndex(size: Point3i, b: Point3i)
    requires b.z == size.z - 1 && b.y + 1 < size.y
    ensures PointUvwToIndex(size, Point3i(b.x, b.y, b.z + 1)) == PointUvwToIndex(size, Point3i(b.x, b.y + 1, 0))
  {
    assert size.z * (b.y + 1) == size.z * b.y + size.z;
  }

  /** A stack of height one over a location on the top layer: as written
      its point, one above the roof, has the index of the bottom cell of the
      next column along y, and that cell is set; clipped, nothing is set. */
  lemma {:induction false} StackPastRoofWraps(g: BitGrid, b: Point3i)
    requires WellFormed(g) && InGrid(b, g.size) && b.z == g.size.z - 1 && b.y + 1 < g.size.y
    ensures var i := PointUvwToIndex(g.size, Point3i(b.x, b.y + 1, 0));
            && 0 <= i < Count(g) && Uvw(g.size, i) == Point3i(b.x, b.y + 1, 0) && !Above(g.size, i, b)
            && StackColumn(g, Ok(b), 1, 1, false) == Ok(Lift(g, i))
            && StackColumn(g, Ok(b), 1, 1, true) == Ok(g)
  {
    RoofIndexWraps(g.size, b);
    var i := PointUvwToIndex(g.size, Point3i(b.x, b.y, b.z + 1));
    StackColumnStep(g, b, 1, 1, false);
    StackColumnStep(Lift(g, i), b, 2, 1, false);
    StackColumnStep(g, b, 1, 1, true);
    StackColumnStep(g, b, 2, 1, true);
  }
}

=== FILE: little_endian.dfy ===
/** Bytes and the little-endian layouts `BitConverter` uses for `int` and
`double` values on the platforms the library runs on.
 */
module LittleEndian {
  import opened Numerics

  type Byte = b: int | 0 <= b < 256

  function Pow256(width: nat): (p: nat)
    ensures p > 0
  {
    if width == 0 then 1 else 256 * Pow256(width - 1)
  }

  /** The `width` least significant base-256 digits of `n`, lowest first. */
  function LeBytes(n: nat, width: nat): (bs: seq<Byte>)
    ensures |bs| == width
  {
    if width == 0 then [] else [n % 256] + LeBytes(n / 256, width - 1)
  }

  /** The unsigned value of a little-endian byte string. */
  function LeValue(bs: seq<Byte>): (n: nat)
    ensures n < Pow256(|bs|)
  {
    if |bs| == 0 then 0
    else
      var rest := LeValue(bs[1..]);
      assert bs[0] + 256 * rest < 256 * Pow256(|bs| - 1) by {
        assert rest + 1 <= Pow256(|bs| - 1);
        MulMonotone(256, rest + 1, 256, Pow256(|bs| - 1));
      }
      bs[0] + 256 * rest
  }

  /** Decoding undoes encoding for every value the width can hold. */
  lemma {:induction false} LeValueOfBytes(n: nat, width: nat)
    requires n < Pow256(width)
    ensures LeValue(LeBytes(n, width)) == n
  {
    if width > 0 {
      var q := n / 256;
      assert q < Pow256(width - 1) by {
        assert n < 256 * Pow256(width - 1);
      }
      LeValueOfBytes(q, width - 1);
      var bs := LeBytes(n, width);
      assert bs[1..] == LeBytes(q, width - 1);
    }
  }

  /** Encoding undoes decoding: every byte string is the encoding of its value. */
  lemma {:induction false} LeBytesOfValue(bs: seq<Byte>)
    ensures LeBytes(LeValue(bs), |bs|) == bs
  {
    if |bs| > 0 {
      var rest := LeValue(bs[1..]);
      var n := bs[0] + 256 * rest;
      DivModUnique(n, 256, rest, bs[0]);
      LeBytesOfValue(bs[1..]);
      assert LeBytes(n, |bs|) == [bs[0]] + LeBytes(rest, |bs| - 1);
    }
  }

  lemma Pow256Values()
    ensures Pow256(4) == TWO_32
    ensures Pow256(8) == 0x1_0000_0000_0000_0000
  {
    assert Pow256(2) == 0x1_0000;
    assert Pow256(4) == 0x1_0000 * 0x1_0000;
    assert Pow256(8) == Pow256(4) * Pow256(4) by {
      assert Pow256(8) == 0x1_0000 * 0x1_0000 * Pow256(4);
    }
  }

  /** `BitConverter.GetBytes(int)`: four bytes of the two's-complement pattern. */
  function Int32Bytes(v: Int32): (bs: seq<Byte>)
    ensures |bs| == 4
  {
    LeBytes(if v < 0 then v + TWO_32 else v, 4)
  }

  /** `BitConverter.ToInt32` of four bytes. */
  function Int32Of(bs: seq<Byte>): Int32
    requires |bs| == 4
  {
    Pow256Values();
    var u := LeValue(bs);
    if u <= INT32_MAX then u else u - TWO_32
  }

  /** The four-byte layout of an `int` is a bijection. */
  lemma Int32RoundTrip(v: Int32, bs: seq<Byte>)
    ensures Int32Of(Int32Bytes(v)) == v
    ensures |bs| == 4 ==> Int32Bytes(Int32Of(bs)) == bs
  {
    Pow256Values();
    LeValueOfBytes(if v < 0 then v + TWO_32 else v, 4);
    if |bs| == 4 {
      LeBytesOfValue(bs);
    }
  }
}

=== FILE: matrix_helper.dfy ===
/** Enumeration of an n-dimensional grid by a single index (MatrixHelper).

A size vector `s` describes a grid with `s[k]` positions along axis `k`; the
last axis varies fastest. `MatrixVector` turns an index into a position vector
and `VectorMatrix` turns a position back into an index. Both are specified
against the mixed-radix pair `Decompose` / `Compose`, whose round trips are
proved here.
 */
module MatrixHelper {
  import opened Wrappers
  import opened Numerics

  /** The number of positions of a grid with sizes `s`, in exact arithmetic. */
  function Product(s: seq<int>): int
  {
    if |s| == 0 then 1 else Product(s[..|s| - 1]) * s[|s| - 1]
  }

  predicate AllPositive(s: seq<int>) {
    forall k :: 0 <= k < |s| ==> s[k] > 0
  }

  /** `v` is a position of the grid with sizes `s`. */
  predicate InRange(v: seq<int>, s: seq<int>) {
    |v| == |s| && forall k :: 0 <= k < |s| ==> 0 <= v[k] < s[k]
  }

  /** The index of position `v` (Horner's rule, last axis fastest). */
  function Compose(v: seq<int>, s: seq<int>): int
    requires |v| == |s|
  {
    if |s| == 0 then 0 else Compose(v[..|v| - 1], s[..|s| - 1]) * s[|s| - 1] + v[|v| - 1]
  }

  /** The position of a non-negative index: its mixed-radix digits. An index
      past the end wraps around on the first axis. */
  function Decompose(item: nat, s: seq<int>): (v: seq<int>)
    requires AllPositive(s)
    ensures InRange(v, s)
    decreases |s|
  {
    if |s| == 0 then []
    else
      var t := s[|s| - 1];
      assert AllPositive(s[..|s| - 1]);
      var prefix := Decompose(item / t, s[..|s| - 1]);
      assert 0 <= item % t < t;
      prefix + [item % t]
  }

  lemma ProductPositive(s: seq<int>)
    requires AllPositive(s)
    ensures Product(s) > 0
  {
    if |s| > 0 {
      assert AllPositive(s[..|s| - 1]);
      ProductPositive(s[..|s| - 1]);
      MulPositive(Product(s[..|s| - 1]), s[|s| - 1]);
    }
  }

  lemma MulPositive(a: int, b: int)
    requires a > 0 && b > 0
    ensures a * b > 0 && a * b >= a && a * b >= b
  {
    MulAtLeast(a, b);
    MulAtLeast(b, a);
  }

  /** `item < p * t` bounds the quotient by `t`. */
  lemma QuotientBelow(item: nat, p: int, t: int)
    requires t > 0 && item < p * t
    ensures item / t < p
  {
    assert (item / t) * t <= item;
  }

  /** One step of Horner's rule: appending digit `d` below radix `t`. */
  lemma HornerStep(c: int, t: int, d: int, p: int)
    requires t > 0 && 0 <= d < t && 0 <= c < p
    ensures 0 <= c * t + d < p * t
    ensures (c * t + d) / t == c && (c * t + d) % t == d
  {
    DivModUnique(c * t + d, t, c, d);
    assert (p - c) * t >= t by { MulAtLeast(p - c, t); }
  }

  /** Splitting an index into its quotient and remainder by radix `t`. */
  lemma HornerSplit(item: nat, t: int, p: int)
    requires t > 0 && item < p * t
    ensures 0 <= item / t < p
    ensures item == (item / t) * t + item % t
  {
    QuotientBelow(item, p, t);
  }

  lemma {:induction false} ComposeDecompose(item: nat, s: seq<int>)
    requires AllPositive(s) && item < Product(s)
    ensures Compose(Decompose(item, s), s) == item
    decreases |s|
  {
    if |s| > 0 {
      var t := s[|s| - 1];
      var s' := s[..|s| - 1];
      assert AllPositive(s');
      var q := item / t;
      var r := item % t;
      assert Product(s) == Product(s') * t;
      HornerSplit(item, t, Product(s'));
      ComposeDecompose(q, s');
      var d' := Decompose(q, s');
      var d := d' + [r];
      assert Decompose(item, s) == d;
      assert d[..|d| - 1] == d';
      assert Compose(d, s) == Compose(d', s') * t + r;
    }
  }

  lemma {:induction false} DecomposeCompose(v: seq<int>, s: seq<int>)
    requires AllPositive(s) && InRange(v, s)
    ensures 0 <= Compose(v, s) < Product(s)
    ensures Decompose(Compose(v, s), s) == v
  {
    if |s| > 0 {
      var t := s[|s| - 1];
      var s' := s[..|s| - 1];
      var v' := v[..|v| - 1];
      var d := v[|v| - 1];
      assert AllPositive(s') && InRange(v', s');
      DecomposeCompose(v', s');
      var c' := Compose(v', s');
      var c := c' * t + d;
      assert Compose(v, s) == c;
      assert Product(s) == Product(s') * t;
      assert Decompose(c, s) == Decompose(c / t, s') + [c % t];
      hide Compose, Decompose, Product;
      HornerStep(c', t, d, Product(s'));
      assert c / t == c' && c % t == d;
      assert Decompose(c, s) == v' + [d];
      assert v == v' + [d];
    }
  }

  /** One pass of the loop of MatrixVector (MatrixHelper.cs, lines 32-37),
      taking the remaining axes from the last one down. `rest` is the index with
      the remainders of the axes already done removed; `kCount` is the product
      of their sizes. Both `%`, `/` and `*` are C#'s 32-bit operations; a zero
      modulus throws, and so does `int.MinValue % -1`. */
  function MatrixVectorLoop(rest: int, kCount: int, s: seq<int>): (r: Result<seq<int>>)
    ensures r.Ok? ==> |r.value| == |s|
    decreases |s|
  {
    if |s| == 0 then Ok([])
    else
      var m := Wrap32(kCount * s[|s| - 1]);
      if m == 0 then Err(DivideByZero)
      else if rest == -0x8000_0000 && m == -1 then Err(Overflow)
      else
        var r := TRem(rest, m);
        var digit := if kCount == 0 then 0 else TDiv(r, kCount);
        var prefix :- MatrixVectorLoop(rest - TRem(rest, m), m, s[..|s| - 1]);
        Ok(prefix + [digit])
  }

  /** The position vector of `item` in a grid of sizes `s`. */
  function MatrixVector(item: int, s: seq<int>): (r: Result<seq<int>>)
    ensures r.Ok? ==> |r.value| == |s|
  {
    MatrixVectorLoop(item, 1, s)
  }

  /** `(p * a) % (p * t) == p * (a % t)`: the remainder the loop takes. */
  lemma ScaledRemainder(p: int, a: nat, t: int)
    requires p > 0 && t > 0
    ensures p * t > 0
    ensures (p * a) % (p * t) == p * (a % t)
    ensures (p * a) - (p * a) % (p * t) == (p * t) * (a / t)
  {
    MulPositive(p, t);
    var q := a / t;
    var r := a % t;
    assert a == q * t + r;
    assert p * a == q * (p * t) + p * r;
    assert 0 <= p * r < p * t by {
      assert (t - r) * p > 0 by { MulPositive(t - r, p); }
    }
    DivModUnique(p * a, p * t, q, p * r);
  }

  /** The arithmetic of one loop pass on `rest == p * a` with `kCount == p`. */
  lemma LoopStep(p: int, a: nat, t: int, rest: int)
    requires p > 0 && t > 0 && p * t <= INT32_MAX
    ensures p * t > 0 && Wrap32(p * t) == p * t && a / t >= 0
    ensures TRem(p * a, p * t) == p * (a % t)
    ensures TDiv(p * (a % t), p) == a % t
    ensures p * a - TRem(p * a, p * t) == (p * t) * (a / t)
  {
    ScaledRemainder(p, a, t);
    DivModUnique(p * (a % t), p, a % t, 0);
  }

  /** One pass of the loop, on named intermediate values: the modulus `m`,
      the remainder `r`, the digit `d` and the index `next` handed on. */
  lemma LoopPass(rest: int, p: int, s: seq<int>, m: int, r: int, d: int, next: int, prefix: seq<int>)
    requires p != 0 && |s| > 0 && m > 0 && Wrap32(p * s[|s| - 1]) == m
    requires TRem(rest, m) == r && TDiv(r, p) == d && rest - r == next
    requires MatrixVectorLoop(next, m, s[..|s| - 1]) == Ok(prefix)
    ensures MatrixVectorLoop(rest, p, s) == Ok(prefix + [d])
  {
    hide TRem, TDiv, Wrap32;
  }

  lemma {:induction false} MatrixVectorLoopDigits(p: int, a: nat, s: seq<int>)
    requires p > 0 && AllPositive(s) && p * Product(s) <= INT32_MAX
    ensures MatrixVectorLoop(p * a, p, s) == Ok(Decompose(a, s))
    decreases |s|
  {
    if |s| > 0 {
      var t := s[|s| - 1];
      var s' := s[..|s| - 1];
      assert AllPositive(s');
      ProductPositive(s');
      var m := p * t;
      assert p * Product(s) == m * Product(s') by {
        assert Product(s) == Product(s') * t;
      }
      MulPositive(p, t);
      MulPositive(m, Product(s'));
      LoopStep(p, a, t, p * a);
      var q: nat := a / t;
      MatrixVectorLoopDigits(m, q, s');
      LoopPass(p * a, p, s, m, p * (a % t), a % t, m * q, Decompose(q, s'));
    }
  }

  /** For positive sizes whose product fits an `int`, MatrixVector returns the
      mixed-radix digits of a non-negative index. */
  lemma MatrixVectorIsDecompose(item: nat, s: seq<int>)
    requires AllPositive(s) && Product(s) <= INT32_MAX
    ensures MatrixVector(item, s) == Ok(Decompose(item, s))
  {
    MatrixVectorLoopDigits(1, item, s);
  }

  /** A zero size throws DivideByZero once the loop reaches it, if the sizes
      after it are positive with a product that fits an `int`. */
  lemma {:induction false} MatrixVectorLoopZeroSize(rest: int, p: int, s: seq<int>, k: int)
    requires 0 <= k < |s| && s[k] == 0 && p > 0
    requires AllPositive(s[k + 1..]) && p * Product(s[k + 1..]) <= INT32_MAX
    ensures MatrixVectorLoop(rest, p, s) == Err(DivideByZero)
    decreases |s|
  {
    if k < |s| - 1 {
      var t := s[|s| - 1];
      var s' := s[..|s| - 1];
      assert s[k + 1..] == s'[k + 1..] + [t];
      assert Product(s[k + 1..]) == Product(s'[k + 1..]) * t;
      assert AllPositive(s'[k + 1..]);
      ProductPositive(s'[k + 1..]);
      MulPositive(p, t);
      assert p * Product(s[k + 1..]) == (p * t) * Product(s'[k + 1..]);
      MulPositive(p * t, Product(s'[k + 1..]));
      assert Wrap32(p * t) == p * t;
      var next := rest - TRem(rest, p * t);
      MatrixVectorLoopZeroSize(next, p * t, s', k);
      LoopPassFails(rest, p, s, p * t, next, DivideByZero);
    }
  }

  /** A failure in a later pass is the loop's failure. */
  lemma LoopPassFails(rest: int, p: int, s: seq<int>, m: int, next: int, e: Error)
    requires |s| > 0 && m > 0 && Wrap32(p * s[|s| - 1]) == m && rest - TRem(rest, m) == next
    requires MatrixVectorLoop(next, m, s[..|s| - 1]) == Err(e)
    ensures MatrixVectorLoop(rest, p, s) == Err(e)
  {
    hide TRem, TDiv, Wrap32;
  }

  lemma MatrixVectorZeroSize(item: int, s: seq<int>, k: int)
    requires 0 <= k < |s| && s[k] == 0
    requires AllPositive(s[k + 1..]) && Product(s[k + 1..]) <= INT32_MAX
    ensures MatrixVector(item, s) == Err(DivideByZero)
  {
    MatrixVectorLoopZeroSize(item, 1, s, k);
  }

  /** A last size of -1 makes the first pass compute `int.MinValue % -1` on
      the index `int.MinValue`, which throws. */
  lemma MatrixVectorMinValueOverflows(s: seq<int>)
    requires |s| > 0 && s[|s| - 1] == -1
    ensures MatrixVector(-0x8000_0000, s) == Err(Overflow)
  {
  }

  /** The worked example of the source: item 55 of a [3,4,6] grid. */
  lemma MatrixVectorExample()
    ensures MatrixVector(55, [3, 4, 6]) == Ok([2, 1, 1])
  {
    assert [3, 4, 6][..2] == [3, 4] && [3, 4][..1] == [3] && [3][..0] == [];
    assert Product([3, 4, 6]) == 72;
    MatrixVectorIsDecompose(55, [3, 4, 6]);
    assert Decompose(2, [3]) == [2];
    assert Decompose(9, [3, 4]) == [2, 1];
    assert Decompose(55, [3, 4, 6]) == [2, 1, 1];
  }

  /** Product of `m[lo..hi)`: the inner loop of VectorMatrix. */
  function HigherSize(m: seq<int>, lo: int, hi: int): int
    requires 0 <= lo
    requires lo >= hi || hi <= |m|
    decreases hi - lo
  {
    if lo >= hi then 1 else m[lo] * HigherSize(m, lo + 1, hi)
  }

  /** The first `n` terms of the sum VectorMatrix accumulates, exactly. */
  function VectorMatrixSum(v: seq<int>, m: seq<int>, n: nat): int
    requires n <= |v| && (|v| <= 1 || |v| <= |m|)
  {
    if n == 0 then 0
    else VectorMatrixSum(v, m, n - 1) + HigherSize(m, n, |v|) * v[n - 1]
  }

  /** The index of position `vector` in a grid of sizes `matrix`
      (MatrixHelper.cs, lines 49-69). The loop reads `matrix[j]` for
      `j < |vector|`, so a longer vector than matrix throws unless it has at
      most one element; the 32-bit sum wraps. */
  function VectorMatrix(vector: seq<int>, matrix: seq<int>): Result<Int32>
  {
    if |vector| <= 1 || |vector| <= |matrix| then Ok(Wrap32(VectorMatrixSum(vector, matrix, |vector|)))
    else Err(IndexOutOfRange)
  }

  lemma HigherSizeStep(s: seq<int>, k: int, n: int)
    requires 0 <= k < n <= |s|
    ensures HigherSize(s, k, n) == s[k] * HigherSize(s, k + 1, n)
  {
  }

  lemma {:induction false} VectorMatrixSumPrefix(v: seq<int>, s: seq<int>, k: nat)
    requires |v| == |s| && k <= |v|
    ensures VectorMatrixSum(v, s, k) == Compose(v[..k], s[..k]) * HigherSize(s, k, |s|)
  {
    if k > 0 {
      VectorMatrixSumPrefix(v, s, k - 1);
      var c := Compose(v[..k - 1], s[..k - 1]);
      var h := HigherSize(s, k, |s|);
      HigherSizeStep(s, k - 1, |s|);
      assert v[..k][..k - 1] == v[..k - 1] && s[..k][..k - 1] == s[..k - 1];
      assert Compose(v[..k], s[..k]) == c * s[k - 1] + v[k - 1];
      calc {
        VectorMatrixSum(v, s, k);
        c * HigherSize(s, k - 1, |s|) + h * v[k - 1];
        c * (s[k - 1] * h) + h * v[k - 1];
        (c * s[k - 1] + v[k - 1]) * h;
      }
    }
  }

  /** VectorMatrix computes the mixed-radix value of its vector, reduced to 32 bits. */
  lemma {:induction false} VectorMatrixIsCompose(v: seq<int>, s: seq<int>)
    requires |v| == |s|
    ensures VectorMatrix(v, s) == Ok(Wrap32(Compose(v, s)))
  {
    var n := |v|;
    VectorMatrixSumPrefix(v, s, n);
    assert v[..n] == v && s[..n] == s;
    assert HigherSize(s, n, n) == 1;
    assert VectorMatrixSum(v, s, n) == Compose(v, s);
  }

  /** VectorMatrix undoes MatrixVector on every index of a grid that fits an `int`. */
  lemma VectorMatrixAfterMatrixVector(item: nat, s: seq<int>)
    requires AllPositive(s) && item < Product(s) <= INT32_MAX
    ensures MatrixVector(item, s).Ok?
    ensures VectorMatrix(MatrixVector(item, s).value, s) == Ok(item)
  {
    MatrixVectorIsDecompose(item, s);
    VectorMatrixIsCompose(Decompose(item, s), s);
    ComposeDecompose(item, s);
  }

  /** MatrixVector undoes VectorMatrix on every position of a grid that fits an `int`. */
  lemma MatrixVectorAfterVectorMatrix(v: seq<int>, s: seq<int>)
    requires AllPositive(s) && InRange(v, s) && Product(s) <= INT32_MAX
    ensures VectorMatrix(v, s).Ok?
    ensures MatrixVector(VectorMatrix(v, s).value, s) == Ok(v)
  {
    VectorMatrixIsCompose(v, s);
    DecomposeCompose(v, s);
    MatrixVectorIsDecompose(Compose(v, s), s);
  }

  /** One invocation of a MapMatrix callback: the running index and the
      position vector handed over with it. */
  datatype Call = Call(index: int, vector: Result<seq<int>>)

  function CallsFrom(s: seq<int>, j: nat, count: int): seq<Call>
    decreases count - j
  {
    if j >= count then [] else [Call(j, MatrixVector(j, s))] + CallsFrom(s, j + 1, count)
  }

  /** The callbacks MapMatrix makes, in order (MatrixHelper.cs, lines 107-119):
      one per index below the 32-bit product of the sizes. */
  function MapMatrix(s: seq<int>): (calls: seq<Call>)
    ensures |calls| == if Wrap32(Product(s)) <= 0 then 0 else Wrap32(Product(s))
    ensures forall n :: 0 <= n < |calls| ==> calls[n] == Call(n, MatrixVector(n, s))
  {
    CallsFromShape(s, 0, Wrap32(Product(s)));
    CallsFrom(s, 0, Wrap32(Product(s)))
  }

  lemma {:induction false} CallsFromShape(s: seq<int>, j: nat, count: int)
    ensures |CallsFrom(s, j, count)| == if j >= count then 0 else count - j
    ensures forall n :: 0 <= n < |CallsFrom(s, j, count)| ==>
              CallsFrom(s, j, count)[n] == Call(j + n, MatrixVector(j + n, s))
    decreases count - j
  {
    if j < count {
      CallsFromShape(s, j + 1, count);
    }
  }

  /** For positive sizes whose product fits an `int`, MapMatrix calls back once
      for every index `j` below the product, in increasing order, with the
      digits of `j`. */
  lemma MapMatrixEnumerates(s: seq<int>)
    requires AllPositive(s) && Product(s) <= INT32_MAX
    ensures |MapMatrix(s)| == Product(s)
    ensures forall j :: 0 <= j < |MapMatrix(s)| ==> MapMatrix(s)[j] == Call(j, Ok(Decompose(j, s)))
  {
    ProductPositive(s);
    CallsFromShape(s, 0, Product(s));
    forall j | 0 <= j < Product(s)
      ensures MatrixVector(j, s) == Ok(Decompose(j, s))
    {
      MatrixVectorIsDecompose(j, s);
    }
  }

  /** MapMatrixMT over an `int[]` (MatrixHelper.cs, lines 180-188) computes the
      product and never calls its delegate. */
  function MapMatrixMT(s: seq<int>): (calls: seq<Call>)
    ensures calls == []
  {
    var _ := Product(s);
    []
  }
}

=== FILE: matrix_map3.dfy ===
/** The Point3i overloads of MapMatrix and MapMatrixMT (MatrixHelper.cs): each
hands the three-element size to the `int[]` version and adapts the callback.
 */
module MatrixMap3 {
  import opened Wrappers
  import opened Numerics
  import opened Point3i
  import MatrixHelper

  /** A `DelegatePoint3i` invocation: the running index and the cell built by
      the `int[]` constructor. */
  datatype PointCall = PointCall(index: int, point: Result<Point3i>)

  /** A `DelegateXYZ` invocation: the three coordinates. */
  datatype XYZCall = XYZCall(x: int, y: int, z: int)

  /** `MapMatrix(Point3i, DelegateVector)` (MatrixHelper.cs, lines 127-130). */
  function MapMatrixVector(size: Point3i): seq<MatrixHelper.Call>
  {
    MatrixHelper.MapMatrix(ToArray(size))
  }

  /** The XYZ adapter `callback(vector[0], vector[1], vector[2])`. */
  function ToXYZ(c: MatrixHelper.Call): Result<XYZCall>
    requires c.vector.Ok? ==> |c.vector.value| == 3
  {
    var v :- c.vector;
    Ok(XYZCall(v[0], v[1], v[2]))
  }

  /** `MapMatrix(Point3i, DelegateXYZ)` (MatrixHelper.cs, lines 137-140). */
  function MapMatrixXYZ(size: Point3i): (calls: seq<Result<XYZCall>>)
    ensures |calls| == |MapMatrixVector(size)|
  {
    var calls := MapMatrixVector(size);
    seq(|calls|, j requires 0 <= j < |calls| => ToXYZ(calls[j]))
  }

  /** `MapMatrixMT(Point3i, DelegateXYZ)` (MatrixHelper.cs, lines 206-209):
      despite its name it calls the single-threaded MapMatrix. */
  function MapMatrixMTXYZ(size: Point3i): (calls: seq<Result<XYZCall>>)
    ensures |calls| == |MapMatrixVector(size)|
  {
    var calls := MatrixHelper.MapMatrix(ToArray(size));
    seq(|calls|, j requires 0 <= j < |calls| => ToXYZ(calls[j]))
  }

  /** The Point3i adapter `callback(i, new Point3i(vector))`. */
  function ToPointCall(c: MatrixHelper.Call): PointCall
  {
    PointCall(c.index, if c.vector.Ok? then FromArray(c.vector.value) else Err(c.vector.error))
  }

  /** `MapMatrix(Point3i, DelegatePoint3i)` (MatrixHelper.cs, lines 163-172). */
  function MapMatrixPoints(size: Point3i): (calls: seq<PointCall>)
    ensures |calls| == |MapMatrixVector(size)|
  {
    var calls := MapMatrixVector(size);
    seq(|calls|, j requires 0 <= j < |calls| => ToPointCall(calls[j]))
  }

  /** `MapMatrixMT(Point3i, DelegatePoint3i)` (MatrixHelper.cs, lines 147-156)
      and `MapMatrixMT(Point3i, DelegateVector)` (lines 195-198): both reach
      the `int[]` MapMatrixMT, which never calls back. */
  function MapMatrixMTPoints(size: Point3i): (calls: seq<PointCall>)
    ensures calls == []
  {
    var calls := MatrixHelper.MapMatrixMT(ToArray(size));
    seq(|calls|, j requires 0 <= j < |calls| => ToPointCall(calls[j]))
  }

  lemma CellsOfSize(size: Point3i)
    requires Fits(size)
    ensures |MapMatrixVector(size)| == CellCount(size)
    ensures forall j :: 0 <= j < CellCount(size) ==>
              MapMatrixVector(size)[j] == MatrixHelper.Call(j, Ok(ToArray(Uvw(size, j))))
  {
    var s := ToArray(size);
    ProductOfSize(size);
    assert Wrap32(MatrixHelper.Product(s)) == CellCount(size);
    forall j | 0 <= j < CellCount(size)
      ensures MatrixHelper.MatrixVector(j, s) == Ok(ToArray(Uvw(size, j)))
    {
      DigitsOfCell(size, j);
    }
  }

  lemma DigitsOfCell(size: Point3i, j: nat)
    requires Fits(size) && j < CellCount(size)
    ensures MatrixHelper.MatrixVector(j, ToArray(size)) == Ok(ToArray(Uvw(size, j)))
  {
    var s := ToArray(size);
    ProductOfSize(size);
    assert MatrixHelper.AllPositive(s);
    MatrixHelper.MatrixVectorIsDecompose(j, s);
    var d := MatrixHelper.Decompose(j, s);
    assert ToArray(Uvw(size, j)) == [d[0], d[1], d[2]] == d;
  }

  /** For a size that fits, the Point3i MapMatrix visits every cell once, in
      index order, handing over index `j` with the cell of `j`. */
  lemma MapMatrixPointsEnumeratesCells(size: Point3i)
    requires Fits(size)
    ensures |MapMatrixPoints(size)| == CellCount(size)
    ensures forall j :: 0 <= j < CellCount(size) ==> MapMatrixPoints(size)[j] == PointCall(j, Ok(Uvw(size, j)))
    ensures forall j :: 0 <= j < CellCount(size) ==> PointUvwToIndex(size, MapMatrixPoints(size)[j].point.value) == j
  {
    CellsOfSize(size);
    forall j | 0 <= j < CellCount(size)
      ensures MapMatrixPoints(size)[j] == PointCall(j, Ok(Uvw(size, j)))
      ensures PointUvwToIndex(size, Uvw(size, j)) == j
    {
      FromArrayToArray(Uvw(size, j));
      IndexOfCell(size, j);
    }
  }

  /** The XYZ overloads, the "MT" one included, hand over the coordinates of
      every cell in index order. */
  lemma MapMatrixXYZEnumeratesCells(size: Point3i)
    requires Fits(size)
    ensures MapMatrixMTXYZ(size) == MapMatrixXYZ(size)
    ensures |MapMatrixXYZ(size)| == CellCount(size)
    ensures forall j :: 0 <= j < CellCount(size) ==>
              var p := Uvw(size, j); MapMatrixXYZ(size)[j] == Ok(XYZCall(p.x, p.y, p.z))
  {
    CellsOfSize(size);
  }
}

=== FILE: numerics.dfy ===
/** The C# integer semantics the voxel library relies on: 16- and 32-bit
two's-complement ranges, unchecked narrowing and wrap-around, the checked
`Convert.ToInt16`, and division that truncates toward zero.
 */
module Numerics {
  import opened Wrappers

  const TWO_16: int := 0x1_0000
  const TWO_32: int := 0x1_0000_0000
  const INT16_MAX: int := 0x7FFF
  const INT32_MAX: int := 0x7FFF_FFFF

  /** A value of C# `short`. */
  type Int16 = i: int | -0x8000 <= i <= 0x7FFF

  /** A value of C# `int`. */
  type Int32 = i: int | -0x8000_0000 <= i <= 0x7FFF_FFFF

  predicate InInt16(v: int) {
    -0x8000 <= v <= 0x7FFF
  }

  predicate InInt32(v: int) {
    -0x8000_0000 <= v <= 0x7FFF_FFFF
  }

  /** The unchecked cast `(short)v`: the low 16 bits read as two's complement. */
  function Wrap16(v: int): (r: Int16)
    ensures (v - r) % TWO_16 == 0
    ensures InInt16(v) ==> r == v
  {
    var u := v % TWO_16;
    if u <= INT16_MAX then u else u - TWO_16
  }

  /** Unchecked 32-bit arithmetic: the result of a chain of `int` additions and
      multiplications is the exact value reduced to the `int` range. */
  function Wrap32(v: int): (r: Int32)
    ensures (v - r) % TWO_32 == 0
    ensures InInt32(v) ==> r == v
  {
    var u := v % TWO_32;
    if u <= INT32_MAX then u else u - TWO_32
  }

  /** `Convert.ToInt16` of an integral value: throws instead of wrapping. */
  function ToInt16Checked(v: int): (r: Result<Int16>)
    ensures r.Ok? <==> InInt16(v)
    ensures r.Ok? ==> r.value == v
    ensures r.Err? ==> r.error == Overflow
  {
    if InInt16(v) then Ok(v) else Err(Overflow)
  }

  /** The magnitude of `v`. */
  function Magnitude(v: int): nat
  {
    if v < 0 then -v else v
  }

  /** Whether `r` is a remainder of truncated division of `a` by `b`: smaller
      than `b` in magnitude and zero or of the sign of `a`. */
  predicate TruncatedRemainder(a: int, b: int, r: int)
  {
    Magnitude(r) < Magnitude(b) && (a >= 0 ==> r >= 0) && (a <= 0 ==> r <= 0)
  }

  /** C# `a / b` on integers: the quotient truncated toward zero. */
  function TDiv(a: int, b: int): (q: int)
    requires b != 0
    ensures TruncatedRemainder(a, b, a - b * q)
    ensures a >= 0 && b > 0 ==> q == a / b
  {
    var m := Magnitude(a) / Magnitude(b);
    var e := Magnitude(a) % Magnitude(b);
    assert Magnitude(a) == m * Magnitude(b) + e;
    if (a < 0) == (b < 0) then
      assert a - b * m == if a < 0 then -e else e;
      m
    else
      assert a - b * -m == if a < 0 then -e else e;
      -m
  }

  /** C# `a % b` on integers: the remainder takes the sign of `a`. */
  function TRem(a: int, b: int): (r: int)
    requires b != 0
    ensures TruncatedRemainder(a, b, r)
    ensures a >= 0 && b > 0 ==> r == a % b
  {
    a - b * TDiv(a, b)
  }

  /** Truncated division is determined by any decomposition `a == b * q + r`
      whose remainder is a truncated remainder: `TDiv` and `TRem` are C#'s
      `/` and `%` for every non-zero divisor and every sign. */
  lemma TruncatedDivisionUnique(a: int, b: int, q: int, r: int)
    requires b != 0 && a == b * q + r && TruncatedRemainder(a, b, r)
    ensures TDiv(a, b) == q && TRem(a, b) == r
  {
    var q0 := TDiv(a, b);
    var r0 := TRem(a, b);
    var mb := Magnitude(b);
    assert b * (q - q0) == r0 - r by {
      assert r0 == a - b * q0;
      assert b * q - b * q0 == b * (q - q0);
    }
    hide TDiv, TRem;
    assert Magnitude(r0 - r) < mb;
    if q != q0 {
      var d := Magnitude(q - q0);
      assert Magnitude(b * (q - q0)) == d * mb by {
        MagnitudeOfProduct(b, q - q0);
      }
      MulAtLeast(d, mb);
      assert false;
    }
  }

  lemma MagnitudeOfProduct(x: int, y: int)
    ensures Magnitude(x * y) == Magnitude(y) * Magnitude(x)
  {
    if x < 0 && y < 0 {
      assert x * y == (-y) * (-x);
    } else if x < 0 {
      assert -(x * y) == y * (-x);
    } else if y < 0 {
      assert -(x * y) == (-y) * x;
    }
  }

  /** Truncated and Euclidean division differ on a negative dividend that the
      divisor does not divide: `-7 / 2` is `-3` in C# and `-4` in Dafny, and
      `-7 % 2` is `-1` against `1`. */
  lemma TruncationDiffersOnNegatives()
    ensures TDiv(-7, 2) == -3 && -7 / 2 == -4
    ensures TRem(-7, 2) == -1 && -7 % 2 == 1
  {
    TruncatedDivisionUnique(-7, 2, -3, -1);
  }

  /** Euclidean division is determined by any decomposition with a remainder
      in range. */
  lemma DivModUnique(x: int, m: int, q: int, r: int)
    requires m > 0 && 0 <= r < m && x == q * m + r
    ensures x / m == q && x % m == r
  {
    var q' := x / m;
    var r' := x % m;
    assert (q' - q) * m == r - r' by {
      assert x == q' * m + r';
      assert q' * m - q * m == (q' - q) * m;
    }
    if q' > q {
      MulAtLeast(q' - q, m);
    } else if q' < q {
      MulAtLeast(q - q', m);
    }
  }

  lemma MulAtLeast(d: int, m: int)
    requires d >= 1 && m > 0
    ensures d * m >= m
  {
    assert d * m == m + (d - 1) * m;
  }

  lemma MulMonotone(a: int, b: int, a': int, b': int)
    requires 0 <= a <= a' && 0 <= b <= b'
    ensures 0 <= a * b <= a' * b'
  {
    assert a * b <= a' * b by { assert (a' - a) * b >= 0; }
    assert a' * b <= a' * b' by { assert a' * (b' - b) >= 0; }
  }
}

=== FILE: occupancy.dfy ===
/** Occupancy of a bit grid stated on cell coordinates, and what the
relative-neighbour accessors of BitGrid3D read and write in those terms. The
components that scan a grid cell by cell are specified with these.
 */
module Occupancy {
  import opened Wrappers
  import opened Point3i
  import opened Grid3D
  import opened BitGrid3D

  /** Whether the cell at `(x, y, z)` lies in the grid and is set. */
  predicate Occupied(vg: BitGrid, x: int, y: int, z: int)
    requires WellFormed(vg)
  {
    && 0 <= x < vg.size.x && 0 <= y < vg.size.y && 0 <= z < vg.size.z
    && (IndexInRange(vg.size, Point3i(x, y, z));
        vg.storage.cells[PointUvwToIndex(vg.size, Point3i(x, y, z))])
  }

  /** What `GetRelativePointValue` reports for the cell at `(x, y, z)`: -1
      outside the grid, else whether the cell is set. */
  function Reading(vg: BitGrid, x: int, y: int, z: int): (r: int)
    requires WellFormed(vg)
    ensures r == 1 <==> Occupied(vg, x, y, z)
  {
    if !(0 <= x < vg.size.x && 0 <= y < vg.size.y && 0 <= z < vg.size.z) then -1
    else if Occupied(vg, x, y, z) then 1 else 0
  }

  /** An offset of at most one step along every axis. */
  predicate Unit(rel: Point3i)
  {
    -1 <= rel.x <= 1 && -1 <= rel.y <= 1 && -1 <= rel.z <= 1
  }

  /** The coordinates of cell `i` moved by `rel`. */
  predicate Moved(size: Point3i, i: nat, rel: Point3i, x: int, y: int, z: int)
    requires IsPositiveNonZero(size)
  {
    var p := Uvw(size, i);
    x == p.x + rel.x && y == p.y + rel.y && z == p.z + rel.z
  }

  /** GetRelativePointValue on a unit offset reads the neighbour's cell at
      `(x, y, z)`. */
  lemma ReadIsOccupancy(vg: BitGrid, i: nat, rel: Point3i, x: int, y: int, z: int)
    requires WellFormed(vg) && i < Count(vg) && Unit(rel) && Moved(vg.size, i, rel, x, y, z)
    ensures GetRelativePointValue(vg, i, rel) == Ok(Reading(vg, x, y, z))
  {
    var p := Uvw(vg.size, i);
    var q := Point3i(x, y, z);
    assert Add(p, rel) == Ok(q);
    GetRelativePointValueReadsNeighbour(vg, i, rel);
    if InGrid(q, vg.size) {
      assert Reading(vg, x, y, z) == if vg.storage.cells[PointUvwToIndex(vg.size, q)] then 1 else 0;
    }
  }

  /** Whether cell `k` is the one at `(x, y, z)`. */
  predicate At(size: Point3i, k: nat, x: int, y: int, z: int)
    requires IsPositiveNonZero(size)
  {
    var q := Uvw(size, k);
    q.x == x && q.y == y && q.z == z
  }

  /** SetRelativePointValue on a unit offset writes the neighbour's cell at
      `(x, y, z)` when it lies in the grid, and no other cell. */
  lemma WriteIsAt(g: BitGrid, i: nat, rel: Point3i, x: int, y: int, z: int, v: bool)
    requires WellFormed(g) && i < Count(g) && Unit(rel) && Moved(g.size, i, rel, x, y, z)
    ensures SetRelativePointValue(g, i, rel, v).Ok?
    ensures var h := SetRelativePointValue(g, i, rel, v).value;
            && h.box == g.box && h.voxelSize == g.voxelSize && h.size == g.size && WellFormed(h)
            && forall k :: 0 <= k < Count(g) ==>
                 h.storage.cells[k] == if At(g.size, k, x, y, z) then v else g.storage.cells[k]
  {
    var p := Uvw(g.size, i);
    var q := Point3i(x, y, z);
    assert Add(p, rel) == Ok(q);
    SetRelativePointValueWritesNeighbour(g, i, rel, v);
    var h := SetRelativePointValue(g, i, rel, v).value;
    forall k | 0 <= k < Count(g)
      ensures h.storage.cells[k] == if At(g.size, k, x, y, z) then v else g.storage.cells[k]
    {
      IndexOfCell(g.size, k);
      if InGrid(q, g.size) {
        CellOfIndex(g.size, q);
        assert At(g.size, k, x, y, z) <==> k == PointUvwToIndex(g.size, q);
      } else {
        assert !At(g.size, k, x, y, z);
      }
    }
  }
}

=== FILE: pixel_grid2d.dfy ===
/** Boolean pixel grids (`PixelGrid2D`, PixelGrid2D.cs): a Grid2D over a
`BitArray`. Its count is the length of the bit array, and its accessors are
the bit array's own, so a bad index throws on reads and writes alike.
 */
module PixelGrid2D {
  import opened Wrappers
  import opened Numerics
  import opened Geometry
  import opened Point2i
  import Grid3D
  import opened Grid2D

  type PixelGrid = Grid2<bool>

  /** The bits constructor (PixelGrid2D.cs, lines 21-26): the bit array is
      injected as it is, whatever its length, and a null array is kept as
      null storage. */
  function WithBits(rect: Rectangle, pixelSize: Vec2, bits: Grid3D.Storage<bool>, fd: FloorDivide): (r: Result<PixelGrid>)
    ensures r == Grid2D.New(rect, pixelSize, bits, fd)
  {
    var g :- Initialize(Empty<bool>(), rect, pixelSize, fd);
    Ok(g.(storage := bits))
  }

  /** A null bit array is accepted by the constructor; only a later access
      throws. */
  lemma WithNullBitsFailsLater(rect: Rectangle, pixelSize: Vec2, fd: FloorDivide, i: int)
    requires Extent(rect, pixelSize, fd).Ok?
    ensures WithBits(rect, pixelSize, Grid3D.Null, fd).Ok?
    ensures var g := WithBits(rect, pixelSize, Grid3D.Null, fd).value;
            Count(g) == Err(NullReference) && ValueAt(g, i) == Err(NullReference)
  {
  }

  /** The `(rect, size)` constructor (PixelGrid2D.cs, lines 45-52):
      `new BitArray(SizeUV.SelfProduct(), false)`, which throws for a negative
      length. */
  function New(rect: Rectangle, pixelSize: Vec2, fd: FloorDivide): (r: Result<PixelGrid>)
    ensures r.Ok? <==> Extent(rect, pixelSize, fd).Ok? && SelfProduct(Extent(rect, pixelSize, fd).value) >= 0
    ensures Extent(rect, pixelSize, fd).Ok? && !r.Ok? ==> r.error == ArgumentOutOfRange
    ensures r.Ok? ==> r.value.rect == rect && r.value.pixelSize == pixelSize && InitializedBy(r.value, fd)
    ensures r.Ok? ==> PixelsAllocated(r.value) && forall k :: 0 <= k < |r.value.storage.cells| ==> !r.value.storage.cells[k]
  {
    var g :- Initialize(Empty<bool>(), rect, pixelSize, fd);
    var n := SelfProduct(g.size);
    if n < 0 then Err(ArgumentOutOfRange) else Ok(g.(storage := Grid3D.Cells(seq(n, _ => false))))
  }

  /** A grid holding one bit per pixel of its extent. */
  predicate PixelsAllocated(g: PixelGrid)
  {
    g.storage.Cells? && |g.storage.cells| == SelfProduct(g.size)
  }

  /** `Count` (PixelGrid2D.cs, line 126): the length of the bit array, not the
      product of the extent. */
  function Count(g: PixelGrid): (r: Result<nat>)
    ensures r.Ok? <==> g.storage.Cells?
    ensures r.Ok? ==> r.value == |g.storage.cells|
    ensures r.Err? ==> r.error == NullReference
  {
    match g.storage
    case Null => Err(NullReference)
    case Cells(c) => Ok(|c|)
  }

  /** The count of a grid built on injected bits is the length of the bits,
      whatever the extent: it is the pixel count exactly when the lengths
      agree, so an empty array on a valid extent gives a count of zero. */
  lemma CountIsStorageLength(rect: Rectangle, pixelSize: Vec2, bits: seq<bool>, fd: FloorDivide)
    requires WithBits(rect, pixelSize, Grid3D.Cells(bits), fd).Ok?
    ensures var g := WithBits(rect, pixelSize, Grid3D.Cells(bits), fd).value;
            && Count(g) == Ok(|bits|)
            && (PixelsAllocated(g) <==> |bits| == SelfProduct(g.size))
            && (bits == [] && IsValid(g) ==> Count(g) == Ok(0) && SelfProduct(g.size) > 0)
  {
  }

  /** `ValueAt(int)` (PixelGrid2D.cs, lines 111-114): `BitArray.Get`. */
  function ValueAt(g: PixelGrid, i: int): (r: Result<bool>)
    ensures r.Ok? <==> g.storage.Cells? && 0 <= i < |g.storage.cells|
    ensures r.Ok? ==> r.value == g.storage.cells[i]
    ensures g.storage.Cells? && r.Err? ==> r.error == ArgumentOutOfRange
  {
    Grid3D.ReadCell(Grid3D.BitCells, g.storage, i)
  }

  /** `SetValue(int, bool)` (PixelGrid2D.cs, lines 116-119): `BitArray.Set`,
      which throws for a bad index instead of ignoring it. */
  function SetValue(g: PixelGrid, i: int, v: bool): (r: Result<PixelGrid>)
  {
    match g.storage
    case Null => Err(NullReference)
    case Cells(c) => if 0 <= i < |c| then Ok(g.(storage := Grid3D.Cells(c[i := v]))) else Err(ArgumentOutOfRange)
  }

  /** A write changes exactly index `i`, and fails without effect on a bad
      index. */
  lemma SetValueWritesOneBit(g: PixelGrid, i: int, j: int, v: bool)
    requires g.storage.Cells?
    ensures SetValue(g, i, v).Ok? <==> 0 <= i < |g.storage.cells|
    ensures SetValue(g, i, v).Err? ==> SetValue(g, i, v).error == ArgumentOutOfRange
    ensures SetValue(g, i, v).Ok? ==>
              && SetValue(g, i, v).value.size == g.size
              && ValueAt(SetValue(g, i, v).value, j) == if i == j then Ok(v) else ValueAt(g, j)
  {
  }

  /** `ValueAt(Point2i)` and the point indexer getter (Grid2D.cs, lines 83-86
      and 149-154). */
  function ValueAtPoint(g: PixelGrid, uv: Point2i): Result<bool>
  {
    ValueAt(g, UVIndex(g, uv))
  }

  /** `SetValue(Point2i, value)` and the point indexer setter (Grid2D.cs, lines
      149-154 and 168-171). */
  function SetValueAtPoint(g: PixelGrid, uv: Point2i, v: bool): Result<PixelGrid>
  {
    SetValue(g, UVIndex(g, uv), v)
  }

  /** On a valid grid holding one bit per pixel, writing a pixel changes that
      pixel and no other. */
  lemma SetValueAtPointWritesOnePixel(g: PixelGrid, p: Point2i, q: Point2i, v: bool)
    requires IsValid(g) && PixelsAllocated(g) && InPixelGrid(p, g.size) && InPixelGrid(q, g.size)
    ensures SetValueAtPoint(g, p, v).Ok?
    ensures ValueAtPoint(SetValueAtPoint(g, p, v).value, q) == if p == q then Ok(v) else ValueAtPoint(g, q)
  {
    PixelIndexBijection(g, 0, p);
    PixelIndexBijection(g, 0, q);
  }

  /** The copy constructor (PixelGrid2D.cs, lines 59-73): rectangle, pixel size
      and extent, then a new bit array of the same length filled bit by bit. */
  function Copy(vg: PixelGrid): (r: Result<PixelGrid>)
    ensures r.Ok? <==> vg.storage.Cells?
    ensures r.Err? ==> r.error == NullReference
    ensures r.Ok? ==> r.value == vg
  {
    match vg.storage
    case Null => Err(NullReference)
    case Cells(c) =>
      Ok(Grid2(vg.rect, vg.pixelSize, vg.size, Grid3D.Cells(seq(|c|, i requires 0 <= i < |c| => c[i]))))
  }

  /** The loop `for i < Count: vg[i] = this[i]` of `Clone`: the source bit is
      read, then written to the same index of `dst`. */
  function CopyBits(src: PixelGrid, dst: PixelGrid, i: nat): Result<PixelGrid>
    decreases if src.storage.Cells? then |src.storage.cells| - i else 0
  {
    var n :- Count(src);
    if i >= n then Ok(dst)
    else
      var v :- ValueAt(src, i);
      var d :- SetValue(dst, i, v);
      CopyBits(src, d, i + 1)
  }

  /** `Clone` (PixelGrid2D.cs, lines 85-93): a new grid from the same rectangle
      and pixel size, then every bit of this grid copied. */
  function Clone(g: PixelGrid, fd: FloorDivide): Result<PixelGrid>
  {
    var vg :- New(g.rect, g.pixelSize, fd);
    CopyBits(g, vg, 0)
  }

  lemma {:induction false} CopyBitsCopies(src: PixelGrid, dst: PixelGrid, i: nat)
    requires src.storage.Cells? && dst.storage.Cells?
    requires |dst.storage.cells| == |src.storage.cells| && i <= |src.storage.cells|
    requires dst.storage.cells[..i] == src.storage.cells[..i]
    ensures CopyBits(src, dst, i) == Ok(dst.(storage := src.storage))
    decreases |src.storage.cells| - i
  {
    var c := src.storage.cells;
    if i < |c| {
      var d := dst.storage.cells[i := c[i]];
      assert d[..i + 1] == c[..i + 1] by {
        assert dst.storage.cells[..i] == c[..i];
      }
      CopyBitsCopies(src, dst.(storage := Grid3D.Cells(d)), i + 1);
    } else {
      assert dst.storage.cells == dst.storage.cells[..i] && c == c[..i];
    }
  }

  /** Writing past the end of the destination fails before the loop can
      finish. */
  lemma {:induction false} CopyBitsOverruns(src: PixelGrid, dst: PixelGrid, i: nat)
    requires src.storage.Cells? && dst.storage.Cells?
    requires i <= |dst.storage.cells| < |src.storage.cells|
    ensures CopyBits(src, dst, i) == Err(ArgumentOutOfRange)
    decreases |src.storage.cells| - i
  {
    if i < |dst.storage.cells| {
      var d := dst.storage.cells[i := src.storage.cells[i]];
      CopyBitsOverruns(src, dst.(storage := Grid3D.Cells(d)), i + 1);
    }
  }

  /** The clone of a grid holding one bit per pixel is equal to it; a grid
      with more bits than pixels (an injected array) cannot be cloned. */
  lemma CloneCopiesEveryBit(g: PixelGrid, fd: FloorDivide)
    requires InitializedBy(g, fd) && g.storage.Cells?
    ensures PixelsAllocated(g) ==> Clone(g, fd) == Ok(g)
    ensures SelfProduct(g.size) >= 0 && |g.storage.cells| > SelfProduct(g.size) ==>
              Clone(g, fd) == Err(ArgumentOutOfRange)
  {
    if SelfProduct(g.size) >= 0 {
      var vg := New(g.rect, g.pixelSize, fd).value;
      if PixelsAllocated(g) {
        CopyBitsCopies(g, vg, 0);
      } else if |g.storage.cells| > SelfProduct(g.size) {
        CopyBitsOverruns(g, vg, 0);
      }
    }
  }

  /** `CloneEmpty` (PixelGrid2D.cs, lines 99-102): the same rectangle and pixel
      size, every bit false. */
  function CloneEmpty(g: PixelGrid, fd: FloorDivide): (r: Result<PixelGrid>)
    ensures r.Ok? ==> r.value.rect == g.rect && r.value.pixelSize == g.pixelSize
    ensures r.Ok? ==> PixelsAllocated(r.value) && forall k :: 0 <= k < |r.value.storage.cells| ==> !r.value.storage.cells[k]
    ensures InitializedBy(g, fd) && SelfProduct(g.size) >= 0 ==> r.Ok? && r.value.size == g.size
  {
    New(g.rect, g.pixelSize, fd)
  }
}

=== FILE: point2i.dfy ===
/** Integer pixel positions and pixel-grid sizes (`struct Point2i`, Point2i.cs).

The two-dimensional counterpart of Point3i: `short` components, checked
`object` constructor and arithmetic, unchecked `int[]` constructor and indexer
setter, any-component comparisons.
 */
module Point2i {
  import opened Wrappers
  import opened Numerics
  import MatrixHelper

  datatype Point2i = Point2i(x: Int16, y: Int16)

  /** `ToArray` (Point2i.cs, lines 173-176). */
  function ToArray(p: Point2i): seq<int>
  {
    [p.x, p.y]
  }

  /** Indexer get (Point2i.cs, lines 33-44). */
  function Get(p: Point2i, dim: int): (r: Result<int>)
    ensures r.Ok? <==> 0 <= dim < 2
    ensures r.Ok? ==> r.value == ToArray(p)[dim]
    ensures r.Err? ==> r.error == IndexOutOfRange
  {
    match dim
    case 0 => Ok(p.x)
    case 1 => Ok(p.y)
    case _ => Err(IndexOutOfRange)
  }

  /** Indexer set (Point2i.cs, lines 45-58): the `int` is narrowed unchecked. */
  function Set(p: Point2i, dim: int, value: Int32): Result<Point2i>
  {
    match dim
    case 0 => Ok(p.(x := Wrap16(value)))
    case 1 => Ok(p.(y := Wrap16(value)))
    case _ => Err(IndexOutOfRange)
  }

  lemma GetAfterSet(p: Point2i, d: int, e: int, value: Int32)
    requires 0 <= d < 2
    ensures Set(p, d, value).Ok?
    ensures Get(Set(p, d, value).value, e) == if d == e then Ok(Wrap16(value)) else Get(p, e)
  {
  }

  /** The `object` constructor (Point2i.cs, lines 154-158). */
  function FromInts(x: int, y: int): (r: Result<Point2i>)
    ensures r.Ok? <==> InInt16(x) && InInt16(y)
    ensures r.Ok? ==> ToArray(r.value) == [x, y]
    ensures r.Err? ==> r.error == Overflow
  {
    var px :- ToInt16Checked(x);
    var py :- ToInt16Checked(y);
    Ok(Point2i(px, py))
  }

  /** The `int[]` constructor (Point2i.cs, lines 129-137). */
  function FromArray(v: seq<int>): (r: Result<Point2i>)
    ensures r.Ok? <==> |v| == 2
    ensures r.Ok? ==> forall k :: 0 <= k < 2 ==> ToArray(r.value)[k] == Wrap16(v[k])
  {
    if |v| != 2 then Err(Failure("Vector size should be 2 elements"))
    else Ok(Point2i(Wrap16(v[0]), Wrap16(v[1])))
  }

  /** `operator +` (Point2i.cs, lines 82-85). */
  function Add(p: Point2i, q: Point2i): Result<Point2i>
  {
    FromInts(p.x + q.x, p.y + q.y)
  }

  /** `operator -` (Point2i.cs, lines 71-74). */
  function Sub(p: Point2i, q: Point2i): Result<Point2i>
  {
    FromInts(p.x - q.x, p.y - q.y)
  }

  /** `operator *` by an `int` (Point2i.cs, lines 244-247). */
  function Scale(p: Point2i, i: Int32): Result<Point2i>
  {
    FromInts(Wrap32(p.x * i), Wrap32(p.y * i))
  }

  lemma AddSubInverse(p: Point2i, q: Point2i)
    ensures Add(p, q).Ok? <==> InInt16(p.x + q.x) && InInt16(p.y + q.y)
    ensures Add(p, q).Ok? ==> Sub(Add(p, q).value, q) == Ok(p)
    ensures Add(p, q) == Add(q, p)
  {
  }

  /** `Equals` (Point2i.cs, lines 92-95). */
  function Equals(p: Point2i, q: Point2i): (r: bool)
    ensures r <==> p == q
  {
    p.x == q.x && p.y == q.y
  }

  /** `IsPositive` (Point2i.cs, lines 101-104). */
  predicate IsPositive(p: Point2i) {
    p.x >= 0 && p.y >= 0
  }

  /** `IsPositiveNonZero` (Point2i.cs, lines 110-113). */
  predicate IsPositiveNonZero(p: Point2i) {
    p.x > 0 && p.y > 0
  }

  /** `SelfProduct` (Point2i.cs, lines 164-167), also `ToInt` (lines
      182-185). Two `short`s never overflow an `int`. */
  function SelfProduct(p: Point2i): (r: Int32)
    ensures r == p.x * p.y
  {
    assert -0x8000 * 0x7FFF <= p.x * p.y <= 0x8000 * 0x8000 by {
      Int16ProductBounds(p.x, p.y);
    }
    p.x * p.y
  }

  lemma Int16ProductBounds(a: Int16, b: Int16)
    ensures -0x8000 * 0x7FFF <= a * b <= 0x8000 * 0x8000
  {
    if a >= 0 && b >= 0 {
      MulMonotone(a, b, 0x7FFF, 0x7FFF);
    } else if a < 0 && b < 0 {
      MulMonotone(-(a as int), -(b as int), 0x8000, 0x8000);
      assert a * b == (-(a as int)) * (-(b as int));
    } else if a < 0 {
      MulMonotone(-(a as int), b, 0x8000, 0x7FFF);
      assert a * b == -((-(a as int)) * b);
    } else {
      MulMonotone(a, -(b as int), 0x7FFF, 0x8000);
      assert a * b == -(a * (-(b as int)));
    }
  }

  /** `operator >` (Point2i.cs, lines 286-289). */
  predicate Gt(p: Point2i, q: Point2i) {
    p.x > q.x || p.y > q.y
  }

  /** `operator >=` (Point2i.cs, lines 297-300). */
  predicate Ge(p: Point2i, q: Point2i) {
    p.x >= q.x || p.y >= q.y
  }

  /** `operator <` (Point2i.cs, lines 308-311). */
  predicate Lt(p: Point2i, q: Point2i) {
    p.x < q.x || p.y < q.y
  }

  /** `operator <=` (Point2i.cs, lines 319-322). */
  predicate Le(p: Point2i, q: Point2i) {
    p.x <= q.x || p.y <= q.y
  }

  lemma ComparisonDuality(p: Point2i, q: Point2i)
    ensures Gt(p, q) <==> Lt(q, p)
    ensures Ge(p, q) <==> Le(q, p)
    ensures Ge(p, q) <==> !(p.x < q.x && p.y < q.y)
    ensures Lt(p, q) <==> !(p.x >= q.x && p.y >= q.y)
  {
  }

  /** `operator ^` (Point2i.cs, lines 262-266): `size ^ pt` is
      `pt.Y * size.X + size.Y`. Called as `uv ^ SizeUV` it is the index of
      pixel `uv`, last axis fastest; it never overflows. */
  function Caret(size: Point2i, pt: Point2i): (r: int)
    ensures InInt32(r)
  {
    Int16ProductBounds(pt.y, size.x);
    pt.y * size.x + size.y
  }

  /** `operator %` (Point2i.cs, lines 275-278): the pixel of an index through
      MatrixVector and the unchecked `int[]` constructor. */
  function Mod(size: Point2i, item: Int32): Result<Point2i>
  {
    var v :- MatrixHelper.MatrixVector(item, ToArray(size));
    FromArray(v)
  }

  /** A pixel-grid size with at least one pixel per axis. */
  predicate Fits(size: Point2i) {
    IsPositiveNonZero(size)
  }

  /** The pixel of a non-negative index. */
  function Uv(size: Point2i, i: nat): (p: Point2i)
    requires Fits(size)
    ensures 0 <= p.x < size.x && 0 <= p.y < size.y
  {
    assert MatrixHelper.AllPositive(ToArray(size));
    var d := MatrixHelper.Decompose(i, ToArray(size));
    Point2i(d[0], d[1])
  }

  lemma ProductOfSize(size: Point2i)
    ensures MatrixHelper.Product(ToArray(size)) == size.x * size.y
  {
    var s := ToArray(size);
    assert s[..1] == [size.x] && s[..1][..0] == [];
  }

  lemma ComposeOfPoint(size: Point2i, p: Point2i)
    ensures MatrixHelper.Compose(ToArray(p), ToArray(size)) == Caret(p, size)
  {
    var s := ToArray(size);
    var v := ToArray(p);
    assert s[..1] == [size.x] && s[..1][..0] == [];
    assert v[..1] == [p.x] && v[..1][..0] == [];
    assert MatrixHelper.Compose([p.x], [size.x]) == p.x;
    assert MatrixHelper.Compose(v, s) == p.x * size.y + p.y;
  }

  /** `%` maps every non-negative index to its pixel. */
  lemma ModIsUv(size: Point2i, i: nat)
    requires Fits(size) && i <= INT32_MAX
    ensures Mod(size, i) == Ok(Uv(size, i))
  {
    ProductOfSize(size);
    assert size.x * size.y <= INT32_MAX by { Int16ProductBounds(size.x, size.y); }
    MatrixHelper.MatrixVectorIsDecompose(i, ToArray(size));
  }

  /** `uv ^ size` and `size % i` are inverse bijections between the pixels of
      a grid and `[0, size.X * size.Y)`. */
  lemma PixelIndexRoundTrip(size: Point2i, i: nat, p: Point2i)
    requires Fits(size)
    ensures i < size.x * size.y ==> Caret(Uv(size, i), size) == i
    ensures 0 <= p.x < size.x && 0 <= p.y < size.y ==>
              0 <= Caret(p, size) < size.x * size.y && Uv(size, Caret(p, size)) == p
  {
    var s := ToArray(size);
    assert MatrixHelper.AllPositive(s);
    ProductOfSize(size);
    if i < size.x * size.y {
      MatrixHelper.ComposeDecompose(i, s);
      ComposeOfPoint(size, Uv(size, i));
      assert ToArray(Uv(size, i)) == MatrixHelper.Decompose(i, s);
    }
    if 0 <= p.x < size.x && 0 <= p.y < size.y {
      assert MatrixHelper.InRange(ToArray(p), s);
      ComposeOfPoint(size, p);
      MatrixHelper.DecomposeCompose(ToArray(p), s);
    }
  }
}

=== FILE: point3i.dfy ===
/** Integer grid positions and grid sizes (`struct Point3i`, Point3i.cs).

Components are C# `short`s. The `object` constructor and the arithmetic
operators convert with the checked `Convert.ToInt16` and throw on overflow; the
`int[]` constructor and the indexer setter narrow without a check. The
comparison operators hold when ANY component satisfies the comparison, so they
are not an order. Index arithmetic is 32-bit and wraps.
 */
module Point3i {
  import opened Wrappers
  import opened Numerics
  import MatrixHelper

  datatype Point3i = Point3i(x: Int16, y: Int16, z: Int16)

  const Origin: Point3i := Point3i(0, 0, 0)

  /** `ToArray` (Point3i.cs, lines 190-193). */
  function ToArray(p: Point3i): seq<int>
  {
    [p.x, p.y, p.z]
  }

  /** Indexer get (Point3i.cs, lines 39-51). */
  function Get(p: Point3i, dim: int): (r: Result<int>)
    ensures r.Ok? <==> 0 <= dim < 3
    ensures r.Ok? ==> r.value == ToArray(p)[dim]
    ensures r.Err? ==> r.error == IndexOutOfRange
  {
    match dim
    case 0 => Ok(p.x)
    case 1 => Ok(p.y)
    case 2 => Ok(p.z)
    case _ => Err(IndexOutOfRange)
  }

  /** Indexer set (Point3i.cs, lines 53-69): the `int` is narrowed unchecked. */
  function Set(p: Point3i, dim: int, value: Int32): Result<Point3i>
  {
    match dim
    case 0 => Ok(p.(x := Wrap16(value)))
    case 1 => Ok(p.(y := Wrap16(value)))
    case 2 => Ok(p.(z := Wrap16(value)))
    case _ => Err(IndexOutOfRange)
  }

  /** Setting a component and reading it back yields the narrowed value; the
      other components keep theirs. */
  lemma GetAfterSet(p: Point3i, d: int, e: int, value: Int32)
    requires 0 <= d < 3
    ensures Set(p, d, value).Ok?
    ensures Get(Set(p, d, value).value, e) == if d == e then Ok(Wrap16(value)) else Get(p, e)
  {
  }

  /** The `object` constructor (Point3i.cs, lines 169-175): checked conversion
      of each coordinate. */
  function FromInts(x: int, y: int, z: int): (r: Result<Point3i>)
    ensures r.Ok? <==> InInt16(x) && InInt16(y) && InInt16(z)
    ensures r.Ok? ==> ToArray(r.value) == [x, y, z]
    ensures r.Err? ==> r.error == Overflow
  {
    var px :- ToInt16Checked(x);
    var py :- ToInt16Checked(y);
    var pz :- ToInt16Checked(z);
    Ok(Point3i(px, py, pz))
  }

  /** The `int[]` constructor (Point3i.cs, lines 141-150): exactly three
      elements, each narrowed unchecked. */
  function FromArray(v: seq<int>): (r: Result<Point3i>)
    ensures r.Ok? <==> |v| == 3
    ensures r.Ok? ==> forall k :: 0 <= k < 3 ==> ToArray(r.value)[k] == Wrap16(v[k])
  {
    if |v| != 3 then Err(Failure("Vector size should be 3 elements"))
    else Ok(Point3i(Wrap16(v[0]), Wrap16(v[1]), Wrap16(v[2])))
  }

  lemma FromArrayToArray(p: Point3i)
    ensures FromArray(ToArray(p)) == Ok(p)
  {
  }

  /** `operator +` (Point3i.cs, lines 93-96). */
  function Add(p: Point3i, q: Point3i): Result<Point3i>
  {
    FromInts(p.x + q.x, p.y + q.y, p.z + q.z)
  }

  /** `operator -` (Point3i.cs, lines 82-85). */
  function Sub(p: Point3i, q: Point3i): Result<Point3i>
  {
    FromInts(p.x - q.x, p.y - q.y, p.z - q.z)
  }

  /** `operator *` by an `int` (Point3i.cs, lines 262-265): the products are
      32-bit and wrap before the checked narrowing. */
  function Scale(p: Point3i, i: Int32): Result<Point3i>
  {
    FromInts(Wrap32(p.x * i), Wrap32(p.y * i), Wrap32(p.z * i))
  }

  /** Addition succeeds exactly when no component sum leaves the `short`
      range, and subtracting the same point undoes it. */
  lemma AddSubInverse(p: Point3i, q: Point3i)
    ensures Add(p, q).Ok? <==> InInt16(p.x + q.x) && InInt16(p.y + q.y) && InInt16(p.z + q.z)
    ensures Add(p, q).Ok? ==> Sub(Add(p, q).value, q) == Ok(p)
    ensures Add(p, q) == Add(q, p)
  {
  }

  /** Scaling by one is the identity; scaling by minus one overflows exactly
      when a component is -32768. */
  lemma ScaleByUnit(p: Point3i)
    ensures Scale(p, 1) == Ok(p)
    ensures Scale(p, -1).Err? <==> (p.x == -0x8000 || p.y == -0x8000 || p.z == -0x8000)
  {
  }

  /** `Equals` (Point3i.cs, lines 103-106): componentwise equality. */
  function Equals(p: Point3i, q: Point3i): (r: bool)
    ensures r <==> p == q
  {
    p.x == q.x && p.y == q.y && p.z == q.z
  }

  /** `IsPositive` (Point3i.cs, lines 112-115). */
  predicate IsPositive(p: Point3i) {
    p.x >= 0 && p.y >= 0 && p.z >= 0
  }

  /** `IsPositiveNonZero` (Point3i.cs, lines 121-124). */
  predicate IsPositiveNonZero(p: Point3i) {
    p.x > 0 && p.y > 0 && p.z > 0
  }

  /** `SelfProduct` (Point3i.cs, lines 181-184), also `ToInt` (lines
      200-203): the 32-bit product of the components. */
  function SelfProduct(p: Point3i): (r: Int32)
    ensures InInt32(p.x * p.y * p.z) ==> r == p.x * p.y * p.z
  {
    Wrap32(p.x * p.y * p.z)
  }

  /** `operator >` (Point3i.cs, lines 323-326): some component is greater. */
  predicate Gt(p: Point3i, q: Point3i) {
    p.x > q.x || p.y > q.y || p.z > q.z
  }

  /** `operator >=` (Point3i.cs, lines 334-337). */
  predicate Ge(p: Point3i, q: Point3i) {
    p.x >= q.x || p.y >= q.y || p.z >= q.z
  }

  /** `operator <` (Point3i.cs, lines 345-348). */
  predicate Lt(p: Point3i, q: Point3i) {
    p.x < q.x || p.y < q.y || p.z < q.z
  }

  /** `operator <=` (Point3i.cs, lines 356-359). */
  predicate Le(p: Point3i, q: Point3i) {
    p.x <= q.x || p.y <= q.y || p.z <= q.z
  }

  /** The comparison operators are mirror images of each other and negate the
      all-components comparisons: `p >= q` fails exactly when every component
      of `p` is below that of `q`. */
  lemma ComparisonDuality(p: Point3i, q: Point3i)
    ensures Gt(p, q) <==> Lt(q, p)
    ensures Ge(p, q) <==> Le(q, p)
    ensures Ge(p, q) <==> !(p.x < q.x && p.y < q.y && p.z < q.z)
    ensures Lt(p, q) <==> !(p.x >= q.x && p.y >= q.y && p.z >= q.z)
  {
  }

  /** The comparisons are not an order: two points can each be less than the
      other. */
  lemma ComparisonsAreNotAnOrder(p: Point3i, q: Point3i)
    requires p.x < q.x && q.y < p.y
    ensures Lt(p, q) && Lt(q, p) && Gt(p, q) && Gt(q, p)
    ensures Lt(Point3i(0, 1, 0), Point3i(1, 0, 0)) && Lt(Point3i(1, 0, 0), Point3i(0, 1, 0))
  {
  }

  /** The bounds test of PointInGrid (VoxelGrid3D.cs, lines 94-97) and of the
      relative-point accessors, `!(p < Origin || p >= size)`: every component
      lies in `[0, size)`. */
  function InGrid(p: Point3i, size: Point3i): (r: bool)
    ensures r <==> 0 <= p.x < size.x && 0 <= p.y < size.y && 0 <= p.z < size.z
    ensures r <==> !(Gt(Origin, p) || Ge(p, size))
  {
    !(Lt(p, Origin) || Ge(p, size))
  }

  /** `PointUvwToIndex` (Point3i.cs, lines 294-297) and the obsolete
      `operator ^` (lines 280-283): the index of a cell, last axis fastest, in
      wrapping 32-bit arithmetic. */
  function PointUvwToIndex(size: Point3i, p: Point3i): Int32
  {
    Wrap32(size.z * size.y * p.x + size.z * p.y + p.z)
  }

  /** `IndexToPointUvw` (Point3i.cs, lines 312-315) and the obsolete
      `operator %` (lines 307-310): the cell of an index, through MatrixVector
      and the unchecked `int[]` constructor. */
  function IndexToPointUvw(size: Point3i, index: Int32): Result<Point3i>
  {
    var v :- MatrixHelper.MatrixVector(index, ToArray(size));
    FromArray(v)
  }

  /** A size whose cells can all be indexed: positive, with an exact product
      that fits an `int`. */
  predicate Fits(size: Point3i) {
    IsPositiveNonZero(size) && size.x * size.y * size.z <= INT32_MAX
  }

  /** The number of cells of a size that fits. */
  function CellCount(size: Point3i): (n: nat)
    requires Fits(size)
    ensures n == SelfProduct(size) && n > 0
  {
    MatrixHelper.MulPositive(size.x, size.y);
    MatrixHelper.MulPositive(size.x * size.y, size.z);
    size.x * size.y * size.z
  }

  /** The cell of a non-negative index: its mixed-radix digits. */
  function Uvw(size: Point3i, i: nat): (p: Point3i)
    requires IsPositiveNonZero(size)
    ensures InGrid(p, size)
  {
    assert MatrixHelper.AllPositive(ToArray(size));
    var d := MatrixHelper.Decompose(i, ToArray(size));
    Point3i(d[0], d[1], d[2])
  }

  lemma ProductOfSize(size: Point3i)
    ensures MatrixHelper.Product(ToArray(size)) == size.x * size.y * size.z
  {
    var s := ToArray(size);
    assert s[..2] == [size.x, size.y] && s[..2][..1] == [size.x] && s[..2][..1][..0] == [];
    assert MatrixHelper.Product([size.x]) == size.x;
    assert MatrixHelper.Product([size.x, size.y]) == size.x * size.y;
  }

  lemma ComposeOfPoint(size: Point3i, p: Point3i)
    ensures MatrixHelper.Compose(ToArray(p), ToArray(size)) == size.z * size.y * p.x + size.z * p.y + p.z
  {
    var s := ToArray(size);
    var v := ToArray(p);
    assert s[..2] == [size.x, size.y] && s[..2][..1] == [size.x] && s[..2][..1][..0] == [];
    assert v[..2] == [p.x, p.y] && v[..2][..1] == [p.x] && v[..2][..1][..0] == [];
    assert MatrixHelper.Compose([p.x], [size.x]) == p.x;
    assert MatrixHelper.Compose([p.x, p.y], [size.x, size.y]) == p.x * size.y + p.y;
    assert MatrixHelper.Compose(v, s) == (p.x * size.y + p.y) * size.z + p.z;
  }

  /** For a size that fits, IndexToPointUvw maps every non-negative index to
      its cell. */
  lemma IndexToPointUvwIsUvw(size: Point3i, i: nat)
    requires Fits(size) && i <= INT32_MAX
    ensures IndexToPointUvw(size, i) == Ok(Uvw(size, i))
  {
    ProductOfSize(size);
    MatrixHelper.MatrixVectorIsDecompose(i, ToArray(size));
  }

  /** Every index of a grid that fits names a cell whose index is the same. */
  lemma IndexOfCell(size: Point3i, i: nat)
    requires Fits(size) && i < CellCount(size)
    ensures PointUvwToIndex(size, Uvw(size, i)) == i
  {
    var s := ToArray(size);
    assert MatrixHelper.AllPositive(s);
    ProductOfSize(size);
    MatrixHelper.ComposeDecompose(i, s);
    var p := Uvw(size, i);
    assert ToArray(p) == MatrixHelper.Decompose(i, s);
    ComposeOfPoint(size, p);
  }

  /** Inside a grid that fits, the 32-bit index does not wrap: it is the
      exact mixed-radix number of the cell, below the cell count. */
  lemma IndexIsExact(size: Point3i, p: Point3i)
    requires Fits(size) && InGrid(p, size)
    ensures 0 <= size.z * size.y * p.x + size.z * p.y + p.z < CellCount(size)
    ensures PointUvwToIndex(size, p) == size.z * size.y * p.x + size.z * p.y + p.z
  {
    var zy := size.z * size.y;
    MulMonotone(size.z, p.y, size.z, size.y - 1);
    MulMonotone(zy, p.x, zy, size.x - 1);
    assert size.z * (size.y - 1) == zy - size.z;
    assert zy * (size.x - 1) == zy * size.x - zy;
    assert zy * size.x == size.x * size.y * size.z;
  }

  /** Every cell of a grid that fits has an index in range whose cell is the
      same: PointUvwToIndex and IndexToPointUvw are inverse bijections between
      the cells and `[0, CellCount)`. */
  lemma CellOfIndex(size: Point3i, p: Point3i)
    requires Fits(size) && InGrid(p, size)
    ensures 0 <= PointUvwToIndex(size, p) < CellCount(size)
    ensures Uvw(size, PointUvwToIndex(size, p)) == p
    ensures IndexToPointUvw(size, PointUvwToIndex(size, p)) == Ok(p)
  {
    var s := ToArray(size);
    assert MatrixHelper.AllPositive(s) && MatrixHelper.InRange(ToArray(p), s);
    ProductOfSize(size);
    ComposeOfPoint(size, p);
    MatrixHelper.DecomposeCompose(ToArray(p), s);
    IndexToPointUvwIsUvw(size, PointUvwToIndex(size, p));
  }

  /** The index of a cell of a grid that fits lies in `[0, CellCount)`. */
  lemma IndexInRange(size: Point3i, p: Point3i)
    requires Fits(size) && InGrid(p, size)
    ensures 0 <= PointUvwToIndex(size, p) < CellCount(size)
  {
    CellOfIndex(size, p);
  }
}

=== FILE: scalar_grid3d.dfy ===
/** Grids of single-precision values (`ScalarGrid3D`, ScalarGrid3D.cs).

A `float` is represented by its IEEE-754 bit pattern; the only arithmetic
the grid does on it is the test `value > 0`, which is stated on the pattern.
 */
module ScalarGrid3D {
  import opened Wrappers
  import opened Numerics
  import opened Geometry
  import opened Point3i
  import opened Grid3D

  /** The 32-bit pattern of a `float`. */
  type Bits32 = n: nat | n < 0x1_0000_0000

  datatype Float = Float(bits: Bits32)

  const Zero: Float := Float(0)

  /** `float.NaN` as .NET defines it. */
  const NaN: Float := Float(0xFFC0_0000)

  /** A NaN: all exponent bits set and a non-zero fraction. */
  predicate IsNaN(f: Float)
  {
    (f.bits / 0x80_0000) % 0x100 == 0xFF && f.bits % 0x80_0000 != 0
  }

  /** `f > 0`: the sign bit is clear and the pattern is neither zero nor a
      NaN, i.e. it lies in `(0, +infinity]`. */
  predicate Positive(f: Float)
  {
    0 < f.bits <= 0x7F80_0000
  }

  /** `f > 0` on any pattern: true exactly when the sign bit is clear, the
      pattern is not zero and it is not a NaN. In particular the NaN that
      `GetRelativePointValue` reads outside the grid is not positive. */
  lemma PositiveIsAboveZero(f: Float)
    ensures IsNaN(NaN)
    ensures Positive(f) <==> f.bits < 0x8000_0000 && f != Zero && !IsNaN(f)
  {
    var e := (f.bits / 0x80_0000) % 0x100;
    var frac := f.bits % 0x80_0000;
    assert f.bits == (f.bits / 0x80_0000) * 0x80_0000 + frac;
    if f.bits < 0x8000_0000 {
      assert f.bits / 0x80_0000 < 0x100;
      assert e == f.bits / 0x80_0000;
      if f.bits > 0x7F80_0000 {
        assert e == 0xFF && frac != 0;
      } else if f.bits == 0x7F80_0000 {
        assert frac == 0;
      } else {
        assert e < 0xFF;
      }
    }
  }

  type ScalarGrid = Grid3<Float>

  /** The constructor (ScalarGrid3D.cs, lines 17-21): `new float[Count]`, all
      zero. */
  function New(box: Box, voxelSize: Vec3, fd: FloorDivide): (r: Result<ScalarGrid>)
    ensures r.Ok? <==> Initialize(Empty<Float>(), box, voxelSize, fd).Ok?
    ensures r.Ok? ==> r.value.box == box && r.value.voxelSize == voxelSize && InitializedBy(r.value, fd)
    ensures r.Ok? ==> WellFormed(r.value) && forall k :: 0 <= k < |r.value.storage.cells| ==> r.value.storage.cells[k] == Zero
  {
    var g :- Initialize(Empty<Float>(), box, voxelSize, fd);
    Ok(Allocate(g, Zero))
  }

  /** `GetValue(int)` (ScalarGrid3D.cs, lines 100-103). */
  function GetValue(g: ScalarGrid, i: int): Result<Float>
  {
    ReadCell(FloatCells, g.storage, i)
  }

  /** `SetValue(int, float)` (ScalarGrid3D.cs, lines 89-92). */
  function SetValue(g: ScalarGrid, i: int, v: Float): Result<ScalarGrid>
  {
    var s :- WriteCell(FloatCells, g.storage, i, v);
    Ok(g.(storage := s))
  }

  /** A write changes exactly the one cell; unlike a bit grid, an index outside
      the array throws. */
  lemma SetValueWritesOneCell(g: ScalarGrid, i: int, j: int, v: Float)
    requires g.storage.Cells?
    ensures !(0 <= i < |g.storage.cells|) ==> SetValue(g, i, v) == Err(IndexOutOfRange)
    ensures 0 <= i < |g.storage.cells| ==>
              SetValue(g, i, v).Ok? && GetValue(SetValue(g, i, v).value, j) == if i == j then Ok(v) else GetValue(g, j)
  {
  }

  /** The number of positive values. */
  function CountPositive(s: seq<Float>): (n: nat)
    ensures n <= |s|
  {
    if |s| == 0 then 0 else CountPositive(s[..|s| - 1]) + (if Positive(s[|s| - 1]) then 1 else 0)
  }

  function PositiveIndices(s: seq<Float>): set<int>
  {
    set i | 0 <= i < |s| && Positive(s[i])
  }

  lemma {:induction false} CountPositiveIsCardinality(s: seq<Float>)
    ensures CountPositive(s) == |PositiveIndices(s)|
  {
    if |s| > 0 {
      var n := |s| - 1;
      CountPositiveIsCardinality(s[..n]);
      var before := PositiveIndices(s[..n]);
      assert n !in before;
      if Positive(s[n]) {
        assert PositiveIndices(s) == before + {n};
      } else {
        assert PositiveIndices(s) == before;
      }
    }
  }

  /** The counting loop of VoxelCount, which reads every index below Count. */
  function CountLoop(g: ScalarGrid, i: nat, acc: int): Result<int>
    decreases Count(g) - i
  {
    if i >= Count(g) then Ok(acc)
    else
      var v :- GetValue(g, i);
      CountLoop(g, i + 1, if Positive(v) then acc + 1 else acc)
  }

  /** `VoxelCount` (ScalarGrid3D.cs, lines 33-48): -1 for an invalid grid. */
  function VoxelCount(g: ScalarGrid): (r: Result<int>)
    ensures !IsValid(g) ==> r == Ok(-1)
  {
    if !IsValid(g) then Ok(-1) else CountLoop(g, 0, 0)
  }

  lemma {:induction false} CountLoopCounts(g: ScalarGrid, i: nat)
    requires WellFormed(g) && i <= Count(g)
    ensures CountLoop(g, i, CountPositive(g.storage.cells[..i])) == Ok(CountPositive(g.storage.cells))
    decreases Count(g) - i
  {
    var c := g.storage.cells;
    if i < Count(g) {
      assert c[..i + 1][..i] == c[..i];
      CountLoopCounts(g, i + 1);
    } else {
      assert c[..i] == c;
    }
  }

  /** A valid well-formed grid counts exactly its positive cells. */
  lemma VoxelCountCountsPositiveCells(g: ScalarGrid)
    requires WellFormed(g)
    ensures VoxelCount(g) == Ok(|PositiveIndices(g.storage.cells)|)
  {
    FitsIsValid(g.size);
    CountLoopCounts(g, 0);
    CountPositiveIsCardinality(g.storage.cells);
  }

  /** `GetRelativePointValue` (ScalarGrid3D.cs, lines 56-64): NaN for a
      neighbour outside the grid. */
  function GetRelativePointValue(g: ScalarGrid, i: Int32, rel: Point3i): Result<Float>
  {
    var p :- IndexToPointUvw(g.size, i);
    var pt :- Add(p, rel);
    if Gt(Origin, pt) || Ge(pt, g.size) then Ok(NaN)
    else GetAt(FloatCells, g, pt)
  }

  /** The neighbour's value, or NaN exactly when it is outside the grid. */
  lemma GetRelativePointValueReadsNeighbour(g: ScalarGrid, i: nat, rel: Point3i)
    requires WellFormed(g) && i < Count(g) && Add(Uvw(g.size, i), rel).Ok?
    ensures var q := Add(Uvw(g.size, i), rel).value;
            InGrid(q, g.size) ==> 0 <= PointUvwToIndex(g.size, q) < |g.storage.cells|
    ensures var q := Add(Uvw(g.size, i), rel).value;
            GetRelativePointValue(g, i, rel) ==
              if InGrid(q, g.size) then Ok(g.storage.cells[PointUvwToIndex(g.size, q)]) else Ok(NaN)
  {
    IndexToPointUvwIsUvw(g.size, i);
    var q := Add(Uvw(g.size, i), rel).value;
    if InGrid(q, g.size) {
      CellOfIndex(g.size, q);
    }
  }

  /** `Clone` (ScalarGrid3D.cs, lines 74-82): a new zeroed grid from the same
      box and cell size, then every value copied. */
  function Clone(g: ScalarGrid, fd: FloorDivide): Result<ScalarGrid>
  {
    var vg :- New(g.box, g.voxelSize, fd);
    CopyCells(FloatCells, g, vg, 0)
  }

  /** The clone of a well-formed grid has the same box, cell size, extent and
      values. */
  lemma CloneIsEqualCopy(g: ScalarGrid, fd: FloorDivide)
    requires WellFormed(g) && InitializedBy(g, fd)
    ensures Clone(g, fd) == Ok(g)
  {
    CloneCopiesEveryCell(FloatCells, g, fd, Zero);
  }
}

=== FILE: scan_order.dfy ===
/** The orders in which the limiter's nested loops visit the cells of a grid
(VoxelGridLimiterObsolete.cs): x innermost, then y, with the layers z taken
from the top down or from the bottom up. Each order is the sequence of points
the loops construct.
 */
module ScanOrder {
  import opened Numerics
  import opened Point3i

  /** How often `for (v = 0; v < n; v++)` runs its body. */
  function Iterations(n: int): nat
  {
    if n < 0 then 0 else n
  }

  /** The innermost loop: the points `(0, y, z)` to `(n - 1, y, z)`. */
  function Row(y: Int16, z: Int16, n: nat): (r: seq<Point3i>)
    requires n <= INT16_MAX + 1
    ensures forall p :: p in r <==> p.y == y && p.z == z && 0 <= p.x < n
  {
    if n == 0 then [] else Row(y, z, n - 1) + [Point3i(n - 1, y, z)]
  }

  /** The rows `y = 0` to `n - 1` of layer `z`. */
  function Layer(size: Point3i, z: Int16, n: nat): (r: seq<Point3i>)
    requires n <= Iterations(size.y)
    ensures forall p :: p in r <==> p.z == z && 0 <= p.y < n && 0 <= p.x < size.x
  {
    if n == 0 then [] else Layer(size, z, n - 1) + Row(n - 1, z, Iterations(size.x))
  }

  /** The layers `n - 1` down to `0` (`LimitGrid`, `IncreaseGrid`): a point is
      visited exactly when it lies in one of them, and layers never go up. */
  function TopDown(size: Point3i, n: nat): (r: seq<Point3i>)
    requires n <= Iterations(size.z)
    ensures forall p :: p in r <==> 0 <= p.z < n && 0 <= p.y < size.y && 0 <= p.x < size.x
    ensures forall s, t :: 0 <= s < t < |r| ==> r[s].z >= r[t].z
  {
    if n == 0 then []
    else
      var layer := Layer(size, n - 1, Iterations(size.y));
      var rest := TopDown(size, n - 1);
      assert forall s :: 0 <= s < |layer| ==> layer[s] in layer;
      assert forall s :: 0 <= s < |rest| ==> rest[s] in rest;
      layer + rest
  }

  /** The layers `0` up to `n - 1` (`IncreaseGridFromBottom`): a point is
      visited exactly when it lies in one of them, and layers never go
      down. */
  function BottomUp(size: Point3i, n: nat): (r: seq<Point3i>)
    requires n <= Iterations(size.z)
    ensures forall p :: p in r <==> 0 <= p.z < n && 0 <= p.y < size.y && 0 <= p.x < size.x
    ensures forall s, t :: 0 <= s < t < |r| ==> r[s].z <= r[t].z
  {
    if n == 0 then []
    else
      var rest := BottomUp(size, n - 1);
      var layer := Layer(size, n - 1, Iterations(size.y));
      assert forall s :: 0 <= s < |layer| ==> layer[s] in layer;
      assert forall s :: 0 <= s < |rest| ==> rest[s] in rest;
      rest + layer
  }
}

=== FILE: set_algebra.dfy ===
/** The list components that combine voxel grids: union (VoxelGridUnion.cs),
intersection (VoxelGridIntersect.cs), difference (VoxelGridSubtract.cs) and
exclusive or (VoxelGridExclusive.cs). Each clones the first grid and folds the
others into it in list order.

A component that returns before setting its output yields `None`; an
exception yields an error.
 */
module SetAlgebra {
  import opened Wrappers
  import opened Geometry
  import opened Grid3D
  import opened BitGrid3D
  import VoxelGrid3D

  // ---------------------------------------------------------------- the components

  /** The inner loop of the union (VoxelGridUnion.cs, lines 65-68): each cell
      is or-ed with the other grid's through the indexers; `||` reads the other
      grid only where the cell is false. */
  function UnionCells(out: BitGrid, b: BitGrid, j: nat): Result<BitGrid>
    decreases Count(out) - j
  {
    if j >= Count(out) then Ok(out)
    else
      var x :- GetValue(out, j);
      var v :- if x then Ok(true) else GetValue(b, j);
      var out' :- SetValue(out, j, v);
      UnionCells(out', b, j + 1)
  }

  /** The outer loop of the union (lines 55-70): a grid whose count differs
      from the output's ends the component without an output. */
  function UnionFold(out: BitGrid, grids: seq<BitGrid>, i: nat): Result<Option<BitGrid>>
    decreases |grids| - i
  {
    if i >= |grids| then Ok(Some(out))
    else if Count(out) != Count(grids[i]) then Ok(None)
    else
      var out' :- UnionCells(out, grids[i], 0);
      UnionFold(out', grids, i + 1)
  }

  /** `VoxelGridUnion.SolveInstance` (lines 45-73). */
  function Union(grids: seq<BitGrid>, fd: FloorDivide): Result<Option<BitGrid>>
  {
    if |grids| == 0 then Ok(None)
    else
      var out :- VoxelGrid3D.Clone(grids[0], fd);
      UnionFold(out, grids, 1)
  }

  /** The loop shared by intersection, difference and exclusive or: `And`,
      `Subtract` or `Xor` of each later grid, in order. */
  function Fold(op: BitOp, out: BitGrid, grids: seq<BitGrid>, i: nat): Result<BitGrid>
    decreases |grids| - i
  {
    if i >= |grids| then Ok(out)
    else
      var out' :- Combine(op, out, grids[i]);
      Fold(op, out', grids, i + 1)
  }

  /** The shape of `SolveInstance` in VoxelGridIntersect.cs (lines 45-61),
      VoxelGridSubtract.cs (lines 45-61) and VoxelGridExclusive.cs (lines
      45-61). */
  function FoldAll(op: BitOp, grids: seq<BitGrid>, fd: FloorDivide): Result<Option<BitGrid>>
  {
    if |grids| == 0 then Ok(None)
    else
      var out :- VoxelGrid3D.Clone(grids[0], fd);
      var r :- Fold(op, out, grids, 1);
      Ok(Some(r))
  }

  function Intersect(grids: seq<BitGrid>, fd: FloorDivide): Result<Option<BitGrid>>
  {
    FoldAll(AndOp, grids, fd)
  }

  function Difference(grids: seq<BitGrid>, fd: FloorDivide): Result<Option<BitGrid>>
  {
    FoldAll(SubtractOp, grids, fd)
  }

  function Exclusive(grids: seq<BitGrid>, fd: FloorDivide): Result<Option<BitGrid>>
  {
    FoldAll(XorOp, grids, fd)
  }

  // ---------------------------------------------------------------- reference definitions

  /** Cell `k` of `g`, false where the grid has no such cell. */
  predicate Bit(g: BitGrid, k: int)
  {
    g.storage.Cells? && 0 <= k < |g.storage.cells| && g.storage.cells[k]
  }

  /** Cell `k` of each grid of a list. */
  function Column(grids: seq<BitGrid>, k: int): (col: seq<bool>)
    ensures |col| == |grids|
    ensures forall t :: 0 <= t < |grids| ==> col[t] == Bit(grids[t], k)
  {
    seq(|grids|, t requires 0 <= t < |grids| => Bit(grids[t], k))
  }

  /** `x` combined with each entry of `col`, first to last. */
  function Folded(op: BitOp, x: bool, col: seq<bool>): bool
    decreases |col|
  {
    if |col| == 0 then x else Folded(op, Combined(op, x, col[0]), col[1..])
  }

  /** Every grid of the list holds exactly `Count` cells. */
  predicate AllHoldCount(grids: seq<BitGrid>)
  {
    forall t :: 0 <= t < |grids| ==> HoldsCount(grids[t])
  }

  /** Grid `t` counts a different number of cells than `out`. */
  predicate Mismatch(out: BitGrid, grids: seq<BitGrid>, from: nat)
  {
    exists t :: from <= t < |grids| && Count(grids[t]) != Count(out)
  }

  /** `r` has the shape of `out`, and each cell is `out`'s combined with the
      column of cells of the grids from `from` onward. */
  predicate FoldedFrom(op: BitOp, r: BitGrid, out: BitGrid, grids: seq<BitGrid>, from: nat)
    requires from <= |grids|
  {
    && HoldsCount(r) && r.box == out.box && r.voxelSize == out.voxelSize && r.size == out.size
    && forall k :: 0 <= k < Count(out) ==> r.storage.cells[k] == Folded(op, Bit(out, k), Column(grids[from..], k))
  }

  // ---------------------------------------------------------------- cellwise folds

  lemma {:induction false} UnionCellsOrs(out: BitGrid, b: BitGrid, j: nat)
    requires HoldsCount(out) && HoldsCount(b) && Count(out) == Count(b) && j <= Count(out)
    ensures UnionCells(out, b, j) == Ok(out.(storage := Cells(Zipped(OrOp, out.storage.cells, b.storage.cells, Count(out), j))))
    decreases Count(out) - j
  {
    var a := out.storage.cells;
    var c := b.storage.cells;
    if j < Count(out) {
      var out' := out.(storage := Cells(a[j := a[j] || c[j]]));
      assert SetValue(out, j, a[j] || c[j]) == Ok(out');
      UnionCellsOrs(out', b, j + 1);
      assert Zipped(OrOp, a[j := a[j] || c[j]], c, Count(out), j + 1) == Zipped(OrOp, a, c, Count(out), j);
    } else {
      assert Zipped(OrOp, a, c, Count(out), j) == a;
    }
  }

  /** The union's inner loop is `Or` on grids of equal count. */
  lemma UnionCellsIsOr(out: BitGrid, b: BitGrid)
    requires HoldsCount(out) && HoldsCount(b) && Count(out) == Count(b)
    ensures UnionCells(out, b, 0) == Or(out, b)
  {
    UnionCellsOrs(out, b, 0);
    if Count(out) > 0 {
      CombineLoopZips(OrOp, out.storage.cells, b.storage.cells, Count(out), 0);
    } else {
      assert Zipped(OrOp, out.storage.cells, b.storage.cells, Count(out), 0) == out.storage.cells;
    }
  }

  /** One step of a fold: combining with the next grid moves its cell from
      the column into the accumulated value. */
  lemma FoldStep(op: BitOp, out: BitGrid, grids: seq<BitGrid>, i: nat, r: BitGrid)
    requires i < |grids| && HoldsCount(out) && HoldsCount(grids[i]) && Count(grids[i]) == Count(out)
    requires Combine(op, out, grids[i]) == Ok(r)
    ensures HoldsCount(r) && r.box == out.box && r.voxelSize == out.voxelSize && r.size == out.size
    ensures forall k :: 0 <= k < Count(out) ==> Bit(r, k) == Combined(op, Bit(out, k), Column(grids[i..], k)[0])
    ensures forall k :: 0 <= k < Count(out) ==> Column(grids[i..], k)[1..] == Column(grids[i + 1..], k)
  {
    CombineIsCellwise(op, out, grids[i]);
    forall k | 0 <= k < Count(out)
      ensures Column(grids[i..], k)[1..] == Column(grids[i + 1..], k)
    {
      assert grids[i..][1..] == grids[i + 1..];
    }
  }

  /** A folded result extends by one step. */
  lemma FoldedFromStep(op: BitOp, out: BitGrid, grids: seq<BitGrid>, i: nat, r: BitGrid, res: BitGrid)
    requires i < |grids| && HoldsCount(out) && HoldsCount(grids[i]) && Count(grids[i]) == Count(out)
    requires Combine(op, out, grids[i]) == Ok(r)
    requires FoldedFrom(op, res, r, grids, i + 1)
    ensures FoldedFrom(op, res, out, grids, i)
  {
    FoldStep(op, out, grids, i, r);
    forall k | 0 <= k < Count(out)
      ensures res.storage.cells[k] == Folded(op, Bit(out, k), Column(grids[i..], k))
    {
      assert Bit(r, k) == r.storage.cells[k];
    }
  }

  /** The fold of `And`, `Subtract` or `Xor` fails exactly when a later grid's
      count differs, and otherwise combines every cell with the column. */
  lemma {:induction false} FoldIsCellwise(op: BitOp, out: BitGrid, grids: seq<BitGrid>, i: nat)
    requires i <= |grids| && HoldsCount(out) && AllHoldCount(grids)
    ensures var r := Fold(op, out, grids, i);
            && (r.Err? <==> Mismatch(out, grids, i))
            && (r.Err? ==> r.error == Failure(SIZE_MISMATCH))
            && (r.Ok? ==> FoldedFrom(op, r.value, out, grids, i))
    decreases |grids| - i
  {
    if i < |grids| {
      CombineIsCellwise(op, out, grids[i]);
      if Count(grids[i]) == Count(out) {
        var r := Combine(op, out, grids[i]).value;
        FoldIsCellwise(op, r, grids, i + 1);
        assert Mismatch(r, grids, i + 1) <==> Mismatch(out, grids, i) by {
          if Mismatch(out, grids, i) {
            var t :| i <= t < |grids| && Count(grids[t]) != Count(out);
            assert t != i;
          }
        }
        var res := Fold(op, r, grids, i + 1);
        if res.Ok? {
          FoldedFromStep(op, out, grids, i, r, res.value);
        }
      }
    } else {
      forall k | 0 <= k < Count(out)
        ensures out.storage.cells[k] == Folded(op, Bit(out, k), Column(grids[i..], k))
      {
      }
    }
  }

  /** The union's fold has no output exactly when a later grid's count
      differs, and otherwise ors every cell with the column. */
  lemma {:induction false} UnionFoldIsCellwise(out: BitGrid, grids: seq<BitGrid>, i: nat)
    requires i <= |grids| && HoldsCount(out) && AllHoldCount(grids)
    ensures var r := UnionFold(out, grids, i);
            && r.Ok?
            && (r.value.None? <==> Mismatch(out, grids, i))
            && (r.value.Some? ==> FoldedFrom(OrOp, r.value.value, out, grids, i))
    decreases |grids| - i
  {
    if i < |grids| {
      if Count(grids[i]) == Count(out) {
        UnionCellsIsOr(out, grids[i]);
        CombineIsCellwise(OrOp, out, grids[i]);
        var r := Combine(OrOp, out, grids[i]).value;
        UnionFoldIsCellwise(r, grids, i + 1);
        assert Mismatch(r, grids, i + 1) <==> Mismatch(out, grids, i) by {
          if Mismatch(out, grids, i) {
            var t :| i <= t < |grids| && Count(grids[t]) != Count(out);
            assert t != i;
          }
        }
        var res := UnionFold(r, grids, i + 1).value;
        if res.Some? {
          FoldedFromStep(OrOp, out, grids, i, r, res.value);
        }
      }
    } else {
      forall k | 0 <= k < Count(out)
        ensures out.storage.cells[k] == Folded(OrOp, Bit(out, k), Column(grids[i..], k))
      {
      }
    }
  }

  // ---------------------------------------------------------------- the folds in closed form

  lemma {:induction false} FoldedAnd(x: bool, col: seq<bool>)
    ensures Folded(AndOp, x, col) <==> x && forall t :: 0 <= t < |col| ==> col[t]
    decreases |col|
  {
    if |col| > 0 {
      FoldedAnd(x && col[0], col[1..]);
      assert forall t :: 1 <= t < |col| ==> col[t] == col[1..][t - 1];
    }
  }

  lemma {:induction false} FoldedOr(x: bool, col: seq<bool>)
    ensures Folded(OrOp, x, col) <==> x || exists t :: 0 <= t < |col| && col[t]
    decreases |col|
  {
    if |col| > 0 {
      FoldedOr(x || col[0], col[1..]);
      assert forall t :: 1 <= t < |col| ==> col[t] == col[1..][t - 1];
    }
  }

  lemma {:induction false} FoldedSubtract(x: bool, col: seq<bool>)
    ensures Folded(SubtractOp, x, col) <==> x && !exists t :: 0 <= t < |col| && col[t]
    decreases |col|
  {
    if |col| > 0 {
      FoldedSubtract(x && !col[0], col[1..]);
      assert forall t :: 1 <= t < |col| ==> col[t] == col[1..][t - 1];
    }
  }

  /** Exclusive or leaves a cell set exactly when it and the column hold an odd
      number of set cells between them. */
  lemma {:induction false} FoldedXor(x: bool, col: seq<bool>)
    ensures Folded(XorOp, x, col) <==> (x != (CountTrue(col) % 2 == 1))
    decreases |col|
  {
    if |col| > 0 {
      FoldedXor(x != col[0], col[1..]);
      assert col == [col[0]] + col[1..];
      CountTrueAppend([col[0]], col[1..]);
      assert CountTrue([col[0]]) == CountTrue([]) + (if col[0] then 1 else 0);
    }
  }

  /** Folding the later grids into the first grid's cell is the parity of
      the whole column. */
  lemma ColumnParity(grids: seq<BitGrid>, k: int)
    requires |grids| > 0
    ensures Folded(XorOp, Bit(grids[0], k), Column(grids[1..], k)) <==> CountTrue(Column(grids, k)) % 2 == 1
  {
    hide Folded, Column, Bit;
    var col := Column(grids, k);
    FoldedXor(Bit(grids[0], k), col[1..]);
    assert col[1..] == Column(grids[1..], k);
    assert col == [col[0]] + col[1..];
    CountTrueAppend([col[0]], col[1..]);
    assert CountTrue([col[0]]) == CountTrue([]) + (if col[0] then 1 else 0);
  }

  // ---------------------------------------------------------------- component contracts

  /** Well-formed input lists: the first grid built by the initializer the
      clone repeats, every grid holding exactly its count of cells. */
  predicate Inputs(grids: seq<BitGrid>, fd: FloorDivide)
  {
    && |grids| > 0 && WellFormed(grids[0]) && InitializedBy(grids[0], fd)
    && AllHoldCount(grids)
  }

  /** `r` has the first grid's shape. */
  predicate ShapedLike(r: BitGrid, g: BitGrid)
  {
    HoldsCount(r) && r.box == g.box && r.voxelSize == g.voxelSize && r.size == g.size
  }

  /** The union: no output for an empty list or when some grid's count
      differs from the first; otherwise a cell is set exactly when it is set
      in some grid of the list. */
  lemma UnionIsAnyOf(grids: seq<BitGrid>, fd: FloorDivide)
    requires |grids| == 0 || Inputs(grids, fd)
    ensures Union(grids, fd).Ok?
    ensures Union(grids, fd).value.Some? <==> |grids| > 0 && !Mismatch(grids[0], grids, 1)
    ensures Union(grids, fd).value.Some? ==>
              var r := Union(grids, fd).value.value;
              && ShapedLike(r, grids[0])
              && forall k :: 0 <= k < Count(r) ==> (r.storage.cells[k] <==> exists t :: 0 <= t < |grids| && Bit(grids[t], k))
  {
    if |grids| > 0 {
      VoxelGrid3D.CloneIsEqualCopy(grids[0], fd);
      UnionFoldIsCellwise(grids[0], grids, 1);
      var res := Union(grids, fd).value;
      if res.Some? {
        forall k | 0 <= k < Count(res.value)
          ensures res.value.storage.cells[k] <==> exists t :: 0 <= t < |grids| && Bit(grids[t], k)
        {
          hide Folded, Column;
          var col := Column(grids[1..], k);
          FoldedOr(Bit(grids[0], k), col);
          if exists t :: 0 <= t < |grids| && Bit(grids[t], k) {
            var t :| 0 <= t < |grids| && Bit(grids[t], k);
            if t > 0 {
              assert col[t - 1];
            }
          }
        }
      }
    }
  }

  /** The intersection: no output for an empty list, an error when some
      grid's count differs from the first, and otherwise a cell is set exactly
      when it is set in every grid of the list. */
  lemma IntersectIsAllOf(grids: seq<BitGrid>, fd: FloorDivide)
    requires |grids| == 0 || Inputs(grids, fd)
    ensures |grids| == 0 ==> Intersect(grids, fd) == Ok(None)
    ensures |grids| > 0 ==>
              var r := Intersect(grids, fd);
              && (r.Err? <==> Mismatch(grids[0], grids, 1))
              && (r.Err? ==> r.error == Failure(SIZE_MISMATCH))
              && (r.Ok? ==>
                    && r.value.Some? && ShapedLike(r.value.value, grids[0])
                    && forall k :: 0 <= k < Count(grids[0]) ==>
                         (r.value.value.storage.cells[k] <==> forall t :: 0 <= t < |grids| ==> Bit(grids[t], k)))
  {
    if |grids| > 0 {
      VoxelGrid3D.CloneIsEqualCopy(grids[0], fd);
      FoldIsCellwise(AndOp, grids[0], grids, 1);
      var r := Intersect(grids, fd);
      if r.Ok? {
        forall k | 0 <= k < Count(grids[0])
          ensures r.value.value.storage.cells[k] <==> forall t :: 0 <= t < |grids| ==> Bit(grids[t], k)
        {
          hide Folded, Column;
          var col := Column(grids[1..], k);
          FoldedAnd(Bit(grids[0], k), col);
          if !forall t :: 0 <= t < |grids| ==> Bit(grids[t], k) {
            var t :| 0 <= t < |grids| && !Bit(grids[t], k);
            if t > 0 {
              assert !col[t - 1];
            }
          }
        }
      }
    }
  }

  /** The difference: no output for an empty list, an error when some grid's
      count differs from the first, and otherwise a cell is set exactly when
      it is set in the first grid and in none of the others. */
  lemma DifferenceIsFirstLessRest(grids: seq<BitGrid>, fd: FloorDivide)
    requires |grids| == 0 || Inputs(grids, fd)
    ensures |grids| == 0 ==> Difference(grids, fd) == Ok(None)
    ensures |grids| > 0 ==>
              var r := Difference(grids, fd);
              && (r.Err? <==> Mismatch(grids[0], grids, 1))
              && (r.Err? ==> r.error == Failure(SIZE_MISMATCH))
              && (r.Ok? ==>
                    && r.value.Some? && ShapedLike(r.value.value, grids[0])
                    && forall k :: 0 <= k < Count(grids[0]) ==>
                         (r.value.value.storage.cells[k] <==> Bit(grids[0], k) && forall t :: 1 <= t < |grids| ==> !Bit(grids[t], k)))
  {
    if |grids| > 0 {
      VoxelGrid3D.CloneIsEqualCopy(grids[0], fd);
      FoldIsCellwise(SubtractOp, grids[0], grids, 1);
      var r := Difference(grids, fd);
      if r.Ok? {
        forall k | 0 <= k < Count(grids[0])
          ensures r.value.value.storage.cells[k] <==> Bit(grids[0], k) && forall t :: 1 <= t < |grids| ==> !Bit(grids[t], k)
        {
          hide Folded, Column;
          var col := Column(grids[1..], k);
          FoldedSubtract(Bit(grids[0], k), col);
          if exists t :: 1 <= t < |grids| && Bit(grids[t], k) {
            var t :| 1 <= t < |grids| && Bit(grids[t], k);
            assert col[t - 1];
          }
        }
      }
    }
  }

  /** Exclusive or: no output for an empty list, an error when some grid's
      count differs from the first, and otherwise a cell is set exactly when
      an odd number of the grids set it. */
  lemma ExclusiveIsParity(grids: seq<BitGrid>, fd: FloorDivide)
    requires |grids| == 0 || Inputs(grids, fd)
    ensures |grids| == 0 ==> Exclusive(grids, fd) == Ok(None)
    ensures |grids| > 0 ==>
              var r := Exclusive(grids, fd);
              && (r.Err? <==> Mismatch(grids[0], grids, 1))
              && (r.Err? ==> r.error == Failure(SIZE_MISMATCH))
              && (r.Ok? ==>
                    && r.value.Some? && ShapedLike(r.value.value, grids[0])
                    && forall k :: 0 <= k < Count(grids[0]) ==>
                         (r.value.value.storage.cells[k] <==> CountTrue(Column(grids, k)) % 2 == 1))
  {
    if |grids| > 0 {
      VoxelGrid3D.CloneIsEqualCopy(grids[0], fd);
      FoldIsCellwise(XorOp, grids[0], grids, 1);
      var r := Exclusive(grids, fd);
      if r.Ok? {
        forall k | 0 <= k < Count(grids[0])
          ensures r.value.value.storage.cells[k] <==> CountTrue(Column(grids, k)) % 2 == 1
        {
          ColumnParity(grids, k);
        }
      }
    }
  }
}

=== FILE: statistics.dfy ===
/** The surface counts of a voxel grid (`VoxelGridStatistics`,
VoxelGridStatistics.cs): for every occupied cell, each open side is a facade,
an open top is a terrace, an empty cell below is an overhang and the ground
below is a footprint.

The areas and the porosity are floating-point and are not modelled; the
counters are.
 */
module Statistics {
  import opened Wrappers
  import opened Numerics
  import opened Point3i
  import opened Grid3D
  import opened BitGrid3D
  import opened Occupancy

  /** The neighbour offsets `f1` to `f4`, `t1` and `tr` of the component. */
  const F1: Point3i := Point3i(1, 0, 0)
  const F2: Point3i := Point3i(0, 1, 0)
  const F3: Point3i := Point3i(-1, 0, 0)
  const F4: Point3i := Point3i(0, -1, 0)
  const T1: Point3i := Point3i(0, 0, 1)
  const TR: Point3i := Point3i(0, 0, -1)

  /** The four counters `facade`, `terraces`, `trusses` (output "Overhang")
      and `floor` (output "Footprint"). */
  datatype Tally = Tally(facade: int, terraces: int, overhang: int, footprint: int)

  const NoSurfaces: Tally := Tally(0, 0, 0, 0)

  function Plus(a: Tally, b: Tally): Tally
  {
    Tally(a.facade + b.facade, a.terraces + b.terraces, a.overhang + b.overhang, a.footprint + b.footprint)
  }

  /** One for a side whose neighbour does not read as set: empty (0) or
      outside the grid (-1). */
  function Open(v: int): int
  {
    if v != 1 then 1 else 0
  }

  /** The body of the loop for an occupied cell `i` (lines 81-117): six
      neighbour reads. The source reads `tr` twice; both reads see the same
      grid, so it is read once here. */
  function CellTally(vg: BitGrid, i: Int32): Result<Tally>
  {
    var v1 :- GetRelativePointValue(vg, i, F1);
    var v2 :- GetRelativePointValue(vg, i, F2);
    var v3 :- GetRelativePointValue(vg, i, F3);
    var v4 :- GetRelativePointValue(vg, i, F4);
    var up :- GetRelativePointValue(vg, i, T1);
    var down :- GetRelativePointValue(vg, i, TR);
    Ok(Tally(Open(v1) + Open(v2) + Open(v3) + Open(v4), Open(up),
             if down == 0 then 1 else 0, if down == -1 then 1 else 0))
  }

  /** The loop `for i < vg.Count` (lines 76-118): an empty cell is skipped. */
  function TallyLoop(vg: BitGrid, i: nat, acc: Tally): Result<Tally>
    decreases Count(vg) - i
  {
    if i >= Count(vg) then Ok(acc)
    else
      var v :- GetValue(vg, i);
      if !v then TallyLoop(vg, i + 1, acc)
      else
        var t :- CellTally(vg, i);
        TallyLoop(vg, i + 1, Plus(acc, t))
  }

  /** The integer outputs of the component. */
  datatype Statistics = Statistics(surfaces: int, facade: int, terraces: int, overhang: int,
                                   footprint: int, voxelCount: int, voidCount: int)

  /** `SolveInstance` (VoxelGridStatistics.cs, lines 52-127), without the
      areas and the porosity. */
  function SolveStatistics(vg: BitGrid): (r: Result<Statistics>)
    ensures r.Ok? ==> r.value.voxelCount + r.value.voidCount == Count(vg)
  {
    var t :- TallyLoop(vg, 0, NoSurfaces);
    var n := CountNonZero(vg);
    Ok(Statistics(t.facade + t.terraces + t.footprint + t.overhang, t.facade, t.terraces,
                  t.overhang, t.footprint, n, Count(vg) - n))
  }

  // ---------------------------------------------------------------- reference

  function Exposed(vg: BitGrid, x: int, y: int, z: int): int
    requires WellFormed(vg)
  {
    if Occupied(vg, x, y, z) then 0 else 1
  }

  /** What cell `i` contributes, stated on coordinates: its open sides and
      top, an overhang when it is above the bottom layer with nothing under
      it, a footprint when it is in the bottom layer. */
  function ExpectedCell(vg: BitGrid, i: nat): Tally
    requires WellFormed(vg) && i < Count(vg)
  {
    if !vg.storage.cells[i] then NoSurfaces
    else
      var p := Uvw(vg.size, i);
      Tally(Exposed(vg, p.x + 1, p.y, p.z) + Exposed(vg, p.x, p.y + 1, p.z)
              + Exposed(vg, p.x - 1, p.y, p.z) + Exposed(vg, p.x, p.y - 1, p.z),
            Exposed(vg, p.x, p.y, p.z + 1),
            if p.z > 0 && !Occupied(vg, p.x, p.y, p.z - 1) then 1 else 0,
            if p.z == 0 then 1 else 0)
  }

  /** The contributions of the cells below `n`. */
  function Expected(vg: BitGrid, n: nat): Tally
    requires WellFormed(vg) && n <= Count(vg)
  {
    if n == 0 then NoSurfaces else Plus(Expected(vg, n - 1), ExpectedCell(vg, n - 1))
  }

  /** The counters an occupied cell adds, from its six neighbour readings. */
  function TallyOf(r1: int, r2: int, r3: int, r4: int, up: int, down: int): Tally
  {
    Tally(Open(r1) + Open(r2) + Open(r3) + Open(r4), Open(up),
          if down == 0 then 1 else 0, if down == -1 then 1 else 0)
  }

  lemma CellTallyOfReadings(vg: BitGrid, i: Int32, r1: int, r2: int, r3: int, r4: int, up: int, down: int)
    requires GetRelativePointValue(vg, i, F1) == Ok(r1) && GetRelativePointValue(vg, i, F2) == Ok(r2)
    requires GetRelativePointValue(vg, i, F3) == Ok(r3) && GetRelativePointValue(vg, i, F4) == Ok(r4)
    requires GetRelativePointValue(vg, i, T1) == Ok(up) && GetRelativePointValue(vg, i, TR) == Ok(down)
    ensures CellTally(vg, i) == Ok(TallyOf(r1, r2, r3, r4, up, down))
  {
    hide GetRelativePointValue;
  }

  /** The six reads of a cell give the readings of its neighbours. */
  lemma CellTallyReadsNeighbours(vg: BitGrid, i: nat)
    requires WellFormed(vg) && i < Count(vg)
    ensures var p := Uvw(vg.size, i);
            CellTally(vg, i) ==
              Ok(TallyOf(Reading(vg, p.x + 1, p.y, p.z), Reading(vg, p.x, p.y + 1, p.z),
                         Reading(vg, p.x - 1, p.y, p.z), Reading(vg, p.x, p.y - 1, p.z),
                         Reading(vg, p.x, p.y, p.z + 1), Reading(vg, p.x, p.y, p.z - 1)))
  {
    var p := Uvw(vg.size, i);
    var r1, r2 := Reading(vg, p.x + 1, p.y, p.z), Reading(vg, p.x, p.y + 1, p.z);
    var r3, r4 := Reading(vg, p.x - 1, p.y, p.z), Reading(vg, p.x, p.y - 1, p.z);
    var up, down := Reading(vg, p.x, p.y, p.z + 1), Reading(vg, p.x, p.y, p.z - 1);
    ReadIsOccupancy(vg, i, F1, p.x + 1, p.y, p.z);
    ReadIsOccupancy(vg, i, F2, p.x, p.y + 1, p.z);
    ReadIsOccupancy(vg, i, F3, p.x - 1, p.y, p.z);
    ReadIsOccupancy(vg, i, F4, p.x, p.y - 1, p.z);
    ReadIsOccupancy(vg, i, T1, p.x, p.y, p.z + 1);
    ReadIsOccupancy(vg, i, TR, p.x, p.y, p.z - 1);
    CellTallyOfReadings(vg, i, r1, r2, r3, r4, up, down);
  }

  /** A side reads as open exactly when it is exposed. */
  lemma OpenIsExposed(vg: BitGrid, x: int, y: int, z: int)
    requires WellFormed(vg)
    ensures Open(Reading(vg, x, y, z)) == Exposed(vg, x, y, z)
  {
  }

  /** Below a cell of the grid the reading is -1 exactly in the bottom layer
      and 0 exactly over an empty cell. */
  lemma ReadingBelow(vg: BitGrid, x: int, y: int, z: int)
    requires WellFormed(vg) && 0 <= x < vg.size.x && 0 <= y < vg.size.y && 0 <= z < vg.size.z
    ensures Reading(vg, x, y, z - 1) == -1 <==> z == 0
    ensures Reading(vg, x, y, z - 1) == 0 <==> z > 0 && !Occupied(vg, x, y, z - 1)
  {
  }

  /** The contribution of an occupied cell, on the coordinates of the
      cell. */
  lemma ExpectedOccupiedCell(vg: BitGrid, i: nat)
    requires WellFormed(vg) && i < Count(vg) && vg.storage.cells[i]
    ensures var p := Uvw(vg.size, i);
            ExpectedCell(vg, i) ==
              Tally(Exposed(vg, p.x + 1, p.y, p.z) + Exposed(vg, p.x, p.y + 1, p.z)
                      + Exposed(vg, p.x - 1, p.y, p.z) + Exposed(vg, p.x, p.y - 1, p.z),
                    Exposed(vg, p.x, p.y, p.z + 1),
                    if p.z > 0 && !Occupied(vg, p.x, p.y, p.z - 1) then 1 else 0,
                    if p.z == 0 then 1 else 0)
  {
    hide Uvw, Exposed, Occupied;
  }

  /** The readings around an occupied cell give its reference
      contribution. */
  lemma ReadingsAreExpected(vg: BitGrid, i: nat)
    requires WellFormed(vg) && i < Count(vg) && vg.storage.cells[i]
    ensures var p := Uvw(vg.size, i);
            TallyOf(Reading(vg, p.x + 1, p.y, p.z), Reading(vg, p.x, p.y + 1, p.z),
                    Reading(vg, p.x - 1, p.y, p.z), Reading(vg, p.x, p.y - 1, p.z),
                    Reading(vg, p.x, p.y, p.z + 1), Reading(vg, p.x, p.y, p.z - 1))
              == ExpectedCell(vg, i)
  {
    hide Uvw, Reading, Exposed, Occupied, ExpectedCell, Open;
    var p := Uvw(vg.size, i);
    ExpectedOccupiedCell(vg, i);
    OpenIsExposed(vg, p.x + 1, p.y, p.z);
    OpenIsExposed(vg, p.x, p.y + 1, p.z);
    OpenIsExposed(vg, p.x - 1, p.y, p.z);
    OpenIsExposed(vg, p.x, p.y - 1, p.z);
    OpenIsExposed(vg, p.x, p.y, p.z + 1);
    ReadingBelow(vg, p.x, p.y, p.z);
  }

  /** The six reads of an occupied cell give its reference contribution. */
  lemma CellTallyIsExpected(vg: BitGrid, i: nat)
    requires WellFormed(vg) && i < Count(vg) && vg.storage.cells[i]
    ensures CellTally(vg, i) == Ok(ExpectedCell(vg, i))
  {
    CellTallyReadsNeighbours(vg, i);
    ReadingsAreExpected(vg, i);
  }

  /** One iteration of the loop adds the reference contribution of cell
      `i`. */
  lemma TallyStep(vg: BitGrid, i: nat)
    requires WellFormed(vg) && i < Count(vg)
    ensures TallyLoop(vg, i, Expected(vg, i)) == TallyLoop(vg, i + 1, Expected(vg, i + 1))
  {
    var acc := Expected(vg, i);
    assert GetValue(vg, i) == Ok(vg.storage.cells[i]);
    if vg.storage.cells[i] {
      CellTallyIsExpected(vg, i);
    } else {
      assert Plus(acc, ExpectedCell(vg, i)) == acc;
    }
  }

  lemma TallyLoopDone(vg: BitGrid, acc: Tally)
    requires WellFormed(vg)
    ensures TallyLoop(vg, Count(vg), acc) == Ok(acc)
  {
  }

  lemma {:induction false} TallyLoopIsExpected(vg: BitGrid, i: nat)
    requires WellFormed(vg) && i <= Count(vg)
    ensures TallyLoop(vg, i, Expected(vg, i)) == Ok(Expected(vg, Count(vg)))
    decreases Count(vg) - i
  {
    hide *;
    if i < Count(vg) {
      TallyStep(vg, i);
      TallyLoopIsExpected(vg, i + 1);
    } else {
      TallyLoopDone(vg, Expected(vg, i));
    }
  }

  /** Each occupied cell contributes at most four facades, one terrace and
      one of overhang and footprint; an empty cell contributes nothing. */
  lemma {:induction false} ExpectedIsBounded(vg: BitGrid, n: nat)
    requires WellFormed(vg) && n <= Count(vg)
    ensures var t, k := Expected(vg, n), CountTrue(vg.storage.cells[..n]);
            && 0 <= t.facade <= 4 * k && 0 <= t.terraces <= k
            && 0 <= t.overhang && 0 <= t.footprint && t.overhang + t.footprint <= k
  {
    if n > 0 {
      var c := vg.storage.cells;
      assert c[..n][..n - 1] == c[..n - 1];
      ExpectedIsBounded(vg, n - 1);
    }
  }

  /** The cells holding false. */
  function FalseIndices(s: seq<bool>): set<int>
  {
    set i | 0 <= i < |s| && !s[i]
  }

  lemma {:induction false} FalseIndicesComplement(s: seq<bool>)
    ensures |TrueIndices(s)| + |FalseIndices(s)| == |s|
  {
    if |s| > 0 {
      var n := |s| - 1;
      FalseIndicesComplement(s[..n]);
      assert n !in TrueIndices(s[..n]) && n !in FalseIndices(s[..n]);
      if s[n] {
        assert TrueIndices(s) == TrueIndices(s[..n]) + {n};
        assert FalseIndices(s) == FalseIndices(s[..n]);
      } else {
        assert TrueIndices(s) == TrueIndices(s[..n]);
        assert FalseIndices(s) == FalseIndices(s[..n]) + {n};
      }
    }
  }

  /** On a well-formed grid the component succeeds and reports the reference
      counts: the surfaces are their sum, the voxel count the set cells and
      the void count the empty ones. */
  lemma StatisticsAreSurfaceCounts(vg: BitGrid)
    requires WellFormed(vg)
    ensures var t := Expected(vg, Count(vg));
            SolveStatistics(vg) ==
              Ok(Statistics(t.facade + t.terraces + t.overhang + t.footprint, t.facade, t.terraces,
                            t.overhang, t.footprint, |TrueIndices(vg.storage.cells)|,
                            |FalseIndices(vg.storage.cells)|))
  {
    assert Expected(vg, 0) == NoSurfaces;
    hide TallyLoop, Expected;
    TallyLoopIsExpected(vg, 0);
    FalseIndicesComplement(vg.storage.cells);
  }

  /** Every surface count is bounded by the number of voxels: at most four
      facades and one terrace per voxel, and at most one of overhang and
      footprint. */
  lemma SurfacesAreBoundedByVoxels(vg: BitGrid)
    requires WellFormed(vg)
    ensures SolveStatistics(vg).Ok?
    ensures var s := SolveStatistics(vg).value;
            && 0 <= s.facade <= 4 * s.voxelCount && 0 <= s.terraces <= s.voxelCount
            && 0 <= s.overhang && 0 <= s.footprint && s.overhang + s.footprint <= s.voxelCount
  {
    StatisticsAreSurfaceCounts(vg);
    assert CountTrue(vg.storage.cells[..Count(vg)]) == |TrueIndices(vg.storage.cells)| by {
      assert vg.storage.cells[..Count(vg)] == vg.storage.cells;
      CountTrueIsCardinality(vg.storage.cells);
    }
    ExpectedIsBounded(vg, Count(vg));
  }
}

=== FILE: voxel_grid3d.dfy ===
/** Voxel grids (`VoxelGrid3D`, VoxelGrid3D.cs): a bit grid with constructors
that allocate, inject or copy its storage, a deep clone and an empty clone.
 */
module VoxelGrid3D {
  import opened Wrappers
  import opened Numerics
  import opened Geometry
  import opened Point3i
  import opened Grid3D
  import opened BitGrid3D

  /** The `(box, size)` constructor (VoxelGrid3D.cs, lines 31-37): one false
      cell per cell of the extent. */
  function New(box: Box, voxelSize: Vec3, fd: FloorDivide): (r: Result<BitGrid>)
    ensures r.Ok? <==> Initialize(Empty<bool>(), box, voxelSize, fd).Ok?
    ensures r.Ok? ==> r.value.box == box && r.value.voxelSize == voxelSize && InitializedBy(r.value, fd)
    ensures r.Ok? ==> WellFormed(r.value) && CountNonZero(r.value) == 0
  {
    var g :- Initialize(Empty<bool>(), box, voxelSize, fd);
    var r := Allocate(g, false);
    assert TrueIndices(r.storage.cells) == {};
    Ok(r)
  }

  /** The `(box, size, bits)` constructor (VoxelGrid3D.cs, lines 20-24): the
      bits are taken as they are, whatever their length, and a null array is
      kept as null storage. */
  function WithBits(box: Box, voxelSize: Vec3, bits: Storage<bool>, fd: FloorDivide): (r: Result<BitGrid>)
    ensures r.Ok? <==> Initialize(Empty<bool>(), box, voxelSize, fd).Ok?
    ensures r.Ok? ==> r.value.box == box && r.value.voxelSize == voxelSize && InitializedBy(r.value, fd)
    ensures r.Ok? ==> r.value.storage == bits
  {
    var g :- Initialize(Empty<bool>(), box, voxelSize, fd);
    Ok(g.(storage := bits))
  }

  /** Injected bits need not match the extent: a grid can hold fewer cells
      than it counts. */
  lemma WithBitsSkipsLengthCheck(box: Box, voxelSize: Vec3, fd: FloorDivide)
    requires New(box, voxelSize, fd).Ok?
    ensures WithBits(box, voxelSize, Cells([]), fd).Ok?
    ensures !WellFormed(WithBits(box, voxelSize, Cells([]), fd).value)
  {
  }

  /** A null bit array is accepted by the constructor; only a later access
      throws. */
  lemma WithNullBitsFailsLater(box: Box, voxelSize: Vec3, fd: FloorDivide, i: int)
    requires New(box, voxelSize, fd).Ok?
    ensures WithBits(box, voxelSize, Null, fd).Ok?
    ensures var g := WithBits(box, voxelSize, Null, fd).value;
            GetValue(g, i) == Err(NullReference) && SetValue(g, i, true) == Err(NullReference)
  {
  }

  /** The copy constructor (VoxelGrid3D.cs, lines 44-58): box, cell size and
      extent (through the corrected setter `SetSize`), then a bit-by-bit copy of
      the whole storage. */
  function Copy(vg: BitGrid): (r: Result<BitGrid>)
    ensures r.Ok? <==> Fits(vg.size) && vg.storage.Cells?
    ensures r.Err? && Fits(vg.size) ==> r.error == NullReference
    ensures r.Ok? ==> r.value == vg
  {
    var g :- SetSize(Grid3(vg.box, vg.voxelSize, Origin, Null), vg.size);
    match vg.storage
    case Null => Err(NullReference)
    case Cells(c) => Ok(g.(storage := Cells(seq(|c|, i requires 0 <= i < |c| => c[i]))))
  }

  /** The copy loop of `Clone` (VoxelGrid3D.cs, lines 73-79): only true cells
      are written. */
  function SetTrueCells(src: BitGrid, dst: BitGrid, i: nat): Result<BitGrid>
    decreases Count(src) - i
  {
    if i >= Count(src) then Ok(dst)
    else
      var v :- GetValue(src, i);
      if v then
        var d :- SetValue(dst, i, true);
        SetTrueCells(src, d, i + 1)
      else SetTrueCells(src, dst, i + 1)
  }

  /** `Clone` (VoxelGrid3D.cs, lines 70-81): a new empty grid from the same box
      and cell size, then the true cells set. */
  function Clone(g: BitGrid, fd: FloorDivide): Result<BitGrid>
  {
    var vg :- New(g.box, g.voxelSize, fd);
    SetTrueCells(g, vg, 0)
  }

  lemma {:induction false} SetTrueCellsCopies(src: BitGrid, dst: BitGrid, i: nat)
    requires HoldsCount(src) && dst.storage.Cells? && |dst.storage.cells| == Count(src)
    requires i <= Count(src)
    requires forall k :: i <= k < Count(src) ==> !dst.storage.cells[k]
    requires dst.storage.cells[..i] == src.storage.cells[..i]
    ensures SetTrueCells(src, dst, i) == Ok(dst.(storage := src.storage))
    decreases Count(src) - i
  {
    var c := src.storage.cells;
    var d := dst.storage.cells;
    if i < Count(src) {
      assert GetValue(src, i) == Ok(c[i]);
      if c[i] {
        var d' := d[i := true];
        assert SetValue(dst, i, true) == Ok(dst.(storage := Cells(d')));
        assert d'[..i + 1] == c[..i + 1] by {
          assert d[..i] == c[..i];
        }
        SetTrueCellsCopies(src, dst.(storage := Cells(d')), i + 1);
      } else {
        assert d[..i + 1] == c[..i + 1] by {
          assert d[..i] == c[..i];
        }
        SetTrueCellsCopies(src, dst, i + 1);
      }
    } else {
      assert d == d[..i] && c == c[..i];
    }
  }

  /** The clone of a well-formed grid has the same box, cell size, extent and
      cells; being a fresh value, changing it cannot change the original. */
  lemma CloneIsEqualCopy(g: BitGrid, fd: FloorDivide)
    requires WellFormed(g) && InitializedBy(g, fd)
    ensures Clone(g, fd) == Ok(g)
  {
    var vg := New(g.box, g.voxelSize, fd).value;
    assert vg.size == g.size;
    SetTrueCellsCopies(g, vg, 0);
  }

  /** `CloneEmpty` (VoxelGrid3D.cs, lines 87-90): the same box and cell size,
      every cell false. */
  function CloneEmpty(g: BitGrid, fd: FloorDivide): (r: Result<BitGrid>)
    ensures r.Ok? ==> r.value.box == g.box && r.value.voxelSize == g.voxelSize
    ensures r.Ok? ==> WellFormed(r.value) && forall k :: 0 <= k < |r.value.storage.cells| ==> !r.value.storage.cells[k]
    ensures InitializedBy(g, fd) && Fits(g.size) ==> r.Ok? && r.value.size == g.size
  {
    New(g.box, g.voxelSize, fd)
  }

  /** `PointInGrid` (VoxelGrid3D.cs, lines 94-97). */
  function PointInGrid(g: BitGrid, p: Point3i): (r: bool)
    ensures r <==> 0 <= p.x < g.size.x && 0 <= p.y < g.size.y && 0 <= p.z < g.size.z
  {
    !(Lt(p, Origin) || Ge(p, g.size))
  }
}

=== FILE: voxelate_geometry.dfy ===
/** The integer part of geometry voxelation (VoxelGridVoxelateGeometry.cs):
the 3D line traversal `InterateLine`, the marking of its cells by `AddLine`,
and the way `AddMeshNew` combines three directional fills.

The traversal keeps, per axis, the parameter `tMax` at which the line next
crosses a cell boundary. After `k` steps along an axis whose cell distance
is `d > 0`, that parameter is `hyp * (2k + 1) / (2d)`; for `d == 0` it is
`+infinity`. Comparing two of them therefore comes down to comparing
`(2k_a + 1) * d_b` with `(2k_b + 1) * d_a`, which is exact and also gives
"equal" for two infinities. The model makes that comparison on integers.
 */
module VoxelateGeometry {
  import opened Wrappers
  import opened Numerics
  import opened Point3i
  import opened Grid3D
  import opened BitGrid3D

  /** The axes one iteration of the traversal advances. */
  datatype Move = Move(x: bool, y: bool, z: bool)

  /** The number of steps taken so far along each axis. */
  datatype Steps = Steps(x: nat, y: nat, z: nat)

  function Abs(n: int): nat
  {
    if n < 0 then -n else n
  }

  /** `Math.Abs(end - start)` per axis: the number of steps each axis needs. */
  function Delta(start: Point3i, end: Point3i): Steps
  {
    Steps(Abs(end.x - start.x), Abs(end.y - start.y), Abs(end.z - start.z))
  }

  /** `start < end ? 1 : -1`. */
  function StepSign(s: int, e: int): int
  {
    if s < e then 1 else -1
  }

  /** The boundary of axis `a` is crossed strictly before that of axis `b`:
      `tMax_a < tMax_b`, cross-multiplied. */
  predicate Earlier(ka: nat, da: nat, kb: nat, db: nat)
  {
    (2 * ka + 1) * db < (2 * kb + 1) * da
  }

  /** The choice of the loop body (VoxelGridVoxelateGeometry.cs, lines
      345-408), with its nested comparisons and its three tie branches. */
  function Choose(k: Steps, d: Steps): (m: Move)
    ensures m.x || m.y || m.z
  {
    if Earlier(k.x, d.x, k.y, d.y) then
      if Earlier(k.x, d.x, k.z, d.z) then Move(true, false, false)
      else if Earlier(k.z, d.z, k.x, d.x) then Move(false, false, true)
      else Move(true, false, true)
    else if Earlier(k.y, d.y, k.x, d.x) then
      if Earlier(k.y, d.y, k.z, d.z) then Move(false, true, false)
      else if Earlier(k.z, d.z, k.y, d.y) then Move(false, false, true)
      else Move(false, true, true)
    else
      if Earlier(k.y, d.y, k.z, d.z) then Move(true, true, false)
      else if Earlier(k.z, d.z, k.y, d.y) then Move(false, false, true)
      else Move(true, true, true)
  }

  lemma MulCancel(p: int, x: int, y: int)
    requires p > 0
    ensures p * x <= p * y ==> x <= y
    ensures p * x < p * y ==> x < y
  {
    if x > y {
      assert p * x - p * y == p * (x - y);
      MulAtLeast(p, x - y);
    }
    if x == y {
      assert p * x == p * y;
    }
  }

  lemma MulKeep(p: int, x: int, y: int)
    requires p > 0
    ensures x <= y ==> p * x <= p * y
    ensures x < y ==> p * x < p * y
  {
    if x < y {
      assert p * y - p * x == p * (y - x);
      MulAtLeast(p, y - x);
    }
  }

  /** Boundary parameters are ordered: "not later than" is transitive, and
      strictly so when either step is strict. With `pa, pb, pc` the odd
      numerators `2k + 1` and `da, db, dc` the distances. */
  lemma {:induction false} BoundaryOrderTransitive(pa: int, da: int, pb: int, db: int, pc: int, dc: int)
    requires pa > 0 && pb > 0 && pc > 0 && da >= 0 && db >= 0 && dc >= 0
    requires pa * db <= pb * da && pb * dc <= pc * db
    ensures pa * dc <= pc * da
    ensures pa * db < pb * da || pb * dc < pc * db ==> pa * dc < pc * da
  {
    assert pb * (pa * dc) == pa * (pb * dc);
    assert pc * (pa * db) == pa * (pc * db);
    assert pc * (pb * da) == pb * (pc * da);
    MulKeep(pa, pb * dc, pc * db);
    MulKeep(pc, pa * db, pb * da);
    MulCancel(pb, pa * dc, pc * da);
  }

  /** Three boundary parameters compared every way. */
  lemma OrderOfThree(k: Steps, d: Steps)
    ensures !Earlier(k.y, d.y, k.x, d.x) && !Earlier(k.z, d.z, k.y, d.y) ==> !Earlier(k.z, d.z, k.x, d.x)
    ensures !Earlier(k.x, d.x, k.y, d.y) && !Earlier(k.z, d.z, k.x, d.x) ==> !Earlier(k.z, d.z, k.y, d.y)
    ensures !Earlier(k.y, d.y, k.z, d.z) && !Earlier(k.x, d.x, k.y, d.y) ==> !Earlier(k.x, d.x, k.z, d.z)
    ensures !Earlier(k.x, d.x, k.z, d.z) && !Earlier(k.y, d.y, k.x, d.x) ==> !Earlier(k.y, d.y, k.z, d.z)
    ensures !Earlier(k.z, d.z, k.x, d.x) && !Earlier(k.y, d.y, k.z, d.z) ==> !Earlier(k.y, d.y, k.x, d.x)
    ensures !Earlier(k.z, d.z, k.y, d.y) && !Earlier(k.x, d.x, k.z, d.z) ==> !Earlier(k.x, d.x, k.y, d.y)
    ensures Earlier(k.x, d.x, k.y, d.y) && !Earlier(k.z, d.z, k.y, d.y) ==> Earlier(k.x, d.x, k.z, d.z)
    ensures !Earlier(k.y, d.y, k.x, d.x) && Earlier(k.y, d.y, k.z, d.z) ==> Earlier(k.x, d.x, k.z, d.z)
    ensures Earlier(k.x, d.x, k.z, d.z) && !Earlier(k.y, d.y, k.z, d.z) ==> Earlier(k.x, d.x, k.y, d.y)
    ensures !Earlier(k.z, d.z, k.x, d.x) && Earlier(k.z, d.z, k.y, d.y) ==> Earlier(k.x, d.x, k.y, d.y)
    ensures Earlier(k.y, d.y, k.x, d.x) && !Earlier(k.z, d.z, k.x, d.x) ==> Earlier(k.y, d.y, k.z, d.z)
    ensures !Earlier(k.x, d.x, k.y, d.y) && Earlier(k.x, d.x, k.z, d.z) ==> Earlier(k.y, d.y, k.z, d.z)
    ensures Earlier(k.y, d.y, k.z, d.z) && !Earlier(k.x, d.x, k.z, d.z) ==> Earlier(k.y, d.y, k.x, d.x)
    ensures !Earlier(k.z, d.z, k.y, d.y) && Earlier(k.z, d.z, k.x, d.x) ==> Earlier(k.y, d.y, k.x, d.x)
    ensures Earlier(k.z, d.z, k.x, d.x) && !Earlier(k.y, d.y, k.x, d.x) ==> Earlier(k.z, d.z, k.y, d.y)
    ensures !Earlier(k.x, d.x, k.z, d.z) && Earlier(k.x, d.x, k.y, d.y) ==> Earlier(k.z, d.z, k.y, d.y)
    ensures Earlier(k.z, d.z, k.y, d.y) && !Earlier(k.x, d.x, k.y, d.y) ==> Earlier(k.z, d.z, k.x, d.x)
    ensures !Earlier(k.y, d.y, k.z, d.z) && Earlier(k.y, d.y, k.x, d.x) ==> Earlier(k.z, d.z, k.x, d.x)
  {
    var px, py, pz := 2 * k.x + 1, 2 * k.y + 1, 2 * k.z + 1;
    if px * d.y <= py * d.x && py * d.z <= pz * d.y { BoundaryOrderTransitive(px, d.x, py, d.y, pz, d.z); }
    if px * d.z <= pz * d.x && pz * d.y <= py * d.z { BoundaryOrderTransitive(px, d.x, pz, d.z, py, d.y); }
    if py * d.x <= px * d.y && px * d.z <= pz * d.x { BoundaryOrderTransitive(py, d.y, px, d.x, pz, d.z); }
    if py * d.z <= pz * d.y && pz * d.x <= px * d.z { BoundaryOrderTransitive(py, d.y, pz, d.z, px, d.x); }
    if pz * d.x <= px * d.z && px * d.y <= py * d.x { BoundaryOrderTransitive(pz, d.z, px, d.x, py, d.y); }
    if pz * d.y <= py * d.z && py * d.x <= px * d.y { BoundaryOrderTransitive(pz, d.z, py, d.y, px, d.x); }
  }

  /** The nested comparisons step exactly the axes whose next boundary comes
      first: an axis steps iff no other axis crosses a boundary strictly
      earlier, so tied axes step together. */
  lemma ChooseTakesEarliest(k: Steps, d: Steps)
    ensures Choose(k, d).x <==> !Earlier(k.y, d.y, k.x, d.x) && !Earlier(k.z, d.z, k.x, d.x)
    ensures Choose(k, d).y <==> !Earlier(k.x, d.x, k.y, d.y) && !Earlier(k.z, d.z, k.y, d.y)
    ensures Choose(k, d).z <==> !Earlier(k.x, d.x, k.z, d.z) && !Earlier(k.y, d.y, k.z, d.z)
  {
    OrderOfThree(k, d);
  }

  /** An axis that still has to step crosses its next boundary strictly
      before an axis that has arrived (whose next boundary lies beyond the
      end of the segment, or at infinity). */
  lemma {:induction false} ArrivedIsLater(ka: nat, da: nat, kb: nat, db: nat)
    requires ka == da && kb < db
    ensures Earlier(kb, db, ka, da)
  {
    MulKeep(da + 1, 2 * kb + 1, 2 * db - 1);
    assert (2 * kb + 1) * da <= (2 * db - 1) * da by {
      if da > 0 { MulKeep(da, 2 * kb + 1, 2 * db - 1); }
    }
    assert (2 * db - 1) * da == 2 * da * db - da;
    assert (2 * ka + 1) * db == 2 * da * db + db;
  }

  predicate Within(k: Steps, d: Steps)
  {
    k.x <= d.x && k.y <= d.y && k.z <= d.z
  }

  function Remaining(k: Steps, d: Steps): nat
    requires Within(k, d)
  {
    (d.x - k.x) + (d.y - k.y) + (d.z - k.z)
  }

  function Advance(k: Steps, m: Move): Steps
  {
    Steps(k.x + (if m.x then 1 else 0), k.y + (if m.y then 1 else 0), k.z + (if m.z then 1 else 0))
  }

  /** While some axis has not arrived, every chosen axis is one that has not,
      so no axis ever steps past the end. */
  lemma ChooseStaysWithin(k: Steps, d: Steps)
    requires Within(k, d) && k != d
    ensures var m := Choose(k, d);
            && (m.x ==> k.x < d.x) && (m.y ==> k.y < d.y) && (m.z ==> k.z < d.z)
            && Within(Advance(k, m), d)
            && Remaining(Advance(k, m), d) < Remaining(k, d)
  {
    ChooseTakesEarliest(k, d);
    if k.x == d.x {
      if k.y < d.y { ArrivedIsLater(k.x, d.x, k.y, d.y); } else { ArrivedIsLater(k.x, d.x, k.z, d.z); }
    }
    if k.y == d.y {
      if k.x < d.x { ArrivedIsLater(k.y, d.y, k.x, d.x); } else { ArrivedIsLater(k.y, d.y, k.z, d.z); }
    }
    if k.z == d.z {
      if k.x < d.x { ArrivedIsLater(k.z, d.z, k.x, d.x); } else { ArrivedIsLater(k.z, d.z, k.y, d.y); }
    }
  }

  /** A coordinate after `k` steps of `StepSign(s, e)` from `s`. */
  function Coord(s: Int16, e: Int16, k: nat): (c: Int16)
    requires k <= Abs(e - s)
    ensures s <= e ==> s <= c <= e
    ensures e <= s ==> e <= c <= s
  {
    if s < e then s + k else s - k
  }

  /** How far coordinate `c` lies from `s` towards `e`. */
  function Progress(s: int, e: int, c: int): int
  {
    if s < e then c - s else s - c
  }

  /** `new Point3i(currentU, currentV, currentW)` after `k` steps: the checked
      constructor, which cannot overflow since every coordinate lies between
      the start and the end. */
  function Position(start: Point3i, end: Point3i, k: Steps): (p: Point3i)
    requires Within(k, Delta(start, end))
    ensures FromInts(p.x, p.y, p.z) == Ok(p)
    ensures Progress(start.x, end.x, p.x) == k.x && Progress(start.y, end.y, p.y) == k.y
    ensures Progress(start.z, end.z, p.z) == k.z
    ensures p == end <==> k == Delta(start, end)
  {
    Point3i(Coord(start.x, end.x, k.x), Coord(start.y, end.y, k.y), Coord(start.z, end.z, k.z))
  }

  /** The cells of the segment lie, axis by axis, between the start and the
      end. */
  predicate InBox(start: Point3i, end: Point3i, p: Point3i)
  {
    && 0 <= Progress(start.x, end.x, p.x) <= Abs(end.x - start.x)
    && 0 <= Progress(start.y, end.y, p.y) <= Abs(end.y - start.y)
    && 0 <= Progress(start.z, end.z, p.z) <= Abs(end.z - start.z)
  }

  /** The total distance travelled from the start. */
  function Travelled(start: Point3i, end: Point3i, p: Point3i): int
  {
    Progress(start.x, end.x, p.x) + Progress(start.y, end.y, p.y) + Progress(start.z, end.z, p.z)
  }

  /** `q` follows `p` by one iteration: each axis moved by its step or not at
      all, and at least one moved. */
  predicate Adjacent(start: Point3i, end: Point3i, p: Point3i, q: Point3i)
  {
    && (q.x == p.x || q.x == p.x + StepSign(start.x, end.x))
    && (q.y == p.y || q.y == p.y + StepSign(start.y, end.y))
    && (q.z == p.z || q.z == p.z + StepSign(start.z, end.z))
    && p != q
  }

  /** The iterations of the loop from `k` steps on: each yields the position
      after that iteration, until the position is the end. */
  function Walk(start: Point3i, end: Point3i, k: Steps): (cells: seq<Point3i>)
    requires Within(k, Delta(start, end))
    ensures |cells| <= Remaining(k, Delta(start, end))
    ensures |cells| >= Delta(start, end).x - k.x && |cells| >= Delta(start, end).y - k.y
    ensures |cells| >= Delta(start, end).z - k.z
    ensures |cells| == 0 <==> k == Delta(start, end)
    ensures |cells| > 0 ==> cells[|cells| - 1] == end
    decreases Remaining(k, Delta(start, end))
  {
    var d := Delta(start, end);
    if Position(start, end, k) == end then []
    else
      var k' := Advance(k, Choose(k, d));
      ChooseStaysWithin(k, d);
      [Position(start, end, k')] + Walk(start, end, k')
  }

  lemma WalkUnfolds(start: Point3i, end: Point3i, k: Steps)
    requires Within(k, Delta(start, end)) && k != Delta(start, end)
    ensures var k' := Advance(k, Choose(k, Delta(start, end)));
            Within(k', Delta(start, end)) && Walk(start, end, k) == [Position(start, end, k')] + Walk(start, end, k')
  {
    ChooseStaysWithin(k, Delta(start, end));
  }

  lemma WalkLengthStep(start: Point3i, end: Point3i, k: Steps)
    requires Within(k, Delta(start, end)) && k != Delta(start, end)
    ensures var k' := Advance(k, Choose(k, Delta(start, end)));
            Within(k', Delta(start, end)) && |Walk(start, end, k)| == 1 + |Walk(start, end, k')|
  {
    WalkUnfolds(start, end, k);
  }

  /** One iteration from a position other than the end: the next position is
      adjacent, inside the box, and strictly further along. */
  lemma StepMovesTowardsEnd(start: Point3i, end: Point3i, k: Steps)
    requires Within(k, Delta(start, end)) && k != Delta(start, end)
    ensures var k' := Advance(k, Choose(k, Delta(start, end)));
            && Within(k', Delta(start, end))
            && Adjacent(start, end, Position(start, end, k), Position(start, end, k'))
            && InBox(start, end, Position(start, end, k'))
            && Travelled(start, end, Position(start, end, k')) == k'.x + k'.y + k'.z > k.x + k.y + k.z
  {
    ChooseStaysWithin(k, Delta(start, end));
  }

  /** Every cell of the walk lies in the box and further along than the
      position it starts from. */
  lemma {:induction false} WalkStaysInBox(start: Point3i, end: Point3i, k: Steps)
    requires Within(k, Delta(start, end))
    ensures var cells := Walk(start, end, k);
            forall i :: 0 <= i < |cells| ==>
              InBox(start, end, cells[i]) && Travelled(start, end, cells[i]) > k.x + k.y + k.z
    decreases Remaining(k, Delta(start, end))
  {
    if k != Delta(start, end) {
      var k' := Advance(k, Choose(k, Delta(start, end)));
      WalkUnfolds(start, end, k);
      StepMovesTowardsEnd(start, end, k);
      WalkStaysInBox(start, end, k');
      var cells := Walk(start, end, k);
      var rest := Walk(start, end, k');
      forall i | 0 <= i < |cells|
        ensures InBox(start, end, cells[i]) && Travelled(start, end, cells[i]) > k.x + k.y + k.z
      {
        if i > 0 {
          assert cells[i] == rest[i - 1];
        }
      }
    }
  }

  /** Each cell of the walk is one iteration away from the one before it. */
  lemma {:induction false} WalkIsConnected(start: Point3i, end: Point3i, k: Steps)
    requires Within(k, Delta(start, end))
    ensures var cells := Walk(start, end, k);
            && (|cells| > 0 ==> Adjacent(start, end, Position(start, end, k), cells[0]))
            && forall i :: 0 <= i < |cells| - 1 ==> Adjacent(start, end, cells[i], cells[i + 1])
    decreases Remaining(k, Delta(start, end))
  {
    if k != Delta(start, end) {
      var k' := Advance(k, Choose(k, Delta(start, end)));
      WalkUnfolds(start, end, k);
      StepMovesTowardsEnd(start, end, k);
      ChooseStaysWithin(k, Delta(start, end));
      WalkIsConnected(start, end, k');
    }
  }

  /** One iteration adds at least one to the distance travelled. */
  lemma AdjacentMovesForward(start: Point3i, end: Point3i, p: Point3i, q: Point3i)
    requires Adjacent(start, end, p, q)
    ensures Travelled(start, end, p) < Travelled(start, end, q)
  {
  }

  /** Along a chain of iterations the distance travelled grows strictly, so
      no cell is visited twice. */
  lemma {:induction false} ChainMovesForward(start: Point3i, end: Point3i, cells: seq<Point3i>)
    requires forall i :: 0 <= i < |cells| - 1 ==> Adjacent(start, end, cells[i], cells[i + 1])
    ensures forall i, j :: 0 <= i < j < |cells| ==> Travelled(start, end, cells[i]) < Travelled(start, end, cells[j])
  {
    if |cells| > 1 {
      var n := |cells| - 1;
      ChainMovesForward(start, end, cells[..n]);
      AdjacentMovesForward(start, end, cells[n - 1], cells[n]);
      forall i, j | 0 <= i < j < |cells|
        ensures Travelled(start, end, cells[i]) < Travelled(start, end, cells[j])
      {
        if j < n {
          assert cells[i] == cells[..n][i] && cells[j] == cells[..n][j];
        } else if i < n - 1 {
          assert cells[i] == cells[..n][i] && cells[n - 1] == cells[..n][n - 1];
        }
      }
    }
  }

  /** `InterateLine` (VoxelGridVoxelateGeometry.cs, lines 327-412). */
  function InterateLine(start: Point3i, end: Point3i): (cells: seq<Point3i>)
    ensures start == end <==> cells == []
    ensures |cells| > 0 ==> cells[|cells| - 1] == end
    ensures forall i :: 0 <= i < |cells| ==> cells[i] != start && InBox(start, end, cells[i])
    ensures |cells| > 0 ==> Adjacent(start, end, start, cells[0])
    ensures forall i :: 0 <= i < |cells| - 1 ==> Adjacent(start, end, cells[i], cells[i + 1])
    ensures forall i, j :: 0 <= i < j < |cells| ==> cells[i] != cells[j]
    ensures var d := Delta(start, end);
            d.x <= |cells| && d.y <= |cells| && d.z <= |cells| && |cells| <= d.x + d.y + d.z
  {
    var k := Steps(0, 0, 0);
    assert Position(start, end, k) == start;
    WalkStaysInBox(start, end, k);
    WalkIsConnected(start, end, k);
    ChainMovesForward(start, end, Walk(start, end, k));
    Walk(start, end, k)
  }

  /** The traversal is a 26-connected path: consecutive cells differ by at
      most one in each coordinate, and an axis on which the start and end
      agree never moves. */
  lemma InterateLineIsConnected(start: Point3i, end: Point3i, i: nat)
    requires i < |InterateLine(start, end)|
    ensures var cells := InterateLine(start, end);
            var p := if i == 0 then start else cells[i - 1];
            && -1 <= cells[i].x - p.x <= 1 && -1 <= cells[i].y - p.y <= 1 && -1 <= cells[i].z - p.z <= 1
    ensures start.x == end.x ==> InterateLine(start, end)[i].x == start.x
    ensures start.y == end.y ==> InterateLine(start, end)[i].y == start.y
    ensures start.z == end.z ==> InterateLine(start, end)[i].z == start.z
  {
  }

  /** A diagonal has every cell on the diagonal: the three axes tie at every
      boundary and step together. */
  lemma DiagonalStepsAllAxes(start: Point3i, n: nat)
    requires FromInts(start.x + n, start.y + n, start.z + n).Ok?
    ensures var end := FromInts(start.x + n, start.y + n, start.z + n).value;
            |InterateLine(start, end)| == n
  {
    var end := FromInts(start.x + n, start.y + n, start.z + n).value;
    DiagonalWalk(start, end, n, 0);
  }

  lemma {:induction false} DiagonalWalk(start: Point3i, end: Point3i, n: nat, j: nat)
    requires Delta(start, end) == Steps(n, n, n) && j <= n
    ensures |Walk(start, end, Steps(j, j, j))| == n - j
    decreases n - j
  {
    var k := Steps(j, j, j);
    if j < n {
      var d := Delta(start, end);
      var k' := Steps(j + 1, j + 1, j + 1);
      assert Choose(k, d) == Move(true, true, true) by {
        assert !Earlier(j, n, j, n);
      }
      assert Advance(k, Choose(k, d)) == k';
      WalkLengthStep(start, end, k);
      DiagonalWalk(start, end, n, j + 1);
    } else {
      assert k == Delta(start, end);
    }
  }

  // ---------------------------------------------------------------- AddLine

  /** The loop of `AddLine`: cells outside the grid are skipped, the others
      set through the coordinate indexer. */
  function MarkCells(vg: BitGrid, pts: seq<Point3i>): Result<BitGrid>
    decreases |pts|
  {
    if |pts| == 0 then Ok(vg)
    else if Lt(pts[0], Origin) || Ge(pts[0], vg.size) then MarkCells(vg, pts[1..])
    else
      var g :- SetAt(BitCells, vg, pts[0], true);
      MarkCells(g, pts[1..])
  }

  /** `AddLine` (VoxelGridVoxelateGeometry.cs, lines 310-319). The end points
      are the grid cells closest to the line's end points, which are computed
      in floating point and so are parameters here. */
  function AddLine(vg: BitGrid, start: Point3i, end: Point3i): Result<BitGrid>
  {
    MarkCells(vg, InterateLine(start, end))
  }

  /** Marking sets exactly the cells of the grid that appear in the list and
      leaves every other cell and the grid's shape as they were. */
  lemma {:induction false} MarkCellsSetsListedCells(vg: BitGrid, pts: seq<Point3i>)
    requires WellFormed(vg)
    ensures MarkCells(vg, pts).Ok?
    ensures var r := MarkCells(vg, pts).value;
            && WellFormed(r) && r.box == vg.box && r.voxelSize == vg.voxelSize && r.size == vg.size
            && forall j :: 0 <= j < Count(vg) ==>
                 r.storage.cells[j] == (vg.storage.cells[j] || Uvw(vg.size, j) in pts)
    decreases |pts|
  {
    if |pts| > 0 {
      var p := pts[0];
      assert pts == [p] + pts[1..];
      if Lt(p, Origin) || Ge(p, vg.size) {
        MarkCellsSetsListedCells(vg, pts[1..]);
        forall j | 0 <= j < Count(vg)
          ensures Uvw(vg.size, j) in pts <==> Uvw(vg.size, j) in pts[1..]
        {
          assert InGrid(Uvw(vg.size, j), vg.size);
        }
      } else {
        CellOfIndex(vg.size, p);
        var g := SetAt(BitCells, vg, p, true).value;
        assert g.storage.cells == vg.storage.cells[IndexOf(vg, p) := true];
        MarkCellsSetsListedCells(g, pts[1..]);
        forall j | 0 <= j < Count(vg)
          ensures g.storage.cells[j] == (vg.storage.cells[j] || Uvw(vg.size, j) == p)
        {
          IndexOfCell(vg.size, j);
        }
      }
    }
  }

  /** On a well-formed grid, `AddLine` sets exactly the traversed cells that
      lie inside the grid. */
  lemma AddLineSetsTraversedCells(vg: BitGrid, start: Point3i, end: Point3i)
    requires WellFormed(vg)
    ensures AddLine(vg, start, end).Ok?
    ensures var r := AddLine(vg, start, end).value;
            && WellFormed(r) && r.size == vg.size
            && forall j :: 0 <= j < Count(vg) ==>
                 r.storage.cells[j] == (vg.storage.cells[j] || Uvw(vg.size, j) in InterateLine(start, end))
  {
    MarkCellsSetsListedCells(vg, InterateLine(start, end));
  }

  // ---------------------------------------------------------------- AddMeshNew

  /** The closed-mesh branch of `AddMeshNew` (VoxelGridVoxelateGeometry.cs,
      lines 207-220): three empty clones are each filled by voxelating in one
      direction, which is floating-point work and so arrives here as the
      filled grids `fx`, `fy`, `fz`; then `fx.And(fy); fx.And(fz); vg.Or(fx)`. */
  function AddClosedMesh(vg: BitGrid, fx: BitGrid, fy: BitGrid, fz: BitGrid): Result<BitGrid>
  {
    var x :- And(fx, fy);
    var x :- And(x, fz);
    Or(vg, x)
  }

  /** A cell is set afterwards iff it was set before or all three directional
      fills contain it; grids of different counts make the combination fail. */
  lemma AddClosedMeshIsIntersection(vg: BitGrid, fx: BitGrid, fy: BitGrid, fz: BitGrid)
    requires HoldsCount(vg) && HoldsCount(fx) && HoldsCount(fy) && HoldsCount(fz)
    ensures AddClosedMesh(vg, fx, fy, fz).Ok? <==> Count(vg) == Count(fx) == Count(fy) == Count(fz)
    ensures AddClosedMesh(vg, fx, fy, fz).Err? ==> AddClosedMesh(vg, fx, fy, fz).error == Failure(SIZE_MISMATCH)
    ensures AddClosedMesh(vg, fx, fy, fz).Ok? ==>
              var r := AddClosedMesh(vg, fx, fy, fz).value;
              && r.size == vg.size && HoldsCount(r)
              && forall k :: 0 <= k < Count(vg) ==>
                   r.storage.cells[k] == (vg.storage.cells[k] ||
                     (fx.storage.cells[k] && fy.storage.cells[k] && fz.storage.cells[k]))
  {
    CombineIsCellwise(AndOp, fx, fy);
    if Count(fx) == Count(fy) {
      var x := And(fx, fy).value;
      CombineIsCellwise(AndOp, x, fz);
      if Count(x) == Count(fz) {
        var x2 := And(x, fz).value;
        CombineIsCellwise(OrOp, vg, x2);
      }
    }
  }
}

=== FILE: wrappers.dfy ===
/** Failure-compatible result types used by every module of the voxel model.

An operation of the library that can throw a .NET exception is modelled as a
function returning `Result<T>`: `Ok(v)` when the call returns `v` and `Err(e)`
when it throws an exception of kind `e`. Errors abort the whole operation; the
partial effects an in-place C# loop leaves behind before it throws are not part
of the model.
 */
module Wrappers {

  /** The exception kinds the modelled code raises. */
  datatype Error =
    | Overflow                    // System.OverflowException (checked conversions)
    | DivideByZero                // System.DivideByZeroException
    | IndexOutOfRange             // System.IndexOutOfRangeException (arrays, indexers)
    | ArgumentOutOfRange          // System.ArgumentOutOfRangeException (BitArray, decoders)
    | NullReference               // System.NullReferenceException
    | Format                      // System.FormatException (hex parsing)
    | Argument(message: string)   // System.ArgumentException
    | Failure(message: string)    // System.Exception thrown by the library itself

  /** The outcome of an operation that returns a `T` or throws. */
  datatype Result<+T> = Ok(value: T) | Err(error: Error) {

    predicate IsFailure() {
      Err?
    }

    function PropagateFailure<U>(): Result<U>
      requires Err?
    {
      Err(error)
    }

    function Extract(): T
      requires Ok?
    {
      value
    }
  }

  /** A value that may be absent (a component output that is never set, a null). */
  datatype Option<+T> = None | Some(value: T)
}
